=== FILE: README.md ===
# LLM-learning-tools, modelled in Dafny

This project models the tutorial pipeline of LLM-learning-tools and proves properties about it, together with the smaller parsers and stores around it.

**The tutorial pipeline.** A topic goes in. A language model streams text for three stages:
- a chapter outline made of `# 第N章 title` headings;
- a section outline per chapter, made of `## C.S title` headings;
- the prose of every section.

Each outline stage forwards every non-empty fragment as a `chunk` event as it arrives. Then it parses the accumulated text with a line-oriented state machine. On any exception it starts over with a fresh call, and that includes an outline that parses to nothing. The agent's `process_message` checks that the model server is up. It then runs the three stages and multiplexes their events onto one ordered stream: `progress`, `chunk`, `chapter`, `section`, `content`, `error` and `complete`. As it goes, it fills in each chapter's sections and each section's content.

**Around the pipeline:**
- the model clients: the Ollama streaming loop, and the hosted providers' request payload, URL and stream-line handling;
- the provider configuration merge;
- the knowledge-graph `<node|...>` parser;
- the exercise `<type|question|answer>` parser;
- the simulation builder's code-block extraction and HTML validation;
- the tutorial store: tree projection, safe file names and listing;
- the settings store;
- the learning-plan task updates;
- the `LearningTree` node and edge lists;
- the frontend event bus.

**Modules:**
- `Text`: the Python string built-ins the code relies on (`strip`, `split`, `in`, `int()`, `str()`, `lower`, `join`).
- `Json`: parsed JSON values.
- `Outline`, `OutlineFacts`: the two outline parsers and their properties.
- `Stages`: the three retrying stage generators.
- `Events`, `Pipeline`, `Agent`: the event stream of `process_message`.
- `LineStream`, `OllamaClient`, `Providers`: the model clients and provider configuration.
- `KnowledgeGraph`, `Exercises`, `Simulation`, `Tutorials`, `Settings`, `LearningPlans`, `LearningTreeStore`, `EventBus`: one module per remaining source file.

**The model server.** It is a finite queue of attempts, consumed in order by every model call of a run. An attempt is either `Failed(partial)` (some fragments, then a transport error) or `Completed(fragments)`. The source retries forever. The model instead reports `done == false` (`Stalled` for the whole run) when the queue runs out while a stage is still retrying. This needs no precondition that some attempt succeeds.

**State.** Code that updates state in place is modelled as classes, with `modifies` clauses and the new state stated in full. This covers the tutorial store, the settings store, the learning plan, the learning tree, the provider configuration and the event bus. Loops are methods proved equal to reference functions. The properties are lemmas about those functions.

## Model

| member | source | states |
|---|---|---|
| Outline.Lines | backend/agent/tools/content_generator.py:281 | `content.split('\n')` always gives at least one line |
| Outline.ChapterLine | backend/agent/tools/content_generator.py:282-318 | one pass of the chapter loop body over one raw line is exactly one step of the reference state machine `ChapterStep`: strip, skip blank lines, flush on `# ` before validating, accept `第N章`, set the description on a `<...>` line |
| Outline.ScanChapterLines | backend/agent/tools/content_generator.py:277-318 | the line loop leaves `current_title`, `current_desc`, `chapter_number` and the chapter list equal to the left fold of `ChapterStep` over the lines |
| Outline.ParseChapterOutline | backend/agent/tools/content_generator.py:276-326 | the chapter parser as run (split, line loop, final flush) returns exactly `ParseChapters(content)` |
| Outline.SectionLine | backend/agent/tools/content_generator.py:392-436 | one pass of the section loop body is one step of `SectionStep`: flush on `## ` first, then split at the first space, require `.` in the number and `str(chapter.number)` before the first `.` |
| Outline.ScanSectionLines | backend/agent/tools/content_generator.py:387-436 | the section line loop equals the left fold of `SectionStep` |
| Outline.ParseSectionOutline | backend/agent/tools/content_generator.py:386-444 | the section parser as run returns exactly `ParseSections(content, n)` |
| Outline.ScanChaptersSnoc | backend/agent/tools/content_generator.py:282-318 | one more line advances the chapter scan by exactly one step |
| Outline.ScanSectionsSnoc | backend/agent/tools/content_generator.py:392-436 | one more line advances the section scan by exactly one step |
| Outline.ChapterStep | backend/agent/tools/content_generator.py:282-318 | one loop pass only ever appends to the chapter list, at most one chapter, and what it appends is the open chapter flushed with its stripped description |
| Outline.ChapterStepTitled | backend/agent/tools/content_generator.py:288-310 | a step keeps every flushed chapter titled and without sections (a one-step helper for ParseChapters's invariant) |
| Outline.ParseChapters | backend/agent/tools/content_generator.py:276-326 | every chapter the parser returns has a title and no sections yet |
| Outline.SectionStep | backend/agent/tools/content_generator.py:392-436 | one loop pass only ever appends to the section list, at most one section, and what it appends is the open section (number and title set) flushed with its stripped description |
| Outline.SectionStepNamed | backend/agent/tools/content_generator.py:398-426 | a step keeps every flushed section numbered, titled and without content (a one-step helper for ParseSections's invariant) |
| Outline.ParseSections | backend/agent/tools/content_generator.py:386-444 | every section the parser returns has a number, a title and no content yet |
| OutlineFacts.ChapterTitleParts | backend/agent/tools/content_generator.py:302-309 | a title `第{N}章 {name}` starts with `第`, has its first `章` right after the number's text, and the name after a space |
| OutlineFacts.ChapterHeadingOf | backend/agent/tools/content_generator.py:297-310 | a heading written as `第{N}章 {name}` is accepted with number N and title `第{N}章 {name}` (int and str round-trip) |
| OutlineFacts.ChapterHeadingStep | backend/agent/tools/content_generator.py:288-310 | an accepted `# ` line flushes the open chapter and opens the new one with an empty description |
| OutlineFacts.ChapterDescStep | backend/agent/tools/content_generator.py:316-318 | a `<d>` line while a chapter is open sets its description to `d` and changes nothing else |
| OutlineFacts.ScanChapterOutline | backend/agent/tools/content_generator.py:282-318 | scanning a well-formed outline leaves all chapters but the last flushed and the last one open with its title, description and number |
| OutlineFacts.ChapterOutlineRoundTrip | backend/agent/tools/content_generator.py:276-326 | the chapter parser reads back every chapter of an outline written in the prompt's format, in order, with number, title and description (parse after format is the identity) |
| OutlineFacts.SectionNumberShape | backend/agent/tools/content_generator.py:409-420 | a section number `{n}.{suffix}` has no space, contains `.`, and has `str(n)` before its first `.` |
| OutlineFacts.SectionHeadingOf | backend/agent/tools/content_generator.py:406-426 | a heading `{n}.{suffix} {title}` is accepted for chapter n with that number and title |
| OutlineFacts.SectionHeadingStep | backend/agent/tools/content_generator.py:398-426 | an accepted `## ` line flushes the open section and opens the new one |
| OutlineFacts.SectionDescStep | backend/agent/tools/content_generator.py:434-436 | a `<d>` line while a section is open sets only its description |
| OutlineFacts.ScanSectionOutline | backend/agent/tools/content_generator.py:392-436 | scanning a well-formed section outline leaves all but the last section flushed and the last one open |
| OutlineFacts.SectionOutlineRoundTrip | backend/agent/tools/content_generator.py:386-444 | the section parser reads back every section of a chapter outline written in the prompt's format, in order |
| OutlineFacts.SectionHeadingNumbered | backend/agent/tools/content_generator.py:419-421 | an accepted section number starts with `str(n)` followed by `.` |
| OutlineFacts.SectionStepNumbered | backend/agent/tools/content_generator.py:398-436 | every step of the section parser keeps every flushed and open section numbered `n.`-something |
| OutlineFacts.ScanSectionsNumbered | backend/agent/tools/content_generator.py:392-436 | the whole scan keeps that invariant |
| OutlineFacts.ParseSectionsNumbered | backend/agent/tools/content_generator.py:419-421 | every returned section of chapter n is numbered `n.`-something, so `01.1` or `2.1` never opens a section of chapter 1 |
| OutlineFacts.ScanChaptersCount | backend/agent/tools/content_generator.py:288-326 | flushed plus open chapters never exceed the `# ` lines seen |
| OutlineFacts.ParseChaptersCount | backend/agent/tools/content_generator.py:288-326 | the parser returns at most one chapter per `# ` line |
| OutlineFacts.ScanSectionsCount | backend/agent/tools/content_generator.py:398-444 | flushed plus open sections never exceed the `## ` lines seen |
| OutlineFacts.ParseSectionsCount | backend/agent/tools/content_generator.py:398-444 | the parser returns at most one section per `## ` line |
| OutlineFacts.ChapterStepSeen | backend/agent/tools/content_generator.py:288-310 | a chapter is open or flushed after a step iff it was before or the line is an accepted heading |
| OutlineFacts.ScanChaptersSeen | backend/agent/tools/content_generator.py:282-318 | a chapter has been opened iff some line is an accepted chapter heading |
| OutlineFacts.ParseChaptersEmpty | backend/agent/tools/content_generator.py:328-334 | the chapter parser returns nothing (so the stage raises and retries) iff no line is an accepted chapter heading |
| OutlineFacts.SectionHeadingOpens | backend/agent/tools/content_generator.py:409-426 | an accepted section heading has a non-empty number and title, so it really opens a section |
| OutlineFacts.SectionStepSeen | backend/agent/tools/content_generator.py:398-426 | a section is open or flushed after a step iff it was before or the line is an accepted heading |
| OutlineFacts.ScanSectionsSeen | backend/agent/tools/content_generator.py:392-436 | a section has been opened iff some line is an accepted heading for the chapter |
| OutlineFacts.ParseSectionsSeen | backend/agent/tools/content_generator.py:439-445 | the section list is empty iff no line opens a section |
| OutlineFacts.ParseSectionsEmpty | backend/agent/tools/content_generator.py:445-453 | the section parser returns nothing (so the stage raises and retries) iff no line is an accepted section heading for the chapter |
| OutlineFacts.ChapterStepRejected | backend/agent/tools/content_generator.py:288-314 | a rejected `# ` heading still appends the open chapter and leaves it open with its title, description and number (a one-step fact about ChapterStep; RejectedHeadingDuplicates exhibits the resulting duplicate on an outline) |
| OutlineFacts.SectionStepRejected | backend/agent/tools/content_generator.py:398-431 | a rejected `## ` heading still appends the open section and leaves it open (a one-step fact about SectionStep, of which ForeignSectionStep is a case) |
| OutlineFacts.ForeignSectionStep | backend/agent/tools/content_generator.py:419-421 | a heading numbered for another chapter is rejected, after flushing |
| OutlineFacts.DuplicateScan | backend/agent/tools/content_generator.py:392-436 | on `## n.s A`, `<x>`, `## m.t B`, `<y>` the scan holds section A once, with x, and A is still open with y |
| OutlineFacts.RejectedHeadingDuplicates | backend/agent/tools/content_generator.py:398-444 | for that input the parser returns section A twice, first with description x and then with y |
| Stages.ChunksNonEmpty | backend/agent/tools/content_generator.py:264-274 | every chunk event of a call carries a non-empty fragment |
| Stages.ChunksCarryContent | backend/agent/tools/content_generator.py:264-274 | the texts of the chunk events concatenate to exactly the accumulated text: skipping empty fragments loses nothing |
| Stages.ChunkTextsAppend | backend/agent/tools/content_generator.py:264-274 | the chunk texts of two event runs are the chunk texts of each, in order |
| Stages.ConcatAppend | backend/agent/tools/content_generator.py:274 | accumulation distributes over concatenation of fragment lists |
| Stages.StreamChunksOnlyChunks | backend/agent/tools/content_generator.py:248-274 | a run of calls yields only chunk events; failed calls' chunks are not retracted |
| Stages.StreamCall | backend/agent/tools/content_generator.py:264-274 | the streaming loop yields one chunk per non-empty fragment in arrival order and accumulates their concatenation |
| Stages.MainOutlineCall | backend/agent/tools/content_generator.py:248-341 | one pass of the retry loop: its chunks extend the stream, it succeeds only on a completed call whose text parses to a non-empty chapter list, and then returns that list |
| Stages.NoChaptersEvery | backend/agent/tools/content_generator.py:328-344 | "no call produced chapters" holds iff every call in the run failed or parsed to nothing |
| Stages.GenerateMainOutline | backend/agent/tools/content_generator.py:241-344 | generate_main_outline: the events are the chunks of every call made, then exactly one `chapters` event carrying the parse of the first completed call with a chapter; all earlier calls fail; with no such call there is no `chapters` event |
| Stages.ChapterOutlineCall | backend/agent/tools/content_generator.py:355-460 | one pass of the section stage's retry loop, as for chapters |
| Stages.NoSectionsEvery | backend/agent/tools/content_generator.py:445-463 | "no call produced sections" holds iff every call failed or parsed to nothing |
| Stages.GenerateChapterOutline | backend/agent/tools/content_generator.py:347-463 | generate_chapter_outline: chunks of every call, then exactly one `sections` event with the parse of the first completed call that has a section |
| Stages.GenerateSectionContent | backend/agent/tools/content_generator.py:466-508 | generate_section_content: chunks of every call, then one `content` event carrying exactly the concatenation of the first completed call's fragments; every earlier call failed |
| Events.ChapterEventsStructured | backend/agent/langchain_agent.py:224-235 | one `chapter` event per chapter, none of them a chunk |
| Events.SectionEventsStructured | backend/agent/langchain_agent.py:271-283 | one `section` event per section, none of them a chunk |
| Events.AllSectionEventsCount | backend/agent/langchain_agent.py:259-290 | the section events over all chapters are as many as their sections |
| Events.SameOutlineEvents | backend/agent/langchain_agent.py:300-327 | filling in section contents changes neither the section events nor the section count |
| Events.NonChunksAppend | backend/agent/langchain_agent.py:217-340 | the structured view of a stream distributes over concatenation |
| Events.ChunkCountAppend | backend/agent/langchain_agent.py:300-333 | the chunk count of a stream distributes over concatenation |
| Pipeline.RelayChunks | backend/agent/langchain_agent.py:219-223 | relayed stage chunks become chunk events only, one per stage chunk, and announce no chapter, section or content |
| Pipeline.StreamRelay | backend/agent/langchain_agent.py:217-223 | a whole run of stage chunks relays to chunk events only |
| Pipeline.RelayChunkData | backend/agent/langchain_agent.py:219-223 | relaying forwards the texts of the stage's chunks, in order, and no other text |
| Pipeline.CarriesAppend | backend/agent/langchain_agent.py:217-340 | consecutive runs of events carry the chunk texts of consecutive runs of calls |
| Pipeline.AnnounceChapters | backend/agent/langchain_agent.py:224-235 | the chapters loop appends each chapter, yields one `chapter` event per chapter in order, and adds their number to chapter_count |
| Pipeline.RelayChapterStage | backend/agent/langchain_agent.py:217-235 | relaying the chapter stage yields the relayed events, records exactly the announced chapters, and chapter_count equals their number |
| Pipeline.ChapterPhase | backend/agent/langchain_agent.py:214-235 | stage 1: chunks then one `chapter` event per parsed chapter; chapter_count equals the number of chapter events |
| Pipeline.ChapterStageRelayed | backend/agent/langchain_agent.py:217-235 | the relayed chapter stage records the parsed chapters, announces one `chapter` event each, and carries the chunk texts of the calls made |
| Pipeline.AnnounceSections | backend/agent/langchain_agent.py:271-283 | the sections loop appends each section to the chapter and yields one `section` event each, counting them |
| Pipeline.RelaySectionStage | backend/agent/langchain_agent.py:262-283 | a chapter's sections are reset to empty and then hold exactly the announced sections, in order |
| Pipeline.SectionPhaseStep | backend/agent/langchain_agent.py:260-283 | stage 2 for one chapter: only its `sections` changes, and it becomes the parse of the last call made, which completed with a section; every earlier call of the round failed or parsed to no section |
| Pipeline.FillChapter | backend/agent/langchain_agent.py:260-283 | the chapter's sections are the parse of call `call`, the first call from `used` on whose section outline succeeds, and the round ends right after it; the chunk events carry the texts those calls streamed |
| Pipeline.SectionsFilledAt | backend/agent/langchain_agent.py:260-283 | after stage 2, chapter k holds the sections of call `calls[k]`, the first successful call after the one that filled chapter k-1 (after `start` for the first) |
| Pipeline.SectionsFilledIncreasing | backend/agent/langchain_agent.py:260-283 | the calls that filled the chapters are strictly increasing and start no earlier than `start` |
| Pipeline.SectionsFilledAfter | backend/agent/langchain_agent.py:260-283 | chapter k's call comes no earlier than the call after chapter k-1's |
| Pipeline.FilledChapterFrom | backend/agent/langchain_agent.py:260-283 | a round that ends on a call with sections filled the chapter from that call, and its events carry the chunk texts of the round's calls |
| Pipeline.SectionRound | backend/agent/langchain_agent.py:260-283 | one round of stage 2 changes only chapter i; the section events and section_count grow by its sections |
| Pipeline.SectionPhase | backend/agent/langchain_agent.py:251-290 | stage 2 keeps every chapter heading; on success every chapter is filled from its own call, in chapter order, the calls used are exactly `start` up to `used`, the structured events are the section events of all chapters, section_count is the total number of sections, and the chunk events carry the texts of those calls in order |
| Pipeline.RelayContentStage | backend/agent/langchain_agent.py:306-327 | each chunk is counted and forwarded; the `content` event sets the section's content to its text |
| Pipeline.ContentPhaseStep | backend/agent/langchain_agent.py:302-327 | stage 3 for one section: its content becomes the full text of the first completed call; content_count grows by the chunks relayed |
| Pipeline.FillSection | backend/agent/langchain_agent.py:302-327 | the section's content is the text of call `call`, the first completed call from `used` on; every call in between failed; the chunk events carry their texts |
| Pipeline.SectionContentRound | backend/agent/langchain_agent.py:302-327 | one round of stage 3 changes only section j's content |
| Pipeline.ContentForChapter | backend/agent/langchain_agent.py:302-327 | stage 3 for a chapter fills every section's content in order and changes nothing else |
| Pipeline.ContentsFilledAt | backend/agent/langchain_agent.py:302-327 | after stage 3, section k of a chapter holds the text of call `calls[k]`, the first completed call after the one that filled section k-1 |
| Pipeline.ContentsFilledIncreasing | backend/agent/langchain_agent.py:302-327 | the calls that filled a chapter's sections are strictly increasing and start no earlier than `start` |
| Pipeline.FilledSectionFrom | backend/agent/langchain_agent.py:302-327 | a round that ends on a completed call filled the section from that call, and its events carry the chunk texts of the round's calls |
| Pipeline.ChaptersFilledAt | backend/agent/langchain_agent.py:300-327 | after stage 3, chapter i's sections were filled from the calls that follow those used by chapters before it |
| Pipeline.ChapterContentRound | backend/agent/langchain_agent.py:301-327 | one chapter round of stage 3 changes only that chapter's section contents |
| Pipeline.ContentPhase | backend/agent/langchain_agent.py:292-334 | stage 3 keeps the outline; content_count equals the number of chunk events, not of sections; on success every section is filled from its own call in outline order, the structured events are one `content` event per section, and the chunk events carry the texts of the calls used |
| Agent.HealthNotices | backend/agent/langchain_agent.py:194-202 | a failed check yields the failure line and at most one hint; there is a hint iff the error mentions `无法连接`, `超时` or `异常` |
| Agent.AsciiHasNoHint | backend/agent/langchain_agent.py:198-201 | an error text of ASCII characters only gets the failure line and no hint |
| Agent.NoGetHasNoHint | backend/agent/langchain_agent.py:198-201 | the AttributeError message of a non-dict body has no hint word, so it gets no hint |
| Agent.HealthHints | backend/agent/langchain_agent.py:166-202 | the check passes iff the reply is 200 with a JSON object body; a refused connection, a time-out or a 200 body that is not JSON gets the "check service started" hint; a JSON body of another type gets no hint; an error reply gets a hint, the restart hint unless its text names a connection or a time-out |
| Agent.HealthError | backend/agent/langchain_agent.py:166-196 | the check fails with no text exactly when the reply is 200 with a JSON object body; an error reply whose body is a JSON object, or fails to decode, gives a text that starts with `Ollama异常: ` |
| Agent.FailureEvent | backend/agent/langchain_agent.py:342-348 | the catch-all error event reads `生成过程出错: ` followed by the message, or by `未知错误` when the message is empty; the model never produces it, since every stage catches its own calls' errors and the empty-outline error is unreachable (FirstStage) | |
| Agent.LaterStages | backend/agent/langchain_agent.py:244-340 | stages 2 and 3 with their progress events; on success the chapters keep the headings of stage 1, each chapter's sections and each section's content come from its own call in increasing order, the counts are the section total and the content chunk count, and the chunk texts are those of the calls used |
| Agent.LaterFinished | backend/agent/langchain_agent.py:259-327 | stage 3 keeps the chapter headings and the section events of stage 2 |
| Agent.FirstStage | backend/agent/langchain_agent.py:205-242 | stage 1 starts with `progress(chapters,start)`; its chapters are those of the first call whose outline has a chapter, every earlier call gave none, the chunk texts are those of the calls made, and the empty-chapter error cannot occur |
| Agent.Generate | backend/agent/langchain_agent.py:204-340 | on success the stream is: `progress(chapters,start)`, chunks and chapters, `progress(chapters,complete, #chapters)`, `progress(sections,start)`, chunks and sections, `progress(sections,complete, #sections)`, `progress(content,start)`, chunks and contents, `progress(content,complete, #content chunks)`, `complete`; the chapters come from the first successful outline call, then each chapter's sections and each section's content from the next successful call in turn, and the chunk events carry every text the calls streamed, in order |
| Agent.FinishedStreamData | backend/agent/langchain_agent.py:204-340 | the chunk texts of a finished stream are those of its three stages, in order; the progress and completion events carry none |
| Agent.FinishedStreamCarries | backend/agent/langchain_agent.py:204-340 | a finished stream carries the chunk texts of every call from the first to the last used |
| Agent.ProcessMessage | backend/agent/langchain_agent.py:151-348 | a failed health check yields only its notices and makes no model call; otherwise the generation's stream as above, with the same calls filling the same chapters and sections |
| LineStream.ConsumeSettled | backend/agent/langchain_agent.py:111-130 | once a line has raised (or ended the stream) the remaining lines change nothing |
| LineStream.ConsumeReference | backend/agent/langchain_agent.py:111-130 | the line loop yields exactly the values of the lines before the first one that raises or ends the stream, in order, and raises iff that line raises |
| LineStream.NoEndYieldsAll | backend/agent/langchain_agent.py:111-130 | a stream in which no line raises yields the values of all its lines |
| LineStream.ValuesIn | backend/agent/langchain_agent.py:123-127 | every yielded value comes from a yielding line |
| LineStream.Prefix | backend/agent/langchain_agent.py:111-130 | the prefix before the first ending line is bounded by the stream, and the line at its end does end it |
| OllamaClient.OllamaLine | backend/agent/langchain_agent.py:111-130 | per line: empty or non-JSON lines are skipped, an `error` key raises, a non-empty `response` is yielded, and anything else is skipped; a JSON scalar raises on `in` |
| OllamaClient.Generate | backend/agent/langchain_agent.py:105-130 | a non-200 status raises before any line is read; otherwise the lines are consumed in order |
| OllamaClient.GenerateReference | backend/agent/langchain_agent.py:111-130 | a successful call yields the non-empty `response` values of the lines before the first `error` line, and raises iff some line raises |
| OllamaClient.YieldedResponses | backend/agent/langchain_agent.py:119-127 | every yielded value is the non-empty `response` of an error-free JSON object line |
| Providers.UserSettings | backend/agent/llm_providers.py:9-27 | get_user_settings keeps only the four provider entries and `default_provider` of `global`, so it never holds `providers` |
| Providers.ReadUserSettings | backend/agent/llm_providers.py:9-27 | the copying loop builds exactly `UserSettings(file)`; any error gives `{}` |
| Providers.Validate | backend/agent/llm_providers.py:29-39 | a provider record is accepted only with string `api_key`, `provider`, `base_url` and `model_name`, which it carries unchanged |
| Providers.OllamaMergedFields | backend/agent/llm_providers.py:83-90 | merging the stored ollama entry changes only base_url, model_name, temperature and max_tokens, each to the entry's value when present |
| Providers.OllamaMerged | backend/agent/llm_providers.py:83-90 | the merged ollama settings keep exactly the current keys; OllamaMergedFields states that only the four known fields change, each to the entry's value when present |
| Providers.HostedConfig | backend/agent/llm_providers.py:91-96 | a hosted provider's record gets `provider` set to its name and `api_key` defaulted to `""` |
| Providers.HostedAfterLoad | backend/agent/llm_providers.py:76-96 | after loading, each hosted record is rebuilt from its stored entry when there is one and kept otherwise |
| Providers.ApplyAllResult | backend/agent/llm_providers.py:76-96 | applying the entries in order succeeds iff each is acceptable, and gives the merged ollama settings and the rebuilt hosted records |
| Providers.ApiConfig.ApplyEntry | backend/agent/llm_providers.py:78-96 | one stored entry applied in place: `models` dropped, ollama merged, or a hosted record built |
| Providers.ApiConfig.ApplyEntries | backend/agent/llm_providers.py:77-96 | the loop over the four providers, stopping at the first that raises |
| Providers.ApplyStep | backend/agent/llm_providers.py:78-96 | one stored entry applies iff it is accepted (a dict for ollama, a valid record for a hosted provider); an ollama entry leaves the hosted records, a hosted one the ollama settings |
| Providers.ApplyAll | backend/agent/llm_providers.py:77-96 | the entries applied in order keep every ollama default key, and leave the ollama settings alone when there is no ollama entry |
| Providers.ApiConfig.LoadUserSettings | backend/agent/llm_providers.py:67-96 | the constructor's merge: default_provider taken from the settings, ollama merged field by field, hosted records rebuilt |
| Providers.ApiConfig.ModelName | backend/agent/llm_providers.py:98-103 | get_model_name: ollama's raw `model_name` value, of any type, for ollama; otherwise the record's model name iff the provider has a record, else None; an unknown provider raises |
| Providers.ApiConfig.UpdateProviderConfig | backend/agent/llm_providers.py:108-117 | an unknown name raises and changes nothing; ollama is updated key by key; a hosted provider gets a validated record with `provider` set |
| Providers.ApiConfig.ProviderConfigOf | backend/agent/llm_providers.py:119-136 | get_provider_config raises exactly for a name outside the four providers |
| Providers.ApiConfig.ProviderConfigFromMemory | backend/agent/llm_providers.py:124-136 | since get_user_settings never holds `providers`, get_provider_config always answers from memory |
| Providers.RequestUrl | backend/agent/llm_providers.py:165-168 | the URL is base + `/responses` for OpenAI and base + `/chat/completions` otherwise |
| Providers.Payload | backend/agent/llm_providers.py:218-239 | `{model, input, temperature}` for OpenAI, `{model, messages:[{role:user, content:prompt}], stream:true, temperature}` otherwise, and `max_tokens` present iff it is not −1 |
| Providers.ChoicesLine | backend/agent/llm_providers.py:204-207 | a chat-completions line yields only a truthy `choices[0].delta.content` |
| Providers.ProviderLine | backend/agent/llm_providers.py:184-209 | per line: empty skipped, `[DONE]` (after dropping `data: `) stops, an `error` key raises, OpenAI yields `text`, the others a truthy delta content |
| Providers.DataPrefixDropped | backend/agent/llm_providers.py:189-190 | a leading `data: ` is removed before the line is read |
| Providers.Generate | backend/agent/llm_providers.py:173-209 | a non-200 status raises; otherwise the lines are consumed in order until one raises or is `[DONE]` |
| Providers.GenerateReference | backend/agent/llm_providers.py:184-209 | a `[DONE]` line ends the stream without raising, after exactly the values of the lines before it; later lines are never read |
| KnowledgeGraph.ForwardedChunksCarry | backend/agent/tools/knowledge_graph_generator.py:89-95 | the forwarded chunks carry the whole accumulated text, nothing more |
| KnowledgeGraph.StreamCall | backend/agent/tools/knowledge_graph_generator.py:89-95 | the streaming loop yields each non-empty fragment and accumulates their concatenation |
| KnowledgeGraph.NodeAttrs | backend/agent/tools/knowledge_graph_generator.py:107-115 | a node line gives at least five fields; `NodeLineRoundTrip` shows which |
| KnowledgeGraph.NodeOf | backend/agent/tools/knowledge_graph_generator.py:116-124 | a parsed node: label and name from field 1, category field 2, description field 3, value 1, draggable |
| KnowledgeGraph.EdgeOf | backend/agent/tools/knowledge_graph_generator.py:129-135 | the edge to a parsed node: type and label field 4, description `{name}是{topic}的{relation}` |
| KnowledgeGraph.NodeLineRoundTrip | backend/agent/tools/knowledge_graph_generator.py:107-135 | a `<node…>` line written from five or more fields without `,` (id, name, category, description, relation) parses back to exactly those fields, and alone it adds their node and, unless the id is `center`, the edge from the centre |
| KnowledgeGraph.Expansion | backend/agent/tools/knowledge_graph_generator.py:107-136 | at most one node per line, and at most one edge per node |
| KnowledgeGraph.RootNode | backend/agent/tools/knowledge_graph_generator.py:77-85 | the root has id `center`, label and name equal to the topic, and the description given or `知识点：{topic}` |
| KnowledgeGraph.ExpansionSnoc | backend/agent/tools/knowledge_graph_generator.py:107-136 | a line adds a node iff it is a node line, and an edge from `center` iff its id is not `center` |
| KnowledgeGraph.ExpansionEdges | backend/agent/tools/knowledge_graph_generator.py:128-136 | exactly one edge per non-center node, in order, from `center`, with type equal to label and description `{label}是{topic}的{relation}` |
| KnowledgeGraph.ExpandedGraphShape | backend/agent/tools/knowledge_graph_generator.py:77-136 | the root comes first, every edge goes from it to another node, and edges ≤ nodes − 1 |
| KnowledgeGraph.ParseExpansion | backend/agent/tools/knowledge_graph_generator.py:103-136 | the parse loop produces the root followed by the expansion of the lines |
| KnowledgeGraph.ExpandKnowledge | backend/agent/tools/knowledge_graph_generator.py:59-152 | events: start notice, forwarded chunks, parsing notice, a summary with node and edge counts (root included), and one `graph` event last; a failed call raises after its chunks |
| KnowledgeGraph.ChildIdsDistinct | backend/agent/tools/knowledge_graph_generator.py:229-230 | different counters give different ids `{node_id}-{n}` |
| KnowledgeGraph.Children | backend/agent/tools/knowledge_graph_generator.py:219-253 | one edge per child node, and at most one child per line |
| KnowledgeGraph.ChildrenShape | backend/agent/tools/knowledge_graph_generator.py:219-253 | the i-th child has id `{node_id}-{i+1}` and the i-th edge goes from the parent to it, so nodes = edges |
| KnowledgeGraph.ChildrenDistinct | backend/agent/tools/knowledge_graph_generator.py:219-253 | the children of one expansion have pairwise different ids |
| KnowledgeGraph.ParseChildren | backend/agent/tools/knowledge_graph_generator.py:215-253 | the counter loop produces exactly `Children(lines)` |
| KnowledgeGraph.ExpandSingleNode | backend/agent/tools/knowledge_graph_generator.py:154-269 | as expand_knowledge, without a root and with counter ids |
| KnowledgeGraph.AnalyzeRelationAlwaysRaises | backend/agent/tools/knowledge_graph_generator.py:277 | as written, analyze_relation raises KeyError whatever its arguments, because the template table has no `analyze_relation` |
| KnowledgeGraph.AnalyzeRelation | backend/agent/tools/knowledge_graph_generator.py:284-301 | with the template defined: the edge read from `<relation|...>` text, or no relation; a failed call raises |
| KnowledgeGraph.RelationRoundTrip | backend/agent/tools/knowledge_graph_generator.py:291-299 | `<relation|type|strength|description>` gives the edge with that type and description |
| KnowledgeGraph.NoRelationWithoutPrefix | backend/agent/tools/knowledge_graph_generator.py:291-301 | text not starting with `<relation|` gives None |
| Exercises.Bracketed | backend/agent/tools/exercise_generator.py:101-104 | a line is bracketed iff it starts with `<` and ends with `>`, and is then `<` + inner + `>` |
| Exercises.NormalizeType | backend/agent/tools/exercise_generator.py:124 | `type_` has no `题`; `NormalizeTypeKeeps` and `NormalizeTypeSuffix` show what it keeps |
| Exercises.NormalizeTypeKeeps | backend/agent/tools/exercise_generator.py:124 | every character other than `题` of the stripped, lowered type is kept, as often as it occurs |
| Exercises.NormalizeTypeSuffix | backend/agent/tools/exercise_generator.py:124 | a stripped lower-case type is its own `type_`, and so is the same type followed by `题` |
| Exercises.ExerciseOf | backend/agent/tools/exercise_generator.py:111-125 | answer stripped, type normalised; options only for `选择题`; any other type keeps the stripped question and has no options |
| Exercises.ParseLine | backend/agent/tools/exercise_generator.py:99-131 | only a stripped line that starts with `<` and ends with `>` gives an exercise |
| Exercises.OptionsOf | backend/agent/tools/exercise_generator.py:116-117 | options are keyed `A`, `B`, … (code points 65 + i) for exactly the segments after the question, with stripped values |
| Exercises.ParsedLine | backend/agent/tools/exercise_generator.py:99-131 | a line gives at most one exercise |
| Exercises.SliceTo | backend/agent/tools/exercise_generator.py:133 | `xs[:count]` is a prefix, of length `count` bounded by the list, with negative counts counted from the end |
| Exercises.FillOptions | backend/agent/tools/exercise_generator.py:111-117 | the option loop builds exactly `OptionsOf(segments)` |
| Exercises.BuildExercise | backend/agent/tools/exercise_generator.py:111-125 | the field handling builds exactly `ExerciseOf(type, question, answer)` |
| Exercises.ParseExercises | backend/agent/tools/exercise_generator.py:98-131 | the line loop yields the exercises of the stripped output's lines, in line order |
| Exercises.FallbackRecord | backend/agent/tools/exercise_generator.py:136-152 | the fallback is a dict with `exercise` and `metadata`, not a list |
| Exercises.FallbackUnreachableAsWritten | backend/agent/tools/exercise_generator.py:134-152 | as written, a failed call never returns the fallback: the handler reads an unbound `exercise_type` and raises |
| Exercises.TypesValue | backend/agent/tools/exercise_generator.py:30-36 | the requested types, as the fallback's `type` |
| Exercises.GenerateBatch | backend/agent/tools/exercise_generator.py:90-152 | a failed call gives the fallback dict; a completed one gives the first `count` exercises of its text, in order, as the code as written does |
| Exercises.LineRoundTrip | backend/agent/tools/exercise_generator.py:99-125 | a line `<type\|question\|answer>` whose fields have no `\|` parses to the exercise of those fields |
| Exercises.ChoiceRoundTrip | backend/agent/tools/exercise_generator.py:111-124 | a `选择题` question `q///o1///…` gives question q, options A… with the stripped o's, and type `选择` |
| Exercises.ChoiceTypeNormalized | backend/agent/tools/exercise_generator.py:124 | `选择题` normalises to `选择` |
| Exercises.ParseAllAppend | backend/agent/tools/exercise_generator.py:99-131 | every line is read on its own: parsing concatenated lines concatenates their exercises |
| Exercises.ParseFormatted | backend/agent/tools/exercise_generator.py:99-131 | formatted lines parse back to their exercises, in order |
| Exercises.FormattedText | backend/agent/tools/exercise_generator.py:99 | formatted lines are single lines, and their join strips to itself |
| Exercises.BatchRoundTrip | backend/agent/tools/exercise_generator.py:96-131 | an output of formatted lines gives back one exercise per line, in order |
| Exercises.FlatMapAppend | backend/agent/tools/exercise_generator.py:99-128 | per-line results concatenate over concatenated inputs |
| Simulation.FindFrom | backend/agent/tools/simulation_builder.py:186 | the first occurrence of a substring at or after a position, and none before it |
| Simulation.FenceFor | backend/agent/tools/simulation_builder.py:180-183 | both delimiters of the pattern are non-empty |
| Simulation.BlockSpan | backend/agent/tools/simulation_builder.py:186-188 | a span found is a match of the pattern |
| Simulation.BlockSpanIsLeftmostShortest | backend/agent/tools/simulation_builder.py:179-189 | there is a match iff some opening is followed by a closing; the span found starts at the leftmost match and ends at the nearest closing, as `re.search` does with the lazy group |
| Simulation.NoOpeningUnchanged | backend/agent/tools/simulation_builder.py:187-189 | text without an opening delimiter is returned unchanged |
| Simulation.SingleBlockExtracted | backend/agent/tools/simulation_builder.py:182-188 | text that is exactly one fenced block gives its stripped body |
| Simulation.ExtractCodeBlock | backend/agent/tools/simulation_builder.py:167-189 | the extracted code is never longer than the text, and without a block the text comes back whole |
| Simulation.ValidateCode | backend/agent/tools/simulation_builder.py:191-257 | the code passes iff it holds every HTML, canvas and JavaScript marker, some event name and no forbidden pattern |
| Simulation.ForbiddenFails | backend/agent/tools/simulation_builder.py:243-249 | code containing `document.write(`, `eval(` or `innerHTML =` fails validation whatever else it holds |
| Simulation.ValidHasMarkers | backend/agent/tools/simulation_builder.py:200-257 | code that passes has every HTML, canvas and JS marker and at least one event name |
| Simulation.SpacesToUnderscores | backend/agent/tools/simulation_builder.py:154 | `replace(' ', '_')` keeps the length, leaves no space, and maps each character |
| Simulation.SimulationId | backend/agent/tools/simulation_builder.py:154 | the id is `sim_` followed by the topic's length in characters, with no space |
| Simulation.SimulationIdChars | backend/agent/tools/simulation_builder.py:154 | each id character is the topic's lowercased character, or `_` for a space |
| Simulation.CreateSimulation | backend/agent/tools/simulation_builder.py:135-165 | an environment is returned iff the call completes and the extracted `html` block validates; it then has the `sim_` id, title `Simulation: {topic}`, the description, the code and no parameters |
| Tutorials.SafeTitle | backend/agent/tools/tutorial_manager.py:18 | the safe title has only alphanumerics, space, `-` and `_` |
| Tutorials.Show | backend/agent/tools/tutorial_manager.py:78-90 | `f"{v}"` gives a string unchanged, a number as text that `int()` reads back to it, `True`/`False` for a boolean and `None` for null |
| Tutorials.SafeTitleAppend | backend/agent/tools/tutorial_manager.py:18 | the filter works character by character, keeping order |
| Tutorials.SafeTitleKeeps | backend/agent/tools/tutorial_manager.py:18 | a title of allowed characters is kept whole |
| Tutorials.SafeListTitle | backend/agent/tools/tutorial_manager.py:18 | a list title saves iff every element is a string; the joined title has only allowed characters |
| Tutorials.SafeListTitleOfChars | backend/agent/tools/tutorial_manager.py:18 | a list of the title's one-character strings gives the same safe title as the string itself |
| Tutorials.SafeTitleOf | backend/agent/tools/tutorial_manager.py:18 | the join succeeds exactly on a string, an empty dict or a list of strings, and keeps only allowed characters |
| Tutorials.FileName | backend/agent/tools/tutorial_manager.py:19 | the file name is `{timestamp}_` + at most 30 characters + `.json` |
| Tutorials.SectionList | backend/agent/tools/tutorial_manager.py:86-95 | the section loop builds exactly the section nodes |
| Tutorials.ChapterEntry | backend/agent/tools/tutorial_manager.py:77-97 | one chapter node: its fields, then the section loop |
| Tutorials.ConvertToTree | backend/agent/tools/tutorial_manager.py:65-99 | `_convert_to_tree` with its loops equals the reference projection `TreeOf` |
| Tutorials.SectionNodesStuck | backend/agent/tools/tutorial_manager.py:86-94 | a section missing a field fails the whole chapter |
| Tutorials.ChapterNodesStuck | backend/agent/tools/tutorial_manager.py:76-97 | a chapter that cannot be converted fails the whole tree |
| Tutorials.SectionNodesShape | backend/agent/tools/tutorial_manager.py:86-95 | one node per section, in order: id `section-{number}`, label and title `{number} {title}`, description and content copied |
| Tutorials.ChapterNodesShape | backend/agent/tools/tutorial_manager.py:76-97 | one node per chapter, in order: id `chapter-{number}`, label `{number}. {title}`, one child per section |
| Tutorials.TreeShape | backend/agent/tools/tutorial_manager.py:67-99 | the root's id is `metadata.filename`, its label the title, with one child per chapter |
| Tutorials.TreeOf | backend/agent/tools/tutorial_manager.py:65-99 | a converted tree carries the tutorial's own `metadata` |
| Tutorials.CreatedAt | backend/agent/tools/tutorial_manager.py:59 | the key is read iff the tree has a dict `metadata` with a `created_at`, and is that value of any type |
| Tutorials.Collected | backend/agent/tools/tutorial_manager.py:42-56 | at most one entry per listed name, each carrying its tree's readable sort key |
| Tutorials.Listing | backend/agent/tools/tutorial_manager.py:59 | a single tree is listed whatever its key; text keys give `SortByAge`'s order; two or more trees with a non-text key raise |
| Tutorials.LexTotal | backend/agent/tools/tutorial_manager.py:59 | string order is total, so the sort is defined on any listing |
| Tutorials.InsertByAgeCounts | backend/agent/tools/tutorial_manager.py:59 | inserting keeps every entry and adds one |
| Tutorials.InsertByAgeSorted | backend/agent/tools/tutorial_manager.py:59 | inserting keeps a listing newest first |
| Tutorials.SortByAgeFacts | backend/agent/tools/tutorial_manager.py:59 | the listing comes out newest first by `created_at` and is a permutation of the trees collected |
| Tutorials.SortByAge | backend/agent/tools/tutorial_manager.py:59 | the sort keeps the number of trees; SortByAgeFacts states that it is newest first and a permutation |
| Tutorials.CollectedExactly | backend/agent/tools/tutorial_manager.py:42-56 | over the names in the listing it is given, a listed name yields a tree iff it is a stored `.json` tutorial whose tree converts | |
| Tutorials.CollectedStuck | backend/agent/tools/tutorial_manager.py:47-59 | a `.json` file that is not JSON, or a tree whose `metadata.created_at` cannot be read, fails the whole listing |
| Tutorials.TutorialManager.constructor | backend/agent/tools/tutorial_manager.py:8-11 | the directory argument is ignored: `Saves` is used |
| Tutorials.TutorialManager.SaveTutorial | backend/agent/tools/tutorial_manager.py:13-35 | the returned name is the file name built from the safe title of a text, list or empty-dict title; the stored tutorial has `metadata = {created_at, filename}` under that name; a missing title, or one the join cannot iterate, raises and changes nothing |
| Tutorials.TutorialManager.GetTutorialList | backend/agent/tools/tutorial_manager.py:37-63 | the loop equals `Collected` followed by `Listing`: it fails exactly when one of them does |
| Tutorials.TutorialManager.GetTutorial | backend/agent/tools/tutorial_manager.py:101-113 | a stored tutorial's tree; a missing file raises |
| Tutorials.TutorialManager.DeleteTutorial | backend/agent/tools/tutorial_manager.py:115-124 | true iff the file existed, which is then gone; nothing else changes |
| Settings.SettingsManager.constructor | backend/settings_manager.py:17-30 | a missing file is created holding `{"global": defaults}`; an existing one is kept |
| Settings.SettingsManager.SaveGlobalSettings | backend/settings_manager.py:41-45 | `global` is replaced wholesale and every other entry kept; a top level that is not a dict, or a file that cannot be opened or decoded, raises before anything is written |
| Settings.SettingsManager.UpdateSettings | backend/settings_manager.py:64-87 | the file becomes the updated top level and the updated entry is returned; where it raises nothing changes |
| Settings.LoadAll | backend/settings_manager.py:47-56 | the stored data, or the default when the file is missing or not JSON; it raises exactly when the file cannot be opened or is not UTF-8, which the `except` does not catch |
| Settings.LoadGlobal | backend/settings_manager.py:32-39 | the stored `global` entry, else the defaults; it raises exactly when the stored top level is not a dict or the file cannot be opened or decoded |
| Settings.Update | backend/settings_manager.py:64-87 | an update succeeds iff the file loads, its top level is a dict and the starting entry is a dict |
| Settings.StartingEntry | backend/settings_manager.py:73-84 | an update starts from the stored entry of the user, or else from the defaults for `global` and an empty dict for anyone else |
| Settings.Merged | backend/settings_manager.py:89-103 | for `global` the global settings as loaded; for a user, a dict over a top level that is a dict whenever it succeeds; a file that cannot be opened or decoded raises |
| Settings.FreshStoreDefaults | backend/settings_manager.py:27-39 | a new store reads back the defaults as global |
| Settings.SaveThenLoadGlobal | backend/settings_manager.py:32-45 | global settings read back after a save are the ones saved |
| Settings.UpdateEffect | backend/settings_manager.py:70-87 | an update overlays the preferences on the starting entry (stored global or defaults; stored user entry or `{}`) and keeps every other entry |
| Settings.UpdateIdempotent | backend/settings_manager.py:64-87 | applying the same preferences twice stores the same as once |
| Settings.MergedUserWins | backend/settings_manager.py:89-103 | in a user's merged settings, the user's keys win and all other keys come from global |
| Settings.MergedAfterUpdate | backend/settings_manager.py:64-103 | after an update the merged settings of that user show the preferences just applied |
| Settings.MergedWithoutOwnEntry | backend/settings_manager.py:97-103 | a user without an entry of their own gets exactly the global settings |
| LearningTreeStore.NodeRecord | backend/tree.py:25 | `{"id": node_id, **data}`: a key in `data`, `id` included, wins |
| LearningTreeStore.EdgeRecord | backend/tree.py:31 | `{"source", "target", **data}`, with `data` winning |
| LearningTreeStore.AfterLoad | backend/tree.py:44-59 | a missing file leaves the lists; an unreadable (IOError) or malformed file resets both to empty; a file that is not UTF-8, or a top level that is not a dict, raises; otherwise `nodes` and `edges` or `[]` |
| LearningTreeStore.SaveLoadRoundTrip | backend/tree.py:34-59 | loading what was saved gives back the saved lists |
| LearningTreeStore.LearningTree.constructor | backend/tree.py:6-9 | a new tree has empty node and edge lists |
| LearningTreeStore.LearningTree.GraphData | backend/tree.py:15-20 | the whole tree, whatever the topic |
| LearningTreeStore.LearningTree.AddNode | backend/tree.py:22-26 | exactly one record appended at the end, no duplicate check; edges unchanged |
| LearningTreeStore.LearningTree.AddEdge | backend/tree.py:28-32 | exactly one record appended, no check that the ends exist; nodes unchanged |
| LearningTreeStore.LearningTree.SaveTree | backend/tree.py:34-42 | the file holds the current nodes and edges |
| LearningTreeStore.LearningTree.LoadTree | backend/tree.py:44-59 | the lists become `AfterLoad(file)`; where an exception escapes nothing changes |
| LearningPlans.BuildTasks | backend/agent/tools/learning_plan_generator.py:56-73 | one task per knowledge point, in order: id `task_{i}`, title `学习{kp}`, 120 minutes, the user's level, pending; total = 120 × n |
| LearningPlans.NewTask | backend/agent/tools/learning_plan_generator.py:62-71 | task i has id `task_{i}`, its one knowledge point, 120 minutes, the user's level, status `pending` and progress 0 |
| LearningPlans.NewTaskIdReadsBack | backend/agent/tools/learning_plan_generator.py:63 | the id is `task_` followed by text that `int()` reads back to the task's position |
| LearningPlans.TotalTime | backend/agent/tools/learning_plan_generator.py:120 | the sum of the tasks' times is never negative when no time is; TotalTimeSnoc and BuildTasks give its growth and its value for generated plans |
| LearningPlans.NewTaskIdsDistinct | backend/agent/tools/learning_plan_generator.py:63 | generated task ids are pairwise distinct |
| LearningPlans.TotalTimeSnoc | backend/agent/tools/learning_plan_generator.py:73 | the total grows by each task's time |
| LearningPlans.GeneratePlan | backend/agent/tools/learning_plan_generator.py:37-89 | a new plan with the given id and user, start date now, end date = start + duration days, title from the points, progress 0, status `active`, tasks as above, total = their sum; a failed request, or an end date past datetime's range or timedelta's bound, gives no plan (the source raises ValueError) |
| LearningPlans.AddDays | backend/agent/tools/learning_plan_generator.py:53 | `date + timedelta(days=d)` gives a date in range exactly d days on, and raises exactly when d lies outside -999999999 to 999999999 or the sum leaves years 1 to 9999 |
| LearningPlans.AddDaysInverse | backend/agent/tools/learning_plan_generator.py:53 | moving a date in range by d days and back by d gives it back |
| LearningPlans.AddDaysZero | backend/agent/tools/learning_plan_generator.py:53 | a date can be moved by zero days iff it is in range, and then stays put |
| LearningPlans.AddDaysTooFar | backend/agent/tools/learning_plan_generator.py:53 | a duration longer than datetime's whole range always overflows |
| LearningPlans.AdjustedEffect | backend/agent/tools/learning_plan_generator.py:110-117 | only tasks named in the adjustments change, and only `estimated_time` and `difficulty`; each of the two is the value of the last adjustment for that task that sets it, and is kept when none does |
| LearningPlans.Adjusted | backend/agent/tools/learning_plan_generator.py:110-117 | adjusting keeps the number of tasks |
| LearningPlans.LearningPlan.AdjustTasks | backend/agent/tools/learning_plan_generator.py:111-117 | one adjustment applied to every task with its id; every other field of the plan is unchanged |
| LearningPlans.LearningPlan.AdjustPlan | backend/agent/tools/learning_plan_generator.py:91-124 | end date moved by `extend_days` through `AddDays`, tasks adjusted in order, `total_time` recomputed as the sum of the tasks' times; id, user, title, description, start date, progress and status unchanged; a failed request or an end date that overflows changes nothing |
| LearningPlans.TrackedLastWins | backend/agent/tools/learning_plan_generator.py:130-138 | a task takes progress and status from the last update with its id, defaulting to 0 and `pending`; tasks without an update, and all other fields, are unchanged |
| LearningPlans.Tracked | backend/agent/tools/learning_plan_generator.py:131-138 | updating keeps the number of tasks |
| LearningPlans.LearningPlan.UpdateTasks | backend/agent/tools/learning_plan_generator.py:131-138 | one update applied to every task with its id; every other field of the plan is unchanged |
| LearningPlans.LearningPlan.TrackProgress | backend/agent/tools/learning_plan_generator.py:126-156 | tasks updated in order, progress recomputed, status `completed` exactly when progress reaches 1 and otherwise as before; id, user, title, description, dates and total time unchanged; the summary reports the plan's id and the counts |
| LearningPlans.ProgressComplete | backend/agent/tools/learning_plan_generator.py:141-146 | progress lies in [0, 1] and reaches 1 iff there is a task and every task is completed |
| LearningPlans.ProgressOf | backend/agent/tools/learning_plan_generator.py:142-143 | the progress lies in [0, 1] and is 0 for a plan without tasks; ProgressComplete states when it reaches 1 |
| LearningPlans.RatioOfCount | backend/agent/tools/learning_plan_generator.py:142 | completed / total lies in [0, 1] and is 1 only when every task counts |
| LearningPlans.WithStatusAll | backend/agent/tools/learning_plan_generator.py:141 | all tasks are counted iff all have the status |
| LearningPlans.StatusCountsBounded | backend/agent/tools/learning_plan_generator.py:161-182 | the completed, in-progress and pending counts add up to at most the total |
| LearningPlans.NextTasksFirstPending | backend/agent/tools/learning_plan_generator.py:191-196 | a pending task is a next task iff fewer than three pending tasks precede it, at the position their number gives; there are min(3, #pending) next tasks |
| LearningPlans.NextTasksArePending | backend/agent/tools/learning_plan_generator.py:191-196 | the i-th next task shows a pending task with exactly i pending tasks before it |
| LearningPlans.WithStatusIndex | backend/agent/tools/learning_plan_generator.py:141 | the i-th task counted under a status is a task of the plan with that status, with exactly i such tasks before it |
| LearningPlans.NextTasks | backend/agent/tools/learning_plan_generator.py:191-196 | at most three next tasks, and no more than the plan has |
| LearningPlans.LearningPlan.ProgressReport | backend/agent/tools/learning_plan_generator.py:158-200 | the report's counts are bounded by the total, and there are at most three next tasks |
| EventBus.Bus.constructor | frontend/src/utils/eventBus.js:2-4 | a new bus has no subscriptions |
| EventBus.Bus.On | frontend/src/utils/eventBus.js:6-11 | the table becomes `Subscribe(events, name, callback)`; it throws, changing nothing, exactly for a name inherited from `Object.prototype` |
| EventBus.Bus.Off | frontend/src/utils/eventBus.js:13-16 | the table becomes `Unsubscribe(events, name, callback)`; it throws exactly for an inherited name |
| EventBus.Bus.Emit | frontend/src/utils/eventBus.js:18-23 | the event's callbacks are invoked in registration order, each with `data`; an unknown event invokes none; an inherited name throws before invoking anything |
| EventBus.Without | frontend/src/utils/eventBus.js:15 | the filter never lengthens the list |
| EventBus.Subscribe | frontend/src/utils/eventBus.js:6-11 | `on` adds the name to the table unless it is inherited |
| EventBus.Unsubscribe | frontend/src/utils/eventBus.js:13-16 | `off` never adds or removes a name |
| EventBus.NoOwnPrototypeNames | frontend/src/utils/eventBus.js:6-11 | a table without entries under inherited names never gains one, whatever changes are made |
| EventBus.SubscribeEffect | frontend/src/utils/eventBus.js:6-11 | `on` appends the callback at the end, duplicates allowed, and changes nothing for an inherited name; every other event keeps its list |
| EventBus.UnsubscribeEffect | frontend/src/utils/eventBus.js:13-16 | `off` removes every occurrence and keeps the other callbacks; it is a no-op for an unknown event or another event |
| EventBus.WithoutCounts | frontend/src/utils/eventBus.js:15 | the filter keeps each other callback as often as it was there |
| EventBus.WithoutAppend | frontend/src/utils/eventBus.js:15 | the filter keeps the order of the kept callbacks |
| EventBus.UnsubscribeIdempotent | frontend/src/utils/eventBus.js:13-16 | a second `off` changes nothing |
| EventBus.SilencedUntilResubscribed | frontend/src/utils/eventBus.js:13-23 | after `off(e, cb)`, `emit(e)` does not reach `cb` until `on(e, cb)` again, whatever else happens |
| Json.Overlay | backend/settings_manager.py:102 | `{**a, **b}`: every key of either, the value of `b` winning |
| Json.GetOr | backend/settings_manager.py:92-95 | `v.get(k, d)` answers only on dicts, with the value or the default |
| Text.IndexOf | backend/agent/tools/content_generator.py:302 | `str.index`: the first occurrence, absent iff the character is not there |
| Text.SplitOnceAtSpace | backend/agent/tools/content_generator.py:409 | `split(' ', 1)` gives one part iff there is no space, else the parts around the first space |
| Text.Before | backend/agent/tools/content_generator.py:419 | `split('.')[0]` is the text before the first `.` |
| Text.IntToStringRoundTrip | backend/agent/tools/content_generator.py:307-309 | `int(str(n)) == n` for the restricted `int()` |
| Text.ParseInt | backend/agent/tools/content_generator.py:307 | a number is read only from digits after an optional sign, a negative one only after `-`, and plain digits read as their value; IntToStringRoundTrip inverts `str` |
| Text.SplitJoinOn | backend/agent/tools/exercise_generator.py:113 | split undoes join when no part contains the separator's first character |
| Text.Strip | backend/agent/tools/content_generator.py:283 | `str.strip()` never lengthens the text, and the result is empty or starts and ends with a non-space character; `StripInfix` shows it is the input without its surrounding white space |
| Text.SplitOn | backend/agent/tools/exercise_generator.py:113 | `str.split(sep)` always gives at least one part |
| Text.StrippedLines | backend/agent/tools/exercise_generator.py:99 | `output.strip().split('\n')` always gives at least one line |
| Text.Lower | backend/agent/tools/simulation_builder.py:154 | `str.lower()` keeps the length |
| Text.RemoveChar | backend/agent/tools/exercise_generator.py:124 | `replace(c, '')` leaves no `c` in the text and leaves a text without `c` as it is; `RemoveCharKeeps` and `RemoveCharAppend` show the rest is kept in order |
| Text.StripInfix | backend/agent/tools/content_generator.py:283 | the stripped text is an infix of the input whose outside is all white space |
| Text.TrimStartSuffix | backend/agent/tools/content_generator.py:283 | dropping leading white space keeps a suffix of the text |
| Text.RemoveCharKeeps | backend/agent/tools/exercise_generator.py:124 | removing `c` keeps every other character as often as it occurs |
| Text.RemoveCharAppend | backend/agent/tools/exercise_generator.py:124 | removing `c` works piece by piece, keeping the order of what is kept |
| Text.LowerAppend | backend/agent/tools/simulation_builder.py:154 | lowering works piece by piece |
| Text.LowerKeeps | backend/agent/tools/exercise_generator.py:124 | a text without ASCII capitals is its own lower case |
| Text.LeadAbsent | backend/agent/langchain_agent.py:198-200 | a text without the first character of a word does not contain the word |
| Json.In | backend/agent/langchain_agent.py:121-123 | `key in v` is a key test on dicts and raises TypeError for values that are not dicts, lists or strings |
| Json.Index | backend/agent/langchain_agent.py:122-125 | `v[key]` answers iff `v` is a dict holding `key`, with its value |
| KnowledgeGraph.ForwardedChunks | backend/agent/tools/knowledge_graph_generator.py:89-95 | at most one chunk event per fragment, each a non-empty text chunk |
| Tutorials.Records | backend/agent/tools/tutorial_manager.py:86 | iterating a list of dicts visits each record in order |
| Providers.ApiConfig.constructor | backend/agent/llm_providers.py:41-61 | the class defaults: provider `ollama`, the default ollama settings, no hosted record |
| LearningPlans.LearningPlan.constructor | backend/agent/tools/learning_plan_generator.py:76-85 | a new plan holds the given fields, the fixed description, progress 0 and status `active` |
| EventBus.WithoutAbsent | frontend/src/utils/eventBus.js:15 | filtering out a callback that is not subscribed leaves the list as it is |
| EventBus.StaysSilent | frontend/src/utils/eventBus.js:6-16 | a callback not in an event's list stays out of it across any changes that do not `on` it for that event |

## Left out

- I/O: all network I/O, file I/O, clocks and console output. The Ollama and hosted model calls, the health-check request, the settings, tree and tutorial files, `datetime.now()` and every `print` are left out. A model call is a queue of attempts. A file is a value. A timestamp is a parameter.
- Concurrency: async generators are methods that return event sequences. Cancellation and interleaving are left out, and the code has no stop path.
- Stages.GenerateMainOutline: the source retries forever. The model stops when the attempts run out, and `Stalled` is the run that would never end.
- Stages.GenerateChapterOutline: the same bound on retries as GenerateMainOutline.
- Stages.GenerateSectionContent: the same bound on retries as GenerateMainOutline.
- Text.ParseInt: Python's `int()` is restricted to an optional sign followed by ASCII digits. `int()` also accepts `_`, non-ASCII digits and surrounding spaces, so some chapter headings that `int()` accepts are rejected here. Negative chapter numbers are accepted, as in the source.
- Text.Lower: `str.lower()` is modelled on ASCII letters only. Non-ASCII case folding is left out.
- Text.Strip: its own contract gives only the shape of the result. That it is the input without its surrounding white space is stated by Text.StripInfix.
- Text.RemoveChar: its own contract says only that `c` is gone and that a text without `c` is kept. That every other character is kept, in order, is stated by Text.RemoveCharKeeps and Text.RemoveCharAppend.
- Exercises.NormalizeType: its own contract says only that `题` is gone. What it keeps is stated by Exercises.NormalizeTypeKeeps and Exercises.NormalizeTypeSuffix.
- KnowledgeGraph.NodeAttrs: its own contract gives only the field count. Which fields a written node line gives, and the node and edge they make, is stated by KnowledgeGraph.NodeLineRoundTrip.
- Text.IsSpace: `str.strip()` and `str.isspace()` use the ASCII and Unicode white-space characters listed in the function. Unicode normalisation is left out.
- Tutorials.SafeTitle: `str.isalnum` is an abstract predicate parameter.
- Floating point: temperatures and progress values are kept as values or reals, with no rounding. The time statistics of `generate_progress_report` (`total_time_spent`, `remaining_time`) are left out because they are float arithmetic.
- LearningPlans.GeneratePlan: the datetime-formatted plan id is a parameter. Dates are whole seconds since 0001-01-01 00:00:00; adding whole days never changes the microseconds, so dropping them loses nothing.
- Pydantic: record validation checks that the four string fields are strings, that `temperature` is a number, and that `max_tokens` is null or an integer above -2 (the `Field(default=1024, gt=-2)` of backend/agent/llm_providers.py:34). Pydantic's lax coercions are left out: a numeric string or a bool for `temperature`, or an integral float or numeric string for `max_tokens`, is refused here but accepted by pydantic. So are the `.env` and environment sources of `APIConfig`, and the request headers.
- Prompts: the prompt templates and f-string prompts are opaque. They do not appear in the model.
- Aliasing: the learning plan's tasks, the chapters and the sections are values. The model does not capture a caller that holds another reference to them while they are mutated.
- Agent.ProcessMessage: the `model` argument is not modelled. In the source it sets the shared client's `model_name` for this run and every later one (backend/agent/langchain_agent.py:159-161). The model name only reaches the request body, and the model's calls are a queue of outcomes given as a parameter.
- Providers.ApiConfig.UpdateProviderConfig: `config` is taken by value. In the source the caller's own dict gains `provider` (backend/agent/llm_providers.py:116) before the record is validated, so it keeps that key even when validation then raises.
- Aliasing in the stores: `get_graph_data` (backend/tree.py:15-20) returns the tree's own node and edge lists, so a caller that appends to them changes the tree. The model returns them as values. `save_tutorial` (backend/agent/tools/tutorial_manager.py:23) adds `metadata` to the caller's own dict; the model returns the updated map instead.
- Undecodable bytes: `line.decode('utf-8')` sits outside the per-line `try` in the Ollama client (backend/agent/langchain_agent.py:115) and in the hosted client (backend/agent/llm_providers.py:188). A line that is not UTF-8 raises `UnicodeDecodeError` out of the stream. The model reads lines as text already decoded, so this raise is not modelled.
- LearningPlans.LearningPlan.AdjustPlan: the source changes the plan in place step by step (backend/agent/tools/learning_plan_generator.py:107-120). A later step can raise after earlier ones took effect, for example a `task_adjustments` that is not a dict after `end_date` moved, or a non-numeric `estimated_time` that makes the sum raise. The typed `Feedback` rules these inputs out, so a partial change on raise is not modelled.
- LearningPlans.LearningPlan.TrackProgress: the same partial change on raise as AdjustPlan (backend/agent/tools/learning_plan_generator.py:130-138), ruled out by the typed `TaskUpdate`.
- Tutorials.Listing: with two or more trees, a `created_at` that is not text raises in the model. In the source, all-number keys sort, and other mixes raise only when a comparison between unlike types is made.
- Tutorials.CollectedStuck: the same gap as Listing, for listings that reach the sort.
- Tutorials.TutorialManager.SaveTutorial: a non-empty dict title raises in the model. The source joins its allowed keys in insertion order, which a map does not keep. The caller's dict gaining `metadata` is returned as the saved map, not aliased.
- Tutorials.TutorialManager.GetTutorialList: the directory listing order is a parameter. Non-text keys are limited as in Listing. Sort stability is not proved; the model proves the order and the permutation.
- Tutorials.Show: `f"{v}"` on floats, lists and dicts is a `repr` parameter.
- Tutorials: a path in a tutorial id that points outside the save directory is not modelled. File names are map keys.
- Simulation.ExtractCodeBlock: the language is taken literally, not as a regular expression. Option keys of exercises are code points, not one-character strings.
- KnowledgeGraph: node tags and metadata, and the `current_nodes` argument (used only in the prompt), are left out. Response bytes are taken as already-decoded text.
- OllamaClient.OllamaLine: `json.loads` is a function parameter. Non-string `response` values are yielded as values.
- The UI and configuration files of the frontend are left out. Only the event bus is modelled.

## Findings

| source | as written | input that shows it | evidently intended | confidence | as-written member | corrected member |
|---|---|---|---|---|---|---|
| backend/agent/tools/exercise_generator.py:134-152 | the outer handler builds its fallback dict with `"type": exercise_type`, a local that only the field unpacking of a parsed line binds | any model call that fails before a line is parsed (`Failed(partial)`) makes the handler raise `UnboundLocalError`, so the fallback is never returned | the fallback dict returned for a failed call, naming the requested types | not executed | Exercises.FallbackUnreachableAsWritten | Exercises.GenerateBatch |
| backend/agent/tools/knowledge_graph_generator.py:31-52, 277 | `analyze_relation` looks up `PROMPT_TEMPLATES["analyze_relation"]`, but the table defines only `expand_knowledge` | any pair of nodes: the lookup raises `KeyError` before the model is called | the relation parsed from the model's `<relation\|type\|strength\|description>` answer | not executed | KnowledgeGraph.AnalyzeRelationAlwaysRaises | KnowledgeGraph.AnalyzeRelation |

=== FILE: agent.dfy ===
/** The agent's entry point, process_message: a health check of the model server, then
    the three-stage generation relayed onto one stream. */
module Agent {
  import opened Text
  import opened Outline
  import opened Stages
  import opened Events
  import opened Pipeline

  // ---------------------------------------------------------------------------------
  // Health check

  /** The Python type of a decoded JSON body that is not an object. */
  datatype JsonKind = ListKind | StrKind | IntKind | FloatKind | BoolKind | NoneKind

  function TypeName(k: JsonKind): string
  {
    match k
    case ListKind => "list"
    case StrKind => "str"
    case IntKind => "int"
    case FloatKind => "float"
    case BoolKind => "bool"
    case NoneKind => "NoneType"
  }

  /** The body of a health reply, as `response.json()` sees it: a JSON object (with or
      without an `error` member), a JSON value of another type, a body whose content type
      is not JSON (aiohttp's ContentTypeError, a ClientError, with its message), or a JSON
      body that does not decode (JSONDecodeError, with its message). The last two keep the
      body's text, possibly empty. */
  datatype HealthBody =
    | JsonObject(error: Option<string>)
    | JsonOther(kind: JsonKind)
    | NotJson(text: string, detail: string)
    | BadJson(text: string, detail: string)

  /** How the version request ended. */
  datatype Health =
    | Reply(status: int, body: HealthBody)
    | ClientFailure(detail: string)   // aiohttp.ClientError, with its message
    | TimedOut
    | OtherFailure(message: string)   // any other exception, with str(e)

  const CheckFailed := "\n❌ Ollama服务检查失败"
  const HintStart := "\n💡 提示：请检查服务是否已启动"
  const HintRestart := "\n💡 提示：服务可能需要重启"
  const Done := "内容生成完成"

  /** The AttributeError message of `.get` on a value that is not a dict. */
  function NoGet(k: JsonKind): string
  {
    "'" + TypeName(k) + "' object has no attribute 'get'"
  }

  /** The error text the health check ends with, or None when the server answered 200
      with a JSON object. A 200 reply is read with `response.json()` and `.get`: a body
      that is not JSON is a ClientError (reported as a failed connection), one that does
      not decode escapes with its own message, and a value that is not a dict has no
      `get`. An error reply is read the same way, except that the two decoding errors
      fall back to the body's text. */
  function HealthError(h: Health): (r: Option<string>)
    ensures r.None? <==> h.Reply? && h.status == 200 && h.body.JsonObject?
    ensures h.Reply? && h.status != 200 && (h.body.JsonObject? || h.body.NotJson? || h.body.BadJson?) ==>
      r.Some? && StartsWith(r.value, "Ollama异常: ")
  {
    match h
    case Reply(status, body) =>
      if status == 200 then
        (match body
         case JsonObject(_) => None
         case JsonOther(k) => Some(NoGet(k))
         case NotJson(_, d) => Some("无法连接Ollama: " + d)
         case BadJson(_, d) => Some(d))
      else
        (match body
         case JsonObject(e) => Some("Ollama异常: " + (if e.Some? then e.value else "服务响应异常"))
         case JsonOther(k) => Some(NoGet(k))
         case NotJson(t, _) => Some("Ollama异常: " + (if t == "" then "HTTP " + IntToString(status) else t))
         case BadJson(t, _) => Some("Ollama异常: " + (if t == "" then "HTTP " + IntToString(status) else t)))
    case ClientFailure(d) => Some("无法连接Ollama: " + d)
    case TimedOut => Some("连接Ollama超时")
    case OtherFailure(m) => Some(m)
  }

  /** What the client sees after a failed check: the failure line, then a hint chosen by
      the words the error contains. */
  function HealthNotices(error: string): (r: seq<Event>)
    ensures 1 <= |r| <= 2 && r[0] == Notice(CheckFailed)
    ensures |r| == 2 <==> Contains(error, "无法连接") || Contains(error, "超时") || Contains(error, "异常")
  {
    [Notice(CheckFailed)]
    + if Contains(error, "无法连接") || Contains(error, "超时") then [Notice(HintStart)]
      else if Contains(error, "异常") then [Notice(HintRestart)]
      else []
  }

  predicate Ascii(s: string)
  {
    forall i :: 0 <= i < |s| ==> s[i] < '\U{80}'
  }

  lemma AsciiConcat(a: string, b: string)
    requires Ascii(a) && Ascii(b)
    ensures Ascii(a + b)
  {
    assert forall i :: |a| <= i < |a + b| ==> (a + b)[i] == b[i - |a|];
  }

  /** An ASCII error text contains none of the hint words, so it gets no hint. */
  lemma AsciiHasNoHint(m: string)
    requires Ascii(m)
    ensures HealthNotices(m) == [Notice(CheckFailed)]
  {
    LeadAbsent(m, "无法连接");
    LeadAbsent(m, "超时");
    LeadAbsent(m, "异常");
  }

  /** The AttributeError message holds only ASCII characters, so none of the hint words. */
  lemma NoGetHasNoHint(k: JsonKind)
    ensures HealthNotices(NoGet(k)) == [Notice(CheckFailed)]
  {
    var t := TypeName(k);
    assert Ascii(t);
    var q, tail := "'", "' object has no attribute 'get'";
    assert Ascii(q) && Ascii(tail);
    AsciiConcat(q, t);
    AsciiConcat(q + t, tail);
    assert NoGet(k) == q + t + tail;
    AsciiHasNoHint(NoGet(k));
  }

  /** The check passes exactly on a 200 reply whose body is a JSON object. A refused
      connection, a time-out and a 200 body that is not JSON get the "is it started"
      hint; an error reply whose body is an object, or is not read as JSON, gets a hint
      too, the restart hint unless its text mentions a connection or a time-out; a body
      that is a JSON value of another type gets no hint. */
  lemma HealthHints(h: Health)
    ensures HealthError(h).None? <==> h.Reply? && h.status == 200 && h.body.JsonObject?
    ensures h.ClientFailure? || h.TimedOut? || (h.Reply? && h.status == 200 && h.body.NotJson?)
      ==> HealthNotices(HealthError(h).value) == [Notice(CheckFailed), Notice(HintStart)]
    ensures h.Reply? && h.body.JsonOther? ==> HealthNotices(HealthError(h).value) == [Notice(CheckFailed)]
    ensures h.Reply? && h.status != 200 && !h.body.JsonOther? ==> |HealthNotices(HealthError(h).value)| == 2
    ensures h.Reply? && h.status != 200 && !h.body.JsonOther?
      && !Contains(HealthError(h).value, "无法连接") && !Contains(HealthError(h).value, "超时")
      ==> HealthNotices(HealthError(h).value) == [Notice(CheckFailed), Notice(HintRestart)]
  {
    match h
    case Reply(status, body) =>
      if body.JsonOther? {
        NoGetHasNoHint(body.kind);
      } else if status != 200 {
        var e := HealthError(h).value;
        var detail := e[|"Ollama异常: "|..];
        assert e == "Ollama" + "异常" + (": " + detail);
        ContainsInfix("Ollama", "异常", ": " + detail);
      } else if body.NotJson? {
        assert HealthError(h).value == [] + "无法连接" + ("Ollama: " + body.detail);
        ContainsInfix([], "无法连接", "Ollama: " + body.detail);
      }
    case ClientFailure(d) =>
      assert HealthError(h).value == [] + "无法连接" + ("Ollama: " + d);
      ContainsInfix([], "无法连接", "Ollama: " + d);
    case TimedOut =>
      assert HealthError(h).value == "连接Ollama" + "超时" + [];
      ContainsInfix("连接Ollama", "超时", []);
    case OtherFailure(_) =>
  }

  /** The error event of the generation's catch-all handler (str(e) or a default). The
      model never produces it: every stage catches the exceptions of its own calls and
      retries, and the chapter stage's empty-outline error is proved unreachable in
      FirstStage, so no exception reaches that handler. */
  function FailureEvent(message: string): (r: Event)
    ensures r.ErrorEvent? && StartsWith(r.message, "生成过程出错: ")
    ensures message != [] ==> r.message[|"生成过程出错: "|..] == message
    ensures message == [] ==> r.message[|"生成过程出错: "|..] == "未知错误"
  {
    ErrorEvent("生成过程出错: " + (if message == "" then "未知错误" else message))
  }

  // ---------------------------------------------------------------------------------
  // The generation

  /** Finished: every stage completed. Stalled: the attempts ran out while some stage
      was still retrying. HealthFailed: the health check failed, nothing was generated. */
  datatype Outcome = HealthFailed | Stalled | Finished

  /** The stream of a finished generation after the chapter stage's own events. */
  function LaterStream(chapters: seq<Chapter>, b: seq<Event>, c: seq<Event>): seq<Event>
  {
    [ProgressComplete(ChaptersStage, |chapters|), ProgressStart(SectionsStage)] + b
    + [ProgressComplete(SectionsStage, TotalSections(chapters)), ProgressStart(ContentStage)] + c
    + [ProgressComplete(ContentStage, ChunkCount(c)), CompleteEvent(Done)]
  }

  /** The stream of a finished generation, given each stage's relayed events. */
  function FinishedStream(chapters: seq<Chapter>, a: seq<Event>, b: seq<Event>, c: seq<Event>): seq<Event>
  {
    [ProgressStart(ChaptersStage)] + a + LaterStream(chapters, b, c)
  }

  /** Stages 2 and 3 of process_message, for the chapters `parsed` of stage 1, on the calls
      of `src` from `start` on. */
  method LaterStages(src: seq<Attempt>, start: nat, parsed: seq<Chapter>)
    returns (events: seq<Event>, chapters: seq<Chapter>, outcome: Outcome, used: nat,
             ghost b: seq<Event>, ghost c: seq<Event>, ghost outline: seq<Chapter>,
             ghost sectionCalls: seq<nat>, ghost contentCalls: seq<seq<nat>>, ghost mid: nat)
    requires start <= |src|
    ensures start <= used <= |src| && !outcome.HealthFailed? && (outcome.Stalled? ==> used == |src|)
    ensures outcome.Finished? ==> events == LaterStream(chapters, b, c)
    ensures outcome.Finished? ==> PhaseEvents(b, SectionsStage) && NonChunks(b) == AllSectionEvents(chapters)
    ensures outcome.Finished? ==> PhaseEvents(c, ContentStage) && NonChunks(c) == AllContentEvents(chapters)
    ensures outcome.Finished? ==> SameHeadings(chapters, parsed) && SameOutline(chapters, outline)
    ensures outcome.Finished? ==> SectionsFilled(src, start, outline, sectionCalls) && mid == Next(start, sectionCalls)
    ensures outcome.Finished? ==> ChaptersFilled(src, mid, chapters, contentCalls) && used == ChaptersEnd(mid, contentCalls)
    ensures outcome.Finished? ==> CarriesChunks(b, src, start, mid) && CarriesChunks(c, src, mid, used)
  {
    c, outline, contentCalls := [], [], [];
    events := [ProgressComplete(ChaptersStage, |parsed|), ProgressStart(SectionsStage)];
    var stageEvents, count, done, filled;
    stageEvents, filled, count, used, done, sectionCalls := SectionPhase(src, start, parsed);
    events, b, outline, chapters := events + stageEvents, stageEvents, filled, filled;
    mid := used;
    if !done {
      outcome := Stalled;
      return;
    }
    ghost var count2 := count;
    events := events + [ProgressComplete(SectionsStage, count), ProgressStart(ContentStage)];
    stageEvents, chapters, count, used, done, contentCalls := ContentPhase(src, used, filled);
    events, c := events + stageEvents, stageEvents;
    if !done {
      outcome := Stalled;
      return;
    }
    LaterFinished(parsed, outline, chapters, b);
    assert count2 == TotalSections(chapters) && |parsed| == |chapters|;
    events := events + [ProgressComplete(ContentStage, count), CompleteEvent(Done)];
    outcome := Finished;
  }

  /** What carries stage 2's facts over to the chapters with contents. */
  lemma LaterFinished(parsed: seq<Chapter>, outline: seq<Chapter>, chapters: seq<Chapter>, b: seq<Event>)
    requires SameHeadings(outline, parsed) && SameOutline(chapters, outline)
    requires NonChunks(b) == AllSectionEvents(outline)
    ensures |chapters| == |parsed| && SameHeadings(chapters, parsed)
    ensures NonChunks(b) == AllSectionEvents(chapters) && TotalSections(chapters) == TotalSections(outline)
  {
    SameHeadingsTrans(chapters, outline, parsed);
    SameOutlineEvents(chapters, outline);
  }

  /** Progress and completion events carry no chunk text. */
  lemma MarkersNoData(x: Event, y: Event)
    requires !x.ChunkEvent? && !y.ChunkEvent?
    ensures ChunkData([x]) == [] && ChunkData([x, y]) == []
  {
    assert [x][..0] == [] && [x, y][..1] == [x];
  }

  /** Events without chunk text around `x` leave its chunk texts as they are. */
  lemma FramedData(p: seq<Event>, x: seq<Event>, q: seq<Event>)
    requires ChunkData(p) == [] && ChunkData(q) == []
    ensures ChunkData(p + x + q) == ChunkData(x)
  {
    ChunkDataAppend(p, x);
    ChunkDataAppend(p + x, q);
  }

  /** The chunk texts after the chapter stage are those of stages 2 and 3, in order. */
  lemma LaterStreamData(chapters: seq<Chapter>, b: seq<Event>, c: seq<Event>)
    ensures ChunkData(LaterStream(chapters, b, c)) == ChunkData(b) + ChunkData(c)
  {
    var p1 := [ProgressComplete(ChaptersStage, |chapters|), ProgressStart(SectionsStage)];
    var p2 := [ProgressComplete(SectionsStage, TotalSections(chapters)), ProgressStart(ContentStage)];
    var p3 := [ProgressComplete(ContentStage, ChunkCount(c)), CompleteEvent(Done)];
    MarkersNoData(p1[0], p1[1]);
    MarkersNoData(p2[0], p2[1]);
    MarkersNoData(p3[0], p3[1]);
    assert LaterStream(chapters, b, c) == (p1 + b + p2) + c + p3;
    FramedData(p1, b, p2);
    ChunkDataAppend(p1 + b + p2, c);
    ChunkDataAppend(p1 + b + p2 + c, p3);
  }

  /** The chunk texts of a finished stream are those of its three stages, in order. */
  lemma FinishedStreamData(chapters: seq<Chapter>, a: seq<Event>, b: seq<Event>, c: seq<Event>)
    ensures ChunkData(FinishedStream(chapters, a, b, c)) == ChunkData(a) + ChunkData(b) + ChunkData(c)
  {
    var p0 := [ProgressStart(ChaptersStage)];
    MarkersNoData(p0[0], p0[0]);
    LaterStreamData(chapters, b, c);
    var later := LaterStream(chapters, b, c);
    assert FinishedStream(chapters, a, b, c) == p0 + a + later;
    ChunkDataAppend(p0, a);
    ChunkDataAppend(p0 + a, later);
    var ta, tb, tc := ChunkData(a), ChunkData(b), ChunkData(c);
    assert [] + ta == ta;
    assert ta + (tb + tc) == ta + tb + tc;
  }

  /** A finished stream forwards, in order, the chunk texts of every call it consumed. */
  lemma FinishedStreamCarries(src: seq<Attempt>, chapters: seq<Chapter>, a: seq<Event>, b: seq<Event>, c: seq<Event>,
                              mid1: nat, mid2: nat, used: nat)
    requires CarriesChunks(a, src, 0, mid1) && CarriesChunks(b, src, mid1, mid2) && CarriesChunks(c, src, mid2, used)
    ensures CarriesChunks(FinishedStream(chapters, a, b, c), src, 0, used)
  {
    CarriesAppend(a, b, src, 0, mid1, mid2);
    CarriesAppend(a + b, c, src, 0, mid2, used);
    FinishedStreamData(chapters, a, b, c);
    ChunkDataAppend(a, b);
    ChunkDataAppend(a + b, c);
  }

  /** Chapter `chapters` are what the chapter parser read from the completed call `call`,
      the first call whose outline has a chapter. */
  predicate ChaptersFrom(src: seq<Attempt>, chapters: seq<Chapter>, call: nat)
  {
    call < |src| && src[call].Completed? && NoChapters(src[..call])
    && chapters != [] && chapters == ParseChapters(Concat(src[call].fragments))
  }

  /** Stage 1 of process_message, with its progress events, as Generate sees it. */
  method FirstStage(src: seq<Attempt>)
    returns (events: seq<Event>, chapters: seq<Chapter>, used: nat, done: bool, ghost a: seq<Event>, ghost call: nat)
    ensures used <= |src| && (!done ==> used == |src|)
    ensures done ==> used == call + 1 && ChaptersFrom(src, chapters, call)
    ensures events == [ProgressStart(ChaptersStage)] + a && CarriesChunks(a, src, 0, used)
    ensures done ==> PhaseEvents(a, ChaptersStage) && NonChunks(a) == ChapterEvents(chapters)
  {
    var stageEvents, count;
    stageEvents, chapters, count, used, done := ChapterPhase(src);
    events, a := [ProgressStart(ChaptersStage)] + stageEvents, stageEvents;
    call := if done then used - 1 else 0;
    if done {
      // The source's `if not chapters` error branch: the chapter stage only completes
      // with at least one chapter, so it is never taken.
      assert chapters != [];
      assert src[..used - 1] == src[..call];
    }
  }

  /** What a finished generation establishes about its stream `events`: its shape around
      the three stages' events `a`, `b` and `c` and their structured events; the chapters
      parsed from the first call `mainCall` whose outline has a chapter; the sections of
      the chapters of `outline` filled from the calls `sectionCalls` after it, in order;
      the contents filled from the calls `contentCalls` after those, in order; and the
      chunk texts of every call up to `used`. */
  ghost predicate FinishedRun(src: seq<Attempt>, events: seq<Event>, chapters: seq<Chapter>, used: nat,
                              a: seq<Event>, b: seq<Event>, c: seq<Event>, outline: seq<Chapter>,
                              parsed: seq<Chapter>, mainCall: nat, sectionCalls: seq<nat>,
                              contentCalls: seq<seq<nat>>, mid: nat)
  {
    events == FinishedStream(chapters, a, b, c)
    && PhaseEvents(a, ChaptersStage) && NonChunks(a) == ChapterEvents(chapters)
    && PhaseEvents(b, SectionsStage) && NonChunks(b) == AllSectionEvents(chapters)
    && PhaseEvents(c, ContentStage) && NonChunks(c) == AllContentEvents(chapters)
    && ChaptersFrom(src, parsed, mainCall) && SameHeadings(chapters, parsed)
    && SameOutline(chapters, outline)
    && SectionsFilled(src, mainCall + 1, outline, sectionCalls) && mid == Next(mainCall + 1, sectionCalls)
    && ChaptersFilled(src, mid, chapters, contentCalls) && used == ChaptersEnd(mid, contentCalls)
    && CarriesChunks(events, src, 0, used)
  }

  /** The generation part of process_message (its `try` block after the health check),
      on the queue `src` of model call results. */
  method Generate(src: seq<Attempt>)
    returns (events: seq<Event>, chapters: seq<Chapter>, outcome: Outcome, used: nat,
             ghost a: seq<Event>, ghost b: seq<Event>, ghost c: seq<Event>, ghost outline: seq<Chapter>,
             ghost parsed: seq<Chapter>, ghost mainCall: nat, ghost sectionCalls: seq<nat>, ghost contentCalls: seq<seq<nat>>,
             ghost mid: nat)
    ensures used <= |src| && !outcome.HealthFailed?
    ensures outcome.Stalled? ==> used == |src|
    ensures outcome.Finished? ==>
      FinishedRun(src, events, chapters, used, a, b, c, outline, parsed, mainCall, sectionCalls, contentCalls, mid)
  {
    b, c, outline, sectionCalls, contentCalls, mid := [], [], [], [], [], 0;
    var done, parsed0;
    events, parsed0, used, done, a, mainCall := FirstStage(src);
    chapters, parsed := parsed0, parsed0;
    if !done {
      outcome := Stalled;
      return;
    }
    var later;
    ghost var start := used;
    later, chapters, outcome, used, b, c, outline, sectionCalls, contentCalls, mid := LaterStages(src, used, parsed0);
    events := events + later;
    if outcome.Finished? {
      SameHeadingsEvents(chapters, parsed);
      FinishedStreamCarries(src, chapters, a, b, c, start, mid, used);
    }
  }

  /** process_message: the health check, then the generation. */
  method ProcessMessage(health: Health, src: seq<Attempt>)
    returns (events: seq<Event>, chapters: seq<Chapter>, outcome: Outcome, used: nat,
             ghost a: seq<Event>, ghost b: seq<Event>, ghost c: seq<Event>, ghost outline: seq<Chapter>,
             ghost parsed: seq<Chapter>, ghost mainCall: nat, ghost sectionCalls: seq<nat>, ghost contentCalls: seq<seq<nat>>,
             ghost mid: nat)
    ensures outcome.HealthFailed? <==> HealthError(health).Some?
    ensures outcome.HealthFailed? ==> events == HealthNotices(HealthError(health).value) && used == 0
    ensures used <= |src| && (outcome.Stalled? ==> used == |src|)
    ensures outcome.Finished? ==>
      FinishedRun(src, events, chapters, used, a, b, c, outline, parsed, mainCall, sectionCalls, contentCalls, mid)
  {
    var error := HealthError(health);
    if error.Some? {
      events, chapters, outcome, used := HealthNotices(error.value), [], HealthFailed, 0;
      a, b, c, outline, parsed, mainCall, sectionCalls, contentCalls, mid := [], [], [], [], [], 0, [], [], 0;
    } else {
      events, chapters, outcome, used, a, b, c, outline, parsed, mainCall, sectionCalls, contentCalls, mid := Generate(src);
    }
  }
}

=== FILE: event_bus.dfy ===
/** The frontend event bus: a table from event names to the callbacks subscribed to
    them, in subscription order. Callbacks are compared by identity, which the type
    parameter's equality stands for; what a callback does when invoked is outside the
    model, so `Emit` reports the invocations it makes, in order. */
module EventBus {

  /** One invocation made by `emit`: the callback and the data passed to it. */
  datatype Invocation<C, D> = Invocation(callback: C, data: D)

  /** The callbacks subscribed to `name`; an absent name has none. */
  function Listeners<C>(events: map<string, seq<C>>, name: string): seq<C>
  {
    if name in events then events[name] else []
  }

  /** The names every object inherits from `Object.prototype`. Looking one of them up
      in the table finds an inherited function or object: it is truthy, but has no
      `push`, `filter` or `forEach`, so `on`, `off` and `emit` throw a TypeError. */
  const PrototypeNames: set<string> := {
    "constructor", "__defineGetter__", "__defineSetter__", "hasOwnProperty",
    "__lookupGetter__", "__lookupSetter__", "isPrototypeOf", "propertyIsEnumerable",
    "toString", "valueOf", "__proto__", "toLocaleString"}

  /** `this.events[name]` finds an inherited property rather than a list of callbacks:
      the table has no entry of its own under that name. */
  predicate Inherited<C>(events: map<string, seq<C>>, name: string)
  {
    name !in events && name in PrototypeNames
  }

  /** `list.filter(cb => cb !== callback)` */
  function Without<C(==)>(list: seq<C>, callback: C): (r: seq<C>)
    ensures |r| <= |list|
  {
    if list == [] then []
    else (if list[0] == callback then [] else [list[0]]) + Without(list[1..], callback)
  }

  /** The table after `on(name, callback)`; an inherited name throws before any change. */
  function Subscribe<C>(events: map<string, seq<C>>, name: string, callback: C): (r: map<string, seq<C>>)
    ensures r.Keys == if Inherited(events, name) then events.Keys else events.Keys + {name}
  {
    if Inherited(events, name) then events else events[name := Listeners(events, name) + [callback]]
  }

  /** The table after `off(name, callback)`; an unknown name, inherited or not, is left
      alone (an inherited one throws). */
  function Unsubscribe<C(==)>(events: map<string, seq<C>>, name: string, callback: C): (r: map<string, seq<C>>)
    ensures r.Keys == events.Keys
  {
    if name in events then events[name := Without(events[name], callback)] else events
  }

  class Bus<C(==)> {
    var events: map<string, seq<C>>

    constructor ()
      ensures events == map[]
    {
      events := map[];
    }

    /** `on`: false where it throws a TypeError. */
    method On(name: string, callback: C) returns (ok: bool)
      modifies this
      ensures ok <==> !Inherited(old(events), name)
      ensures events == Subscribe(old(events), name, callback)
    {
      if Inherited(events, name) {
        return false;
      }
      ok := true;
      if name !in events {
        events := events[name := []];
      }
      events := events[name := events[name] + [callback]];
    }

    /** `off`: false where it throws a TypeError. */
    method Off(name: string, callback: C) returns (ok: bool)
      modifies this
      ensures ok <==> !Inherited(old(events), name)
      ensures events == Unsubscribe(old(events), name, callback)
    {
      ok := !Inherited(events, name);
      if name !in events {
        return;
      }
      events := events[name := Without(events[name], callback)];
    }

    /** The callbacks of `name` are invoked in subscription order, each with `data`; an
        unknown name invokes nothing; an inherited name throws a TypeError (false)
        before invoking anything. */
    method Emit<D>(name: string, data: D) returns (ok: bool, calls: seq<Invocation<C, D>>)
      ensures ok <==> !Inherited(events, name)
      ensures |calls| == |Listeners(events, name)|
      ensures forall i :: 0 <= i < |calls| ==> calls[i] == Invocation(Listeners(events, name)[i], data)
    {
      ok := !Inherited(events, name);
      if name !in events {
        return ok, [];
      }
      var list := events[name];
      calls := [];
      var i := 0;
      while i < |list|
        invariant 0 <= i <= |list|
        invariant |calls| == i
        invariant forall j :: 0 <= j < i ==> calls[j] == Invocation(list[j], data)
      {
        calls := calls + [Invocation(list[i], data)];
        i := i + 1;
      }
    }
  }

  // ---------------------------------------------------------------------------------
  // What the filter keeps

  /** The filter keeps every other callback, as many times as it was there, and drops
      every occurrence of the one named. */
  lemma {:induction false} WithoutCounts<C>(list: seq<C>, callback: C, x: C)
    ensures multiset(Without(list, callback))[x] == if x == callback then 0 else multiset(list)[x]
  {
    if list != [] {
      WithoutCounts(list[1..], callback, x);
      assert list == [list[0]] + list[1..];
      assert multiset(list) == multiset([list[0]]) + multiset(list[1..]);
    }
  }

  /** The filter works element by element, so the kept callbacks stay in their order. */
  lemma {:induction false} WithoutAppend<C>(a: seq<C>, b: seq<C>, callback: C)
    ensures Without(a + b, callback) == Without(a, callback) + Without(b, callback)
  {
    if a == [] {
      assert a + b == b;
    } else {
      assert (a + b)[0] == a[0] && (a + b)[1..] == a[1..] + b;
      WithoutAppend(a[1..], b, callback);
    }
  }

  /** A list without the callback is left as it is. */
  lemma {:induction false} WithoutAbsent<C>(list: seq<C>, callback: C)
    requires callback !in list
    ensures Without(list, callback) == list
  {
    if list != [] {
      WithoutAbsent(list[1..], callback);
    }
  }

  // ---------------------------------------------------------------------------------
  // The subscription table

  /** `on` puts the callback at the end of its event's list, even when it is already
      there, unless the name is inherited; every other event keeps its list. */
  lemma SubscribeEffect<C>(events: map<string, seq<C>>, name: string, callback: C, other: string)
    ensures Inherited(events, name) ==> Subscribe(events, name, callback) == events
    ensures !Inherited(events, name) ==>
      Listeners(Subscribe(events, name, callback), name) == Listeners(events, name) + [callback]
    ensures other != name ==> (Listeners(Subscribe(events, name, callback), other) == Listeners(events, other)
      && (other in Subscribe(events, name, callback) <==> other in events))
  {
  }

  /** `off` removes every occurrence of the callback from its event's list and keeps the
      others, in order; it does nothing to an unknown event or to another event. */
  lemma UnsubscribeEffect<C>(events: map<string, seq<C>>, name: string, callback: C, other: string, x: C)
    ensures callback !in Listeners(Unsubscribe(events, name, callback), name)
    ensures x != callback ==>
      multiset(Listeners(Unsubscribe(events, name, callback), name))[x] == multiset(Listeners(events, name))[x]
    ensures name !in events ==> Unsubscribe(events, name, callback) == events
    ensures other != name ==> Listeners(Unsubscribe(events, name, callback), other) == Listeners(events, other)
  {
    WithoutCounts(Listeners(events, name), callback, x);
    WithoutCounts(Listeners(events, name), callback, callback);
  }

  /** A second `off` of the same callback changes nothing. */
  lemma UnsubscribeIdempotent<C>(events: map<string, seq<C>>, name: string, callback: C)
    ensures Unsubscribe(Unsubscribe(events, name, callback), name, callback) == Unsubscribe(events, name, callback)
  {
    if name in events {
      WithoutCounts(events[name], callback, callback);
      WithoutAbsent(Without(events[name], callback), callback);
    }
  }

  /** A subscription change, as a caller makes it. */
  datatype Change<C> = OnChange(name: string, callback: C) | OffChange(name: string, callback: C)

  function ApplyChanges<C(==)>(events: map<string, seq<C>>, changes: seq<Change<C>>): map<string, seq<C>>
    decreases |changes|
  {
    if changes == [] then events
    else
      var c := changes[0];
      var next := match c
        case OnChange(n, cb) => Subscribe(events, n, cb)
        case OffChange(n, cb) => Unsubscribe(events, n, cb);
      ApplyChanges(next, changes[1..])
  }

  /** After `off(name, callback)`, emitting `name` does not reach the callback again until
      it is subscribed to `name` again, whatever other subscriptions come and go. */
  lemma {:induction false} SilencedUntilResubscribed<C>(events: map<string, seq<C>>, name: string, callback: C,
                                                          changes: seq<Change<C>>)
    requires forall i :: 0 <= i < |changes| ==> changes[i] != OnChange(name, callback)
    ensures callback !in Listeners(ApplyChanges(Unsubscribe(events, name, callback), changes), name)
  {
    UnsubscribeEffect(events, name, callback, name, callback);
    StaysSilent(Unsubscribe(events, name, callback), name, callback, changes);
  }

  lemma {:induction false} StaysSilent<C>(events: map<string, seq<C>>, name: string, callback: C,
                                            changes: seq<Change<C>>)
    requires callback !in Listeners(events, name)
    requires forall i :: 0 <= i < |changes| ==> changes[i] != OnChange(name, callback)
    ensures callback !in Listeners(ApplyChanges(events, changes), name)
    decreases |changes|
  {
    if changes != [] {
      var next := match changes[0]
        case OnChange(n, cb) => Subscribe(events, n, cb)
        case OffChange(n, cb) => Unsubscribe(events, n, cb);
      match changes[0] {
        case OnChange(n, cb) =>
          SubscribeEffect(events, n, cb, name);
        case OffChange(n, cb) =>
          UnsubscribeEffect(events, n, cb, name, callback);
          if n == name {
            WithoutCounts(Listeners(events, name), cb, callback);
          }
      }
      assert callback !in Listeners(next, name);
      assert forall i :: 0 <= i < |changes[1..]| ==> changes[1..][i] == changes[i + 1];
      StaysSilent(next, name, callback, changes[1..]);
    }
  }

  /** A table with no entry under an inherited name never gets one: `on` throws for
      such a name before it assigns, so the names stay inherited whatever changes come. */
  lemma {:induction false} NoOwnPrototypeNames<C>(events: map<string, seq<C>>, changes: seq<Change<C>>)
    requires forall n :: n in events ==> n !in PrototypeNames
    ensures forall n :: n in ApplyChanges(events, changes) ==> n !in PrototypeNames
    decreases |changes|
  {
    if changes != [] {
      var next := match changes[0]
        case OnChange(n, cb) => Subscribe(events, n, cb)
        case OffChange(n, cb) => Unsubscribe(events, n, cb);
      NoOwnPrototypeNames(next, changes[1..]);
    }
  }
}

=== FILE: events.dfy ===
/** The event stream of the tutorial pipeline: what process_message yields to the client,
    and the views of a stream that its promises are stated in (the structured events it
    carries, its chunk count, which kinds of events a phase may yield). */
module Events {
  import opened Outline

  datatype StageName = ChaptersStage | SectionsStage | ContentStage

  datatype Event =
    | Notice(text: string)
    | ProgressStart(stage: StageName)
    | ProgressComplete(stage: StageName, count: nat)
    | ChunkEvent(content: string)
    | ChapterEvent(number: int, title: string, description: string)
    | SectionEvent(chapter: int, sectionNumber: string, title: string, description: string)
    | ContentEvent(chapter: int, section: string, content: string)
    | ErrorEvent(message: string)
    | CompleteEvent(message: string)

  /** The events other than chunks, in order. */
  function NonChunks(events: seq<Event>): seq<Event>
  {
    if events == [] then []
    else
      var e := events[|events| - 1];
      NonChunks(events[..|events| - 1]) + (if e.ChunkEvent? then [] else [e])
  }

  /** The number of chunk events. */
  function ChunkCount(events: seq<Event>): nat
  {
    if events == [] then 0
    else ChunkCount(events[..|events| - 1]) + (if events[|events| - 1].ChunkEvent? then 1 else 0)
  }

  /** The texts of the chunk events, in order. */
  function ChunkData(events: seq<Event>): seq<string>
  {
    if events == [] then []
    else
      var e := events[|events| - 1];
      ChunkData(events[..|events| - 1]) + (if e.ChunkEvent? then [e.content] else [])
  }

  lemma {:induction false} ChunkDataAppend(a: seq<Event>, b: seq<Event>)
    ensures ChunkData(a + b) == ChunkData(a) + ChunkData(b)
    decreases |b|
  {
    if b == [] {
      assert a + b == a;
    } else {
      assert (a + b)[..|a + b| - 1] == a + b[..|b| - 1];
      assert (a + b)[|a + b| - 1] == b[|b| - 1];
      ChunkDataAppend(a, b[..|b| - 1]);
    }
  }

  /** Every event is either structured or a chunk carrying a text. */
  lemma {:induction false} NonChunksData(events: seq<Event>)
    ensures |NonChunks(events)| + |ChunkData(events)| == |events|
    decreases |events|
  {
    if events != [] {
      NonChunksData(events[..|events| - 1]);
    }
  }

  /** A stream of structured events carries no chunk text. */
  lemma StructuredNoData(events: seq<Event>)
    requires NonChunks(events) == events
    ensures ChunkData(events) == []
  {
    NonChunksData(events);
  }

  /** The events a phase of the pipeline may yield: chunks and its own structured events. */
  predicate PhaseEvent(e: Event, stage: StageName)
  {
    match e
    case ChunkEvent(_) => true
    case ChapterEvent(_, _, _) => stage == ChaptersStage
    case SectionEvent(_, _, _, _) => stage == SectionsStage
    case ContentEvent(_, _, _) => stage == ContentStage
    case _ => false
  }

  predicate PhaseEvents(events: seq<Event>, stage: StageName)
  {
    forall i :: 0 <= i < |events| ==> PhaseEvent(events[i], stage)
  }

  lemma {:induction false} NonChunksAppend(a: seq<Event>, b: seq<Event>)
    ensures NonChunks(a + b) == NonChunks(a) + NonChunks(b)
    decreases |b|
  {
    if b == [] {
      assert a + b == a;
    } else {
      assert (a + b)[..|a + b| - 1] == a + b[..|b| - 1];
      assert (a + b)[|a + b| - 1] == b[|b| - 1];
      NonChunksAppend(a, b[..|b| - 1]);
    }
  }

  lemma {:induction false} ChunkCountAppend(a: seq<Event>, b: seq<Event>)
    ensures ChunkCount(a + b) == ChunkCount(a) + ChunkCount(b)
    decreases |b|
  {
    if b == [] {
      assert a + b == a;
    } else {
      assert (a + b)[..|a + b| - 1] == a + b[..|b| - 1];
      assert (a + b)[|a + b| - 1] == b[|b| - 1];
      ChunkCountAppend(a, b[..|b| - 1]);
    }
  }

  lemma PhaseEventsAppend(a: seq<Event>, b: seq<Event>, stage: StageName)
    requires PhaseEvents(a, stage) && PhaseEvents(b, stage)
    ensures PhaseEvents(a + b, stage)
  {
    forall i | 0 <= i < |a + b|
      ensures PhaseEvent((a + b)[i], stage)
    {
      if i < |a| {
        assert (a + b)[i] == a[i];
      } else {
        assert (a + b)[i] == b[i - |a|];
      }
    }
  }

  /** Appending one event: its chunk count and structured view grow by that event. */
  lemma EventSnoc(events: seq<Event>, e: Event)
    ensures NonChunks(events + [e]) == NonChunks(events) + (if e.ChunkEvent? then [] else [e])
    ensures ChunkCount(events + [e]) == ChunkCount(events) + (if e.ChunkEvent? then 1 else 0)
  {
    assert (events + [e])[..|events|] == events;
  }

  // ---------------------------------------------------------------------------------
  // The structured events a list of chapters stands for

  function ChapterEventOf(c: Chapter): Event
  {
    ChapterEvent(c.number, c.title, c.description)
  }

  /** One `chapter` event per chapter, in order. */
  function ChapterEvents(chapters: seq<Chapter>): seq<Event>
  {
    if chapters == [] then []
    else ChapterEvents(chapters[..|chapters| - 1]) + [ChapterEventOf(chapters[|chapters| - 1])]
  }

  /** One `section` event per section of the chapter numbered `chapter`, in order. */
  function SectionEvents(chapter: int, sections: seq<Section>): seq<Event>
  {
    if sections == [] then []
    else
      var s := sections[|sections| - 1];
      SectionEvents(chapter, sections[..|sections| - 1]) + [SectionEvent(chapter, s.number, s.title, s.description)]
  }

  /** The section events of every chapter, chapter after chapter. */
  function AllSectionEvents(chapters: seq<Chapter>): seq<Event>
  {
    if chapters == [] then []
    else
      var c := chapters[|chapters| - 1];
      AllSectionEvents(chapters[..|chapters| - 1]) + SectionEvents(c.number, c.sections)
  }

  /** The number of sections over all chapters. */
  function TotalSections(chapters: seq<Chapter>): nat
  {
    if chapters == [] then 0
    else TotalSections(chapters[..|chapters| - 1]) + |chapters[|chapters| - 1].sections|
  }

  /** One `content` event per section of the chapter, carrying the section's content. */
  function ContentEvents(chapter: int, sections: seq<Section>): seq<Event>
  {
    if sections == [] then []
    else
      var s := sections[|sections| - 1];
      ContentEvents(chapter, sections[..|sections| - 1]) + [ContentEvent(chapter, s.number, s.content)]
  }

  function AllContentEvents(chapters: seq<Chapter>): seq<Event>
  {
    if chapters == [] then []
    else
      var c := chapters[|chapters| - 1];
      AllContentEvents(chapters[..|chapters| - 1]) + ContentEvents(c.number, c.sections)
  }

  /** A chapter's structured events are all structured: none of them is a chunk. */
  lemma {:induction false} ChapterEventsStructured(chapters: seq<Chapter>)
    ensures NonChunks(ChapterEvents(chapters)) == ChapterEvents(chapters)
    ensures ChunkCount(ChapterEvents(chapters)) == 0
    ensures PhaseEvents(ChapterEvents(chapters), ChaptersStage)
    ensures |ChapterEvents(chapters)| == |chapters|
  {
    if chapters != [] {
      var init := chapters[..|chapters| - 1];
      ChapterEventsStructured(init);
      EventSnoc(ChapterEvents(init), ChapterEventOf(chapters[|chapters| - 1]));
    }
  }

  lemma {:induction false} SectionEventsStructured(chapter: int, sections: seq<Section>)
    ensures NonChunks(SectionEvents(chapter, sections)) == SectionEvents(chapter, sections)
    ensures PhaseEvents(SectionEvents(chapter, sections), SectionsStage)
    ensures |SectionEvents(chapter, sections)| == |sections|
  {
    if sections != [] {
      var init := sections[..|sections| - 1];
      var s := sections[|sections| - 1];
      SectionEventsStructured(chapter, init);
      EventSnoc(SectionEvents(chapter, init), SectionEvent(chapter, s.number, s.title, s.description));
    }
  }

  /** The section events of the chapters are as many as their sections. */
  lemma {:induction false} AllSectionEventsCount(chapters: seq<Chapter>)
    ensures |AllSectionEvents(chapters)| == TotalSections(chapters)
  {
    if chapters != [] {
      var c := chapters[|chapters| - 1];
      AllSectionEventsCount(chapters[..|chapters| - 1]);
      SectionEventsStructured(c.number, c.sections);
    }
  }

  // ---------------------------------------------------------------------------------
  // Chapters that agree on everything a later phase leaves alone

  /** Same chapters, same headings: number, title and description of every chapter. */
  predicate SameHeadings(a: seq<Chapter>, b: seq<Chapter>)
  {
    |a| == |b| && forall i :: 0 <= i < |a| ==> a[i] == b[i].(sections := a[i].sections)
  }

  /** Same headings and the same sections, up to each section's content. */
  predicate SameOutline(a: seq<Chapter>, b: seq<Chapter>)
  {
    SameHeadings(a, b)
    && (forall i :: 0 <= i < |a| ==> |a[i].sections| == |b[i].sections|)
    && (forall i, j :: 0 <= i < |a| && 0 <= j < |a[i].sections| ==>
          a[i].sections[j] == b[i].sections[j].(content := a[i].sections[j].content))
  }

  lemma SameHeadingsTrans(a: seq<Chapter>, b: seq<Chapter>, c: seq<Chapter>)
    requires SameHeadings(a, b) && SameHeadings(b, c)
    ensures SameHeadings(a, c)
  {
    forall i | 0 <= i < |a|
      ensures a[i] == c[i].(sections := a[i].sections)
    {
      assert b[i] == c[i].(sections := b[i].sections);
    }
  }

  lemma {:induction false} SameHeadingsEvents(a: seq<Chapter>, b: seq<Chapter>)
    requires SameHeadings(a, b)
    ensures ChapterEvents(a) == ChapterEvents(b)
    decreases |a|
  {
    if a != [] {
      SameHeadingsEvents(a[..|a| - 1], b[..|b| - 1]);
    }
  }

  lemma {:induction false} SameSectionsEvents(n: int, a: seq<Section>, b: seq<Section>)
    requires |a| == |b|
    requires forall j :: 0 <= j < |a| ==> a[j] == b[j].(content := a[j].content)
    ensures SectionEvents(n, a) == SectionEvents(n, b)
    decreases |a|
  {
    if a != [] {
      SameSectionsEvents(n, a[..|a| - 1], b[..|b| - 1]);
    }
  }

  /** Filling in section contents changes neither the section events nor the section count. */
  lemma {:induction false} SameOutlineEvents(a: seq<Chapter>, b: seq<Chapter>)
    requires SameOutline(a, b)
    ensures AllSectionEvents(a) == AllSectionEvents(b)
    ensures TotalSections(a) == TotalSections(b)
    decreases |a|
  {
    if a != [] {
      var k := |a| - 1;
      SameOutlineEvents(a[..k], b[..k]);
      SameSectionsEvents(a[k].number, a[k].sections, b[k].sections);
    }
  }
}

=== FILE: exercise.dfy ===
/** The exercise generator's batch call: one model call whose fragments are joined, then a
    line parser that turns every `<type|question|answer>` line into an exercise, splitting
    the options of a multiple-choice question at `///`, and finally `exercises[:count]`.
    An option key `chr(65 + i)` is represented by its code point `65 + i`. */
module Exercises {
  import opened Text
  import opened Json
  import opened Stages

  datatype Exercise = Exercise(question: string, options: map<int, string>, answer: string, kind: string)

  const ChoiceType: string := "选择题"
  const OptionSeparator: string := "///"

  /** The text between the angle brackets of a stripped line that starts with `<` and ends
      with `>`. */
  function Bracketed(line: string): (r: Option<string>)
    ensures r.Some? <==> StartsWith(line, "<") && EndsWith(line, ">")
    ensures r.Some? ==> line == "<" + r.value + ">"
  {
    if StartsWith(line, "<") && EndsWith(line, ">") then
      assert line[..1][0] == '<' && line[|line| - 1..][0] == '>';
      Some(line[1..|line| - 1])
    else None
  }

  /** `type_`: the stripped type, lowercased, with every `题` removed. */
  function NormalizeType(kind: string): (r: string)
    ensures '题' !in r
  {
    RemoveChar(Lower(Strip(kind)), '题')
  }

  /** `type_` keeps every character of the stripped, lowered type other than `题`, as
      often as it occurs (and in order, by `RemoveCharAppend`). */
  lemma NormalizeTypeKeeps(kind: string, x: char)
    requires x != '题'
    ensures multiset(NormalizeType(kind))[x] == multiset(Lower(Strip(kind)))[x]
  {
    RemoveCharKeeps(Lower(Strip(kind)), '题', x);
  }

  /** A type already stripped, in lower case and without `题` is kept as it is, and the
      same type with the `题` suffix normalises to it. */
  lemma NormalizeTypeSuffix(t: string)
    requires t == [] || (!IsSpace(t[0]) && !IsSpace(t[|t| - 1]))
    requires forall i :: 0 <= i < |t| ==> !('A' <= t[i] <= 'Z') && t[i] != '题'
    ensures NormalizeType(t) == t
    ensures NormalizeType(t + "题") == t
  {
    var u := t + "题";
    LowerKeeps(t);
    assert Lower(t) == t;
    if t != [] {
      StripKeeps(t);
    }
    assert Strip(t) == t;
    assert RemoveChar(t, '题') == t;
    StripKeeps(u);
    assert Strip(u) == u;
    LowerAppend(t, "题");
    assert Lower(u) == u;
    RemoveCharAppend(t, "题", '题');
    assert RemoveChar(u, '题') == t;
  }

  /** The options the loop fills: the i-th segment after the question, stripped, under the
      key `chr(65 + i)`. */
  function OptionsOf(segments: seq<string>): (r: map<int, string>)
    ensures forall k :: k in r <==> 65 <= k < 65 + |segments|
    ensures forall i :: 0 <= i < |segments| ==> r[65 + i] == Strip(segments[i])
  {
    if segments == [] then map[]
    else
      var n := |segments| - 1;
      var r := OptionsOf(segments[..n]);
      assert forall i :: 0 <= i < n ==> segments[..n][i] == segments[i];
      r[65 + n := Strip(segments[n])]
  }

  /** The exercise built from the three fields of a line. */
  function ExerciseOf(kind: string, question: string, answer: string): (e: Exercise)
    ensures e.answer == Strip(answer) && e.kind == NormalizeType(kind)
    ensures e.options != map[] ==> Strip(kind) == ChoiceType
    ensures Strip(kind) != ChoiceType ==> e.question == Strip(question) && e.options == map[]
  {
    var segments := SplitOn(Strip(question), OptionSeparator);
    if Strip(kind) == ChoiceType && |segments| > 1 then
      Exercise(Strip(segments[0]), OptionsOf(segments[1..]), Strip(answer), NormalizeType(kind))
    else Exercise(Strip(question), map[], Strip(answer), NormalizeType(kind))
  }

  /** One line of the output: an exercise when the stripped line is bracketed and its
      inner text has exactly three `|` fields. */
  function ParseLine(raw: string): (r: Option<Exercise>)
    ensures r.Some? ==> StartsWith(Strip(raw), "<") && EndsWith(Strip(raw), ">")
  {
    var inner := Bracketed(Strip(raw));
    if inner.None? then None
    else
      var fields := SplitOn(inner.value, "|");
      if |fields| == 3 then Some(ExerciseOf(fields[0], fields[1], fields[2])) else None
  }

  /** The exercise of one line, as a list of zero or one. */
  function ParsedLine(line: string): (r: seq<Exercise>)
    ensures |r| <= 1
  {
    var e := ParseLine(line);
    if e.Some? then [e.value] else []
  }

  /** The results of `f` on each element, concatenated in order. */
  function FlatMap<A, B>(f: A -> seq<B>, xs: seq<A>): seq<B>
  {
    if xs == [] then [] else FlatMap(f, xs[..|xs| - 1]) + f(xs[|xs| - 1])
  }

  lemma FlatMapSnoc<A, B>(f: A -> seq<B>, xs: seq<A>, i: nat)
    requires i < |xs|
    ensures FlatMap(f, xs[..i + 1]) == FlatMap(f, xs[..i]) + f(xs[i])
  {
    assert xs[..i + 1][..i] == xs[..i];
  }

  lemma {:induction false} FlatMapAppend<A, B>(f: A -> seq<B>, a: seq<A>, b: seq<A>)
    ensures FlatMap(f, a + b) == FlatMap(f, a) + FlatMap(f, b)
    decreases |b|
  {
    if b == [] {
      assert a + b == a;
    } else {
      var ab := a + b;
      assert ab[..|ab| - 1] == a + b[..|b| - 1];
      FlatMapAppend(f, a, b[..|b| - 1]);
    }
  }

  /** The exercises of the lines, in line order. */
  function ParseAll(lines: seq<string>): seq<Exercise>
  {
    FlatMap(ParsedLine, lines)
  }

  /** Python's `xs[:count]`: a negative count drops that many from the end. */
  function SliceTo<T>(xs: seq<T>, count: int): (r: seq<T>)
    ensures count >= 0 ==> |r| == if count < |xs| then count else |xs|
    ensures count < 0 ==> |r| == if -count < |xs| then |xs| + count else 0
    ensures r == xs[..|r|]
  {
    if count >= 0 then (if count < |xs| then xs[..count] else xs)
    else if -count < |xs| then xs[..|xs| + count] else []
  }

  // ---------------------------------------------------------------------------------
  // The parse loops

  /** `options[chr(65 + i)] = opt.strip()` for each segment in turn. */
  method FillOptions(segments: seq<string>) returns (options: map<int, string>)
    ensures options == OptionsOf(segments)
  {
    options := map[];
    var i := 0;
    while i < |segments|
      invariant 0 <= i <= |segments|
      invariant options == OptionsOf(segments[..i])
    {
      assert segments[..i + 1][..i] == segments[..i];
      options := options[65 + i := Strip(segments[i])];
      i := i + 1;
    }
    assert segments[..i] == segments;
  }

  method BuildExercise(kind: string, question: string, answer: string) returns (e: Exercise)
    ensures e == ExerciseOf(kind, question, answer)
  {
    var q := question;
    var options := map[];
    if Strip(kind) == ChoiceType {
      var optionList := SplitOn(Strip(question), OptionSeparator);
      if |optionList| > 1 {
        q := optionList[0];
        options := FillOptions(optionList[1..]);
      }
    }
    e := Exercise(Strip(q), options, Strip(answer), RemoveChar(Lower(Strip(kind)), '题'));
  }

  /** The line loop of generate_batch. */
  method ParseExercises(output: string) returns (exercises: seq<Exercise>)
    ensures exercises == ParseAll(StrippedLines(output))
  {
    var lines := SplitOn(Strip(output), "\n");
    exercises := [];
    var i := 0;
    while i < |lines|
      invariant 0 <= i <= |lines|
      invariant exercises == ParseAll(lines[..i])
    {
      FlatMapSnoc(ParsedLine, lines, i);
      var inner := Bracketed(Strip(lines[i]));
      if inner.Some? {
        var fields := SplitOn(inner.value, "|");
        if |fields| == 3 {
          var e := BuildExercise(fields[0], fields[1], fields[2]);
          exercises := exercises + [e];
        }
      }
      i := i + 1;
    }
    assert lines[..i] == lines;
  }

  // ---------------------------------------------------------------------------------
  // generate_batch and its failure handler

  /** What a batch call gives back: the list of exercises, the failure dict of the outer
      handler, or an exception. */
  datatype BatchOutcome = Listed(exercises: seq<Exercise>) | Fallback(record: Value) | Raised(error: string)

  /** The dict the outer handler builds, with `kind` as its `type`. */
  function FallbackRecord(topic: string, difficulty: int, kind: Value): (r: Value)
    ensures r.Obj? && r.fields.Keys == {"exercise", "metadata"}
  {
    Obj(map[
      "exercise" := Obj(map[
        "question" := Str("生成失败"),
        "options" := Arr([Str("选项生成失败")]),
        "answer" := Str("无法生成答案"),
        "explanation" := Str("练习题生成过程中出现错误"),
        "difficulty" := Num(difficulty),
        "topic" := Str(topic),
        "type" := kind,
        "keywords" := Arr([])]),
      "metadata" := Obj(map["topic" := Str(topic), "difficulty" := Num(difficulty), "type" := kind])])
  }

  /** The outer handler as written: `exercise_type` is a local that only the field
      unpacking of a parsed line binds; unbound, reading it raises. */
  function HandlerAsWritten(exerciseType: Option<string>, topic: string, difficulty: int): BatchOutcome
  {
    if exerciseType.None? then Raised("UnboundLocalError")
    else Fallback(FallbackRecord(topic, difficulty, Str(exerciseType.value)))
  }

  /** generate_batch as written. The only failure in the model is the model call, which
      happens before any line is parsed, so the handler always meets `exercise_type`
      unbound. */
  function BatchAsWritten(topic: string, difficulty: int, count: int, call: Attempt): BatchOutcome
  {
    match call
    case Failed(_) => HandlerAsWritten(None, topic, difficulty)
    case Completed(fragments) => Listed(SliceTo(ParseAll(StrippedLines(Concat(fragments))), count))
  }

  /** As written, a failed call never yields the failure dict: it raises. */
  lemma FallbackUnreachableAsWritten(topic: string, difficulty: int, count: int, partial: seq<string>)
    ensures BatchAsWritten(topic, difficulty, count, Failed(partial)) == Raised("UnboundLocalError")
  {
  }

  /** The requested types as the handler's `type`. */
  function TypesValue(types: seq<string>): (r: Value)
    ensures r.Arr? && |r.items| == |types|
    ensures forall i :: 0 <= i < |types| ==> r.items[i] == Str(types[i])
  {
    if types == [] then Arr([]) else Arr([Str(types[0])] + TypesValue(types[1..]).items)
  }

  /** generate_batch with the handler naming the requested types: a failed call gives the
      failure dict, a completed one the first `count` exercises of its text, in order. */
  method GenerateBatch(topic: string, types: seq<string>, difficulty: int, count: int, call: Attempt)
    returns (r: BatchOutcome)
    ensures call.Failed? ==> r == Fallback(FallbackRecord(topic, difficulty, TypesValue(types)))
    ensures call.Completed? ==> r == Listed(SliceTo(ParseAll(StrippedLines(Concat(call.fragments))), count))
    ensures call.Completed? ==> r == BatchAsWritten(topic, difficulty, count, call)
  {
    var received := Received(call);
    var output: seq<string> := [];
    var i := 0;
    while i < |received|
      invariant 0 <= i <= |received|
      invariant output == received[..i]
    {
      output := output + [received[i]];
      i := i + 1;
    }
    if call.Failed? {
      return Fallback(FallbackRecord(topic, difficulty, TypesValue(types)));
    }
    assert output == call.fragments;
    var exercises := ParseExercises(Concat(output));
    r := Listed(SliceTo(exercises, count));
  }

  // ---------------------------------------------------------------------------------
  // What the parser reads back

  /** A line in the format the prompt asks for. */
  function FormatLine(kind: string, question: string, answer: string): string
  {
    "<" + kind + "|" + question + "|" + answer + ">"
  }

  /** A line written by FormatLine, from fields without `|`, parses to the exercise of its
      three fields. */
  lemma LineRoundTrip(kind: string, question: string, answer: string)
    requires '|' !in kind && '|' !in question && '|' !in answer
    ensures ParseLine(FormatLine(kind, question, answer)) == Some(ExerciseOf(kind, question, answer))
  {
    var line := FormatLine(kind, question, answer);
    var inner := kind + "|" + question + "|" + answer;
    assert line == "<" + inner + ">";
    StripKeeps(line);
    assert Bracketed(line).value == inner;
    JoinThree(kind, question, answer, "|");
    SplitJoinOn([kind, question, answer], "|");
  }

  /** A multiple-choice question written as the question and its options joined by `///`
      gives back the stripped question and options keyed A, B, C, ... in order; its type
      becomes `选择`. */
  lemma ChoiceRoundTrip(question: string, options: seq<string>, answer: string)
    requires options != []
    requires '/' !in question && forall i :: 0 <= i < |options| ==> '/' !in options[i]
    requires question != [] && !IsSpace(question[0])
    requires var last := options[|options| - 1]; last != [] && !IsSpace(last[|last| - 1])
    ensures var e := ExerciseOf(ChoiceType, JoinWith([question] + options, OptionSeparator), answer);
      e.question == Strip(question) && e.kind == "选择" && e.answer == Strip(answer)
      && (forall k :: k in e.options <==> 65 <= k < 65 + |options|)
      && (forall i :: 0 <= i < |options| ==> e.options[65 + i] == Strip(options[i]))
  {
    var parts := [question] + options;
    var joined := JoinWith(parts, OptionSeparator);
    JoinWithEnds(parts, OptionSeparator);
    StripKeeps(joined);
    assert forall i :: 0 <= i < |parts| ==> '/' !in parts[i];
    SplitJoinOn(parts, OptionSeparator);
    assert parts[1..] == options;
    ChoiceTypeNormalized();
  }

  lemma ChoiceTypeNormalized()
    ensures Strip(ChoiceType) == ChoiceType && NormalizeType(ChoiceType) == "选择"
  {
    StripKeeps(ChoiceType);
    assert Lower(ChoiceType) == ChoiceType;
  }

  /** The parse of one output is the parse of its first lines followed by the parse of the
      rest: every line is read on its own, in order. */
  lemma ParseAllAppend(a: seq<string>, b: seq<string>)
    ensures ParseAll(a + b) == ParseAll(a) + ParseAll(b)
  {
    FlatMapAppend(ParsedLine, a, b);
  }

  /** The three fields of an exercise line. */
  datatype Fields = Fields(kind: string, question: string, answer: string)

  predicate CleanFields(f: Fields)
  {
    '|' !in f.kind && '|' !in f.question && '|' !in f.answer
    && '\n' !in f.kind && '\n' !in f.question && '\n' !in f.answer
  }

  function FormatLines(fs: seq<Fields>): (r: seq<string>)
    ensures |r| == |fs|
    ensures forall i :: 0 <= i < |fs| ==> r[i] == FormatLine(fs[i].kind, fs[i].question, fs[i].answer)
  {
    if fs == [] then [] else FormatLines(fs[..|fs| - 1]) + [FormatLine(fs[|fs| - 1].kind, fs[|fs| - 1].question, fs[|fs| - 1].answer)]
  }

  function ExercisesOf(fs: seq<Fields>): (r: seq<Exercise>)
    ensures |r| == |fs|
  {
    if fs == [] then [] else ExercisesOf(fs[..|fs| - 1]) + [ExerciseOf(fs[|fs| - 1].kind, fs[|fs| - 1].question, fs[|fs| - 1].answer)]
  }

  lemma {:induction false} ParseFormatted(fs: seq<Fields>)
    requires forall i :: 0 <= i < |fs| ==> CleanFields(fs[i])
    ensures ParseAll(FormatLines(fs)) == ExercisesOf(fs)
  {
    if fs != [] {
      var n := |fs| - 1;
      ParseFormatted(fs[..n]);
      LineRoundTrip(fs[n].kind, fs[n].question, fs[n].answer);
      assert FormatLines(fs)[..n] == FormatLines(fs[..n]);
    }
  }

  /** The formatted lines are single lines, and their join is its own strip. */
  lemma FormattedText(fs: seq<Fields>)
    requires fs != []
    requires forall i :: 0 <= i < |fs| ==> CleanFields(fs[i])
    ensures forall i :: 0 <= i < |FormatLines(fs)| ==> '\n' !in FormatLines(fs)[i]
    ensures Strip(JoinWith(FormatLines(fs), "\n")) == JoinWith(FormatLines(fs), "\n")
  {
    var lines := FormatLines(fs);
    forall i | 0 <= i < |lines|
      ensures '\n' !in lines[i]
    {
      var f := fs[i];
      assert lines[i] == "<" + f.kind + "|" + f.question + "|" + f.answer + ">";
    }
    var first, last := fs[0], fs[|fs| - 1];
    assert lines[0] == "<" + (first.kind + "|" + first.question + "|" + first.answer + ">");
    assert lines[|lines| - 1] == ("<" + last.kind + "|" + last.question + "|" + last.answer) + ">";
    JoinWithEnds(lines, "\n");
    StripKeeps(JoinWith(lines, "\n"));
  }

  /** An output made of formatted lines, one per line, gives back one exercise per line,
      in order. */
  lemma BatchRoundTrip(fs: seq<Fields>)
    requires fs != []
    requires forall i :: 0 <= i < |fs| ==> CleanFields(fs[i])
    ensures ParseAll(StrippedLines(JoinWith(FormatLines(fs), "\n"))) == ExercisesOf(fs)
  {
    FormattedText(fs);
    SplitJoin(FormatLines(fs), '\n');
    ParseFormatted(fs);
  }
}

=== FILE: json.dfy ===
/** Parsed JSON values and the handful of Python operations the backend applies to them
    (`key in v`, `v[key]`, `v.get(key, default)`, `len(v)`, truth value). Each operation
    that Python would answer with an exception (TypeError, KeyError, AttributeError) gives
    `None` here. Floating-point numbers are exact reals. */
module Json {
  import opened Text

  datatype Value =
    | Null
    | Bool(b: bool)
    | Num(n: int)
    | Float(f: real)
    | Str(s: string)
    | Arr(items: seq<Value>)
    | Obj(fields: map<string, Value>)

  /** Python's truth value of a parsed JSON value. */
  predicate Truthy(v: Value)
  {
    match v
    case Null => false
    case Bool(b) => b
    case Num(n) => n != 0
    case Float(f) => f != 0.0
    case Str(s) => s != ""
    case Arr(items) => items != []
    case Obj(fields) => fields != map[]
  }

  /** `key in v`: a key of a dict, an element of a list, a substring of a string; the
      other values raise TypeError. */
  function In(v: Value, key: string): (r: Option<bool>)
    ensures r.None? <==> !(v.Obj? || v.Arr? || v.Str?)
    ensures v.Obj? ==> r == Some(key in v.fields)
  {
    match v
    case Obj(fields) => Some(key in fields)
    case Arr(items) => Some(Str(key) in items)
    case Str(s) => Some(Contains(s, key))
    case _ => None
  }

  /** `v[key]` with a string key: only a dict holding the key answers; a missing key is a
      KeyError and any other value a TypeError. */
  function Index(v: Value, key: string): (r: Option<Value>)
    ensures r.Some? <==> v.Obj? && key in v.fields
    ensures r.Some? ==> r.value == v.fields[key]
  {
    if v.Obj? && key in v.fields then Some(v.fields[key]) else None
  }

  /** `v.get(key, default)`: only dicts have `get` (AttributeError otherwise). */
  function GetOr(v: Value, key: string, default: Value): (r: Option<Value>)
    ensures r.Some? <==> v.Obj?
    ensures v.Obj? ==> r.value == (if key in v.fields then v.fields[key] else default)
  {
    match v
    case Obj(fields) => Some(if key in fields then fields[key] else default)
    case _ => None
  }

  /** `len(v)` for the values that have a length. */
  function Len(v: Value): Option<nat>
  {
    match v
    case Str(s) => Some(|s|)
    case Arr(items) => Some(|items|)
    case Obj(fields) => Some(|fields|)
    case _ => None
  }

  /** `{**a, **b}` and `a.update(b)`: every key of either, the value of `b` winning. */
  function Overlay(a: map<string, Value>, b: map<string, Value>): (r: map<string, Value>)
    ensures r.Keys == a.Keys + b.Keys
    ensures forall k :: k in b ==> r[k] == b[k]
    ensures forall k :: k in a && k !in b ==> r[k] == a[k]
  {
    a + b
  }
}

=== FILE: knowledge_graph.dfy ===
/** The knowledge-graph generator: two streaming generators that forward the model's text
    as chunk events, then parse every `<node|id,label,category,description,relation>` line
    into a node and an edge and yield the graph; and a relation analysis between two
    nodes. A model call that fails ends the generator with its exception after the events
    already yielded. */
module KnowledgeGraph {
  import opened Text
  import opened Stages

  /** `KnowledgeNode`; `tags` and `metadata` stay None and are not modelled. */
  datatype Node = Node(id: string, labelText: string, name: string, description: string, category: string,
                       value: int, draggable: bool)

  /** `KnowledgeEdge`; `metadata` stays None and is not modelled. */
  datatype Edge = Edge(source: string, target: string, kind: string, description: string, labelText: string)

  datatype Graph = Graph(nodes: seq<Node>, edges: seq<Edge>)

  /** `{"type": "chunk", "data": ...}` and `{"type": "graph", "data": ...}` */
  datatype GraphEvent = TextChunk(data: string) | GraphReady(graph: Graph)

  const CenterId: string := "center"
  const NodePrefix: string := "<node|"

  // ---------------------------------------------------------------------------------
  // Streaming

  /** The chunk events of one call: one per non-empty fragment, in arrival order. */
  function ForwardedChunks(fragments: seq<string>): (r: seq<GraphEvent>)
    ensures |r| <= |fragments|
    ensures forall i :: 0 <= i < |r| ==> r[i].TextChunk? && r[i].data != ""
  {
    if fragments == [] then []
    else
      var last := fragments[|fragments| - 1];
      ForwardedChunks(fragments[..|fragments| - 1]) + (if last == "" then [] else [TextChunk(last)])
  }

  /** The texts of chunk events, concatenated. */
  function ChunkText(events: seq<GraphEvent>): string
  {
    if events == [] then ""
    else
      var e := events[|events| - 1];
      ChunkText(events[..|events| - 1]) + (if e.TextChunk? then e.data else "")
  }

  /** The forwarded chunks carry the whole text of the call, nothing more. */
  lemma {:induction false} ForwardedChunksCarry(fragments: seq<string>)
    ensures ChunkText(ForwardedChunks(fragments)) == Concat(fragments)
  {
    if fragments != [] {
      var init, last := fragments[..|fragments| - 1], fragments[|fragments| - 1];
      ForwardedChunksCarry(init);
      var before := ForwardedChunks(init);
      var added := if last == "" then [] else [TextChunk(last)];
      var all := before + added;
      if added != [] {
        assert all[..|all| - 1] == before;
      } else {
        assert all == before;
      }
    }
  }

  lemma ForwardedChunksSnoc(fragments: seq<string>, i: nat)
    requires i < |fragments|
    ensures ForwardedChunks(fragments[..i + 1])
      == ForwardedChunks(fragments[..i]) + (if fragments[i] == "" then [] else [TextChunk(fragments[i])])
    ensures Concat(fragments[..i + 1]) == Concat(fragments[..i]) + fragments[i]
  {
    assert fragments[..i + 1][..i] == fragments[..i];
  }

  /** `async for chunk in ...: if chunk: yield chunk; result += chunk` */
  method StreamCall(fragments: seq<string>) returns (events: seq<GraphEvent>, result: string)
    ensures events == ForwardedChunks(fragments)
    ensures result == Concat(fragments)
  {
    events, result := [], "";
    var i := 0;
    while i < |fragments|
      invariant 0 <= i <= |fragments|
      invariant events == ForwardedChunks(fragments[..i])
      invariant result == Concat(fragments[..i])
    {
      ForwardedChunksSnoc(fragments, i);
      var chunk := fragments[i];
      if chunk != "" {
        events := events + [TextChunk(chunk)];
        result := result + chunk;
      }
      i := i + 1;
    }
    assert fragments[..i] == fragments;
  }

  // ---------------------------------------------------------------------------------
  // Node lines

  /** `line[6:-1]` for a line of at least six characters. */
  function NodeBody(line: string): string
  {
    if |line| > 6 then line[6..|line| - 1] else ""
  }

  /** The fields of a node line: a non-empty stripped line that starts with `<node|` and
      whose body splits on `,` into at least five fields. */
  function NodeAttrs(raw: string): (r: Option<seq<string>>)
    ensures r.Some? ==> |r.value| >= 5
  {
    var line := Strip(raw);
    if line != "" && StartsWith(line, NodePrefix) then
      var attrs := SplitOn(NodeBody(line), ",");
      if |attrs| >= 5 then Some(attrs) else None
    else None
  }

  function NodeOf(id: string, attrs: seq<string>): (n: Node)
    requires |attrs| >= 5
    ensures n.id == id && n.labelText == attrs[1] && n.name == attrs[1]
    ensures n.category == attrs[2] && n.description == attrs[3] && n.value == 1 && n.draggable
  {
    Node(id, attrs[1], attrs[1], attrs[3], attrs[2], 1, true)
  }

  /** The edge to a parsed node: the relation is its type and label, and its description
      reads `{label}是{topic}的{relation}`. */
  function EdgeOf(source: string, target: string, attrs: seq<string>, topic: string): (e: Edge)
    requires |attrs| >= 5
    ensures e.source == source && e.target == target && e.kind == attrs[4] && e.labelText == attrs[4]
    ensures e.description == attrs[1] + "是" + topic + "的" + attrs[4]
  {
    Edge(source, target, attrs[4], attrs[1] + "是" + topic + "的" + attrs[4], attrs[4])
  }

  /** A node written in the format `<node|id,name,category,description,relation>`, from
      at least five fields without `,`, gives back exactly those fields, and as the only
      line of an expansion it adds the node of its fields and, unless its id is
      `center`, the edge to it. */
  lemma NodeLineRoundTrip(fields: seq<string>, topic: string)
    requires |fields| >= 5
    requires forall i :: 0 <= i < |fields| ==> ',' !in fields[i]
    ensures NodeAttrs(NodePrefix + JoinWith(fields, ",") + ">") == Some(fields)
    ensures Expansion([NodePrefix + JoinWith(fields, ",") + ">"], topic)
      == Graph([NodeOf(fields[0], fields)],
               if fields[0] != CenterId then [EdgeOf(CenterId, fields[0], fields, topic)] else [])
  {
    var body := JoinWith(fields, ",");
    var line := NodePrefix + body + ">";
    StripKeeps(line);
    assert line[..|NodePrefix|] == NodePrefix;
    assert NodeBody(line) == body;
    SplitJoinOn(fields, ",");
    assert [line][..0] == [];
  }

  // ---------------------------------------------------------------------------------
  // expand_knowledge

  /** The root node: id `center`, label and name the topic, the description given or
      `知识点：{topic}` when it is empty. */
  function RootNode(topic: string, description: string, category: string): (n: Node)
    ensures n.id == CenterId && n.labelText == topic && n.name == topic && n.category == category
    ensures n.description == if description == "" then "知识点：" + topic else description
  {
    Node(CenterId, topic, topic, if description == "" then "知识点：" + topic else description, category, 1, true)
  }

  /** The nodes and edges the lines add after the root, in line order. */
  function Expansion(lines: seq<string>, topic: string): (g: Graph)
    ensures |g.nodes| <= |lines| && |g.edges| <= |g.nodes|
  {
    if lines == [] then Graph([], [])
    else
      var g := Expansion(lines[..|lines| - 1], topic);
      var a := NodeAttrs(lines[|lines| - 1]);
      if a.None? then g
      else
        var id := a.value[0];
        Graph(g.nodes + [NodeOf(id, a.value)],
              g.edges + (if id != CenterId then [EdgeOf(CenterId, id, a.value, topic)] else []))
  }

  /** One more line extends the expansion by that line's node and edge. */
  lemma ExpansionSnoc(lines: seq<string>, i: nat, topic: string)
    requires i < |lines|
    ensures var g, a := Expansion(lines[..i], topic), NodeAttrs(lines[i]);
      Expansion(lines[..i + 1], topic)
      == if a.None? then g
         else Graph(g.nodes + [NodeOf(a.value[0], a.value)],
                    g.edges + (if a.value[0] != CenterId then [EdgeOf(CenterId, a.value[0], a.value, topic)] else []))
  {
    assert lines[..i + 1][..i] == lines[..i];
  }

  /** The parsed nodes whose id is not `center`, in order. */
  function NonCenter(nodes: seq<Node>): (r: seq<Node>)
    ensures |r| <= |nodes|
    ensures forall i :: 0 <= i < |r| ==> r[i].id != CenterId
  {
    if nodes == [] then []
    else
      var n := nodes[|nodes| - 1];
      NonCenter(nodes[..|nodes| - 1]) + (if n.id != CenterId then [n] else [])
  }

  /** Every parsed node whose id is not `center` gets exactly one edge from `center`, in
      the order of the nodes, labelled with its relation; a node with id `center` gets
      none. */
  lemma {:induction false} ExpansionEdges(lines: seq<string>, topic: string)
    ensures var g := Expansion(lines, topic);
      |g.edges| == |NonCenter(g.nodes)|
      && forall i :: 0 <= i < |g.edges| ==>
        g.edges[i].source == CenterId && g.edges[i].target == NonCenter(g.nodes)[i].id
        && g.edges[i].labelText == g.edges[i].kind
        && g.edges[i].description == NonCenter(g.nodes)[i].labelText + "是" + topic + "的" + g.edges[i].kind
  {
    if lines != [] {
      var i := |lines| - 1;
      ExpansionEdges(lines[..i], topic);
      ExpansionSnoc(lines, i, topic);
      assert lines[..i + 1] == lines;
      var g := Expansion(lines[..i], topic);
      var a := NodeAttrs(lines[i]);
      if a.Some? {
        var nodes := g.nodes + [NodeOf(a.value[0], a.value)];
        assert nodes[..|nodes| - 1] == g.nodes;
      }
    }
  }

  /** The graph expand_knowledge yields: the root first, then the parsed nodes. */
  function ExpandedGraph(lines: seq<string>, topic: string, description: string, category: string): Graph
  {
    var g := Expansion(lines, topic);
    Graph([RootNode(topic, description, category)] + g.nodes, g.edges)
  }

  /** The root comes first, every edge goes from it to another node, and there are fewer
      edges than nodes. */
  lemma ExpandedGraphShape(lines: seq<string>, topic: string, description: string, category: string)
    ensures var g := ExpandedGraph(lines, topic, description, category);
      g.nodes[0] == RootNode(topic, description, category)
      && |g.edges| <= |g.nodes| - 1
      && forall i :: 0 <= i < |g.edges| ==> g.edges[i].source == CenterId && g.edges[i].target != CenterId
  {
    ExpansionEdges(lines, topic);
  }

  /** The parse loop of expand_knowledge, starting from the list holding the root. */
  method ParseExpansion(lines: seq<string>, topic: string, root: Node) returns (nodes: seq<Node>, edges: seq<Edge>)
    ensures nodes == [root] + Expansion(lines, topic).nodes
    ensures edges == Expansion(lines, topic).edges
  {
    nodes, edges := [root], [];
    var i := 0;
    while i < |lines|
      invariant 0 <= i <= |lines|
      invariant nodes == [root] + Expansion(lines[..i], topic).nodes
      invariant edges == Expansion(lines[..i], topic).edges
    {
      ExpansionSnoc(lines, i, topic);
      var attrs := NodeAttrs(lines[i]);
      if attrs.Some? {
        var a := attrs.value;
        nodes := nodes + [NodeOf(a[0], a)];
        if a[0] != CenterId {
          edges := edges + [EdgeOf(CenterId, a[0], a, topic)];
        }
      }
      i := i + 1;
    }
    assert lines[..i] == lines;
  }

  const ExpandStart: string := "开始生成知识图谱...\n"
  const ExpandParsing: string := "\n正在解析知识点和关系..."

  function ExpandSummary(nodes: nat, edges: nat): string
  {
    "\n已生成 " + NatToString(nodes) + " 个知识点，" + NatToString(edges) + " 个关系。"
  }

  /** expand_knowledge: the start notice, the forwarded chunks, the parsing notice, the
      counts and the graph; a failed call ends the events after its chunks. */
  method ExpandKnowledge(topic: string, description: string, category: string, call: Attempt)
    returns (events: seq<GraphEvent>, raised: bool)
    ensures raised <==> call.Failed?
    ensures call.Failed? ==> events == [TextChunk(ExpandStart)] + ForwardedChunks(call.partial)
    ensures call.Completed? ==>
      var g := ExpandedGraph(StrippedLines(Concat(call.fragments)), topic, description, category);
      events == [TextChunk(ExpandStart)] + ForwardedChunks(call.fragments)
        + [TextChunk(ExpandParsing), TextChunk(ExpandSummary(|g.nodes|, |g.edges|)), GraphReady(g)]
  {
    var root := RootNode(topic, description, category);
    var chunks, result := StreamCall(Received(call));
    events := [TextChunk(ExpandStart)] + chunks;
    if call.Failed? {
      return events, true;
    }
    events := events + [TextChunk(ExpandParsing)];
    var lines := SplitOn(Strip(result), "\n");
    var nodes, edges := ParseExpansion(lines, topic, root);
    events := events + [TextChunk(ExpandSummary(|nodes|, |edges|)), GraphReady(Graph(nodes, edges))];
    raised := false;
  }

  // ---------------------------------------------------------------------------------
  // expand_single_node

  /** `{node_id}-{n}` */
  function ChildId(nodeId: string, n: nat): string
  {
    nodeId + "-" + NatToString(n)
  }

  /** Different counters give different ids under the same parent. */
  lemma ChildIdsDistinct(nodeId: string, m: nat, n: nat)
    requires m != n
    ensures ChildId(nodeId, m) != ChildId(nodeId, n)
  {
    if ChildId(nodeId, m) == ChildId(nodeId, n) {
      assert ChildId(nodeId, m)[|nodeId| + 1..] == NatToString(m);
      assert ChildId(nodeId, n)[|nodeId| + 1..] == NatToString(n);
      NatToStringValue(m);
      NatToStringValue(n);
    }
  }

  /** The children the lines add under `nodeId`: field 1 is ignored and the n-th node
      parsed gets id `{node_id}-{n}`. */
  function Children(lines: seq<string>, nodeId: string, topic: string): (g: Graph)
    ensures |g.edges| == |g.nodes| <= |lines|
  {
    if lines == [] then Graph([], [])
    else
      var g := Children(lines[..|lines| - 1], nodeId, topic);
      var a := NodeAttrs(lines[|lines| - 1]);
      if a.None? then g
      else
        var id := ChildId(nodeId, |g.nodes| + 1);
        Graph(g.nodes + [NodeOf(id, a.value)], g.edges + [EdgeOf(nodeId, id, a.value, topic)])
  }

  /** The i-th child has id `{node_id}-{i+1}` and the i-th edge goes from the parent to it:
      as many edges as nodes. */
  lemma {:induction false} ChildrenShape(lines: seq<string>, nodeId: string, topic: string)
    ensures var g := Children(lines, nodeId, topic);
      |g.nodes| == |g.edges|
      && forall i :: 0 <= i < |g.nodes| ==>
        g.nodes[i].id == ChildId(nodeId, i + 1) && g.edges[i].source == nodeId && g.edges[i].target == g.nodes[i].id
  {
    if lines != [] {
      ChildrenShape(lines[..|lines| - 1], nodeId, topic);
    }
  }

  /** The children of one expansion have pairwise different ids. */
  lemma ChildrenDistinct(lines: seq<string>, nodeId: string, topic: string, i: nat, j: nat)
    requires i < j < |Children(lines, nodeId, topic).nodes|
    ensures Children(lines, nodeId, topic).nodes[i].id != Children(lines, nodeId, topic).nodes[j].id
  {
    ChildrenShape(lines, nodeId, topic);
    ChildIdsDistinct(nodeId, i + 1, j + 1);
  }

  /** The parse loop of expand_single_node, with its node counter. */
  method ParseChildren(lines: seq<string>, nodeId: string, topic: string) returns (nodes: seq<Node>, edges: seq<Edge>)
    ensures Graph(nodes, edges) == Children(lines, nodeId, topic)
  {
    nodes, edges := [], [];
    var counter := 1;
    var i := 0;
    while i < |lines|
      invariant 0 <= i <= |lines|
      invariant Graph(nodes, edges) == Children(lines[..i], nodeId, topic)
      invariant counter == |nodes| + 1
    {
      assert lines[..i + 1][..i] == lines[..i];
      var attrs := NodeAttrs(lines[i]);
      if attrs.Some? {
        var newId := nodeId + "-" + NatToString(counter);
        nodes := nodes + [NodeOf(newId, attrs.value)];
        edges := edges + [EdgeOf(nodeId, newId, attrs.value, topic)];
        counter := counter + 1;
      }
      i := i + 1;
    }
    assert lines[..i] == lines;
  }

  const SingleParsing: string := "\n正在解析新的知识点和关系..."

  function SingleStart(topic: string): string
  {
    "开始拓展知识点 [" + topic + "]...\n"
  }

  function SingleSummary(nodes: nat, edges: nat): string
  {
    "\n已生成 " + NatToString(nodes) + " 个新知识点，" + NatToString(edges) + " 个关系。"
  }

  /** expand_single_node: as expand_knowledge, without a root and with counter ids. */
  method ExpandSingleNode(nodeId: string, topic: string, call: Attempt)
    returns (events: seq<GraphEvent>, raised: bool)
    ensures raised <==> call.Failed?
    ensures call.Failed? ==> events == [TextChunk(SingleStart(topic))] + ForwardedChunks(call.partial)
    ensures call.Completed? ==>
      var g := Children(StrippedLines(Concat(call.fragments)), nodeId, topic);
      events == [TextChunk(SingleStart(topic))] + ForwardedChunks(call.fragments)
        + [TextChunk(SingleParsing), TextChunk(SingleSummary(|g.nodes|, |g.edges|)), GraphReady(g)]
  {
    var chunks, result := StreamCall(Received(call));
    events := [TextChunk(SingleStart(topic))] + chunks;
    if call.Failed? {
      return events, true;
    }
    events := events + [TextChunk(SingleParsing)];
    var lines := SplitOn(Strip(result), "\n");
    var nodes, edges := ParseChildren(lines, nodeId, topic);
    events := events + [TextChunk(SingleSummary(|nodes|, |edges|)), GraphReady(Graph(nodes, edges))];
    raised := false;
  }

  // ---------------------------------------------------------------------------------
  // analyze_relation

  /** The names of the prompt templates the module defines. */
  const TemplateNames: set<string> := {"expand_knowledge"}

  datatype RelationOutcome = Related(edge: Edge) | Unrelated | RelationRaised(error: string)

  const RelationPrefix: string := "<relation|"

  /** `result[10:-1]` */
  function RelationBody(result: string): string
  {
    if |result| > 10 then result[10..|result| - 1] else ""
  }

  /** The edge the stripped text describes: it starts with `<relation|` and its body has at
      least three `|` fields, the first the type and the third the description. */
  function RelationOf(text: string, source: Node, target: Node): Option<Edge>
  {
    var result := Strip(text);
    if StartsWith(result, RelationPrefix) then
      var attrs := SplitOn(RelationBody(result), "|");
      if |attrs| >= 3 then Some(Edge(source.id, target.id, attrs[0], attrs[2], "")) else None
    else None
  }

  /** analyze_relation as written: the template lookup comes before the model call. */
  function AnalyzeRelationAsWritten(source: Node, target: Node, call: Attempt): RelationOutcome
  {
    if "analyze_relation" !in TemplateNames then RelationRaised("KeyError")
    else if call.Failed? then RelationRaised("call failed")
    else
      var e := RelationOf(Concat(call.fragments), source, target);
      if e.Some? then Related(e.value) else Unrelated
  }

  /** As written, analyze_relation raises KeyError whatever its arguments and whatever the
      model would answer. */
  lemma AnalyzeRelationAlwaysRaises(source: Node, target: Node, call: Attempt)
    ensures AnalyzeRelationAsWritten(source, target, call) == RelationRaised("KeyError")
  {
  }

  /** analyze_relation with its template defined: the model's text, accumulated, gives the
      edge between the two nodes or no relation; a failed call raises. */
  method AnalyzeRelation(source: Node, target: Node, call: Attempt) returns (r: RelationOutcome)
    ensures call.Failed? ==> r == RelationRaised("call failed")
    ensures call.Completed? && RelationOf(Concat(call.fragments), source, target).Some? ==>
      r == Related(RelationOf(Concat(call.fragments), source, target).value)
    ensures call.Completed? && RelationOf(Concat(call.fragments), source, target).None? ==> r == Unrelated
  {
    var _, result := StreamCall(Received(call));
    if call.Failed? {
      return RelationRaised("call failed");
    }
    var e := RelationOf(result, source, target);
    r := if e.Some? then Related(e.value) else Unrelated;
  }

  /** A relation written in the format `<relation|type|strength|description>`, from fields
      without `|`, gives the edge from the source to the target with that type and
      description. */
  lemma RelationRoundTrip(kind: string, strength: string, description: string, source: Node, target: Node)
    requires '|' !in kind && '|' !in strength && '|' !in description
    ensures RelationOf(RelationPrefix + kind + "|" + strength + "|" + description + ">", source, target)
      == Some(Edge(source.id, target.id, kind, description, ""))
  {
    var body := kind + "|" + strength + "|" + description;
    var text := RelationPrefix + kind + "|" + strength + "|" + description + ">";
    assert text == RelationPrefix + body + ">";
    StripKeeps(text);
    assert text[..|RelationPrefix|] == RelationPrefix;
    assert RelationBody(text) == body;
    JoinThree(kind, strength, description, "|");
    SplitJoinOn([kind, strength, description], "|");
  }

  /** Text that does not start with `<relation|` after stripping names no relation. */
  lemma NoRelationWithoutPrefix(text: string, source: Node, target: Node)
    requires !StartsWith(Strip(text), RelationPrefix)
    ensures RelationOf(text, source, target).None?
  {
  }
}

=== FILE: learning_plan.dfy ===
/** Learning plans: the tasks built for a list of knowledge points, the adjustments and
    progress updates applied to them in place, and the progress report. The model's
    answer is requested but never used by the code, so only whether the request fails
    is a parameter; the clock is the parameter `now`, in whole seconds since
    0001-01-01 00:00:00. Progress values are exact reals. */
module LearningPlans {
  import opened Text

  /** The estimated time of every generated task, in minutes. */
  const TaskMinutes := 120

  const SecondsPerDay := 86400

  /** The last second of 9999-12-31, the end of datetime's range; its start is 0. */
  const MaxSecond := 3652059 * SecondsPerDay - 1

  /** The largest number of days a timedelta holds. */
  const MaxDeltaDays := 999999999

  predicate InDateRange(t: int)
  {
    0 <= t <= MaxSecond
  }

  /** `date + timedelta(days=days)`: None where it raises OverflowError, because the
      timedelta is too large or the sum leaves datetime's range. Whole days never touch
      a datetime's microseconds, so whole seconds are enough. */
  function AddDays(date: int, days: int): (r: Option<int>)
    ensures r.Some? ==> InDateRange(r.value) && r.value - date == days * SecondsPerDay
    ensures r.None? <==> days < -MaxDeltaDays || MaxDeltaDays < days || !InDateRange(date + days * SecondsPerDay)
  {
    if -MaxDeltaDays <= days <= MaxDeltaDays && InDateRange(date + days * SecondsPerDay) then
      Some(date + days * SecondsPerDay)
    else None
  }

  /** Moving a date in range forward by some days and back again gives the date back. */
  lemma AddDaysInverse(date: int, days: int)
    requires InDateRange(date) && AddDays(date, days).Some?
    ensures AddDays(AddDays(date, days).value, -days) == Some(date)
  {
  }

  /** A date in range can always be moved by zero days, and then stays put. */
  lemma AddDaysZero(date: int)
    ensures AddDays(date, 0).Some? <==> InDateRange(date)
    ensures InDateRange(date) ==> AddDays(date, 0) == Some(date)
  {
  }

  /** A plan of more days than datetime's range holds can never be made. */
  lemma AddDaysTooFar(date: int, days: int)
    requires InDateRange(date) && days > MaxSecond / SecondsPerDay
    ensures AddDays(date, days).None?
  {
  }

  datatype Task = Task(
    id: string, title: string, description: string, knowledgePoints: seq<string>,
    estimatedTime: int, difficulty: int, status: string, progress: real)

  /** The task generate_plan builds for the knowledge point at position `i`. */
  function NewTask(i: nat, point: string, level: int): (r: Task)
    ensures r.id == "task_" + NatToString(i)
    ensures r.knowledgePoints == [point] && r.estimatedTime == TaskMinutes && r.difficulty == level
    ensures r.status == "pending" && r.progress == 0.0
  {
    Task("task_" + NatToString(i), "学习" + point, "深入学习" + point + "的核心概念和应用", [point],
         TaskMinutes, level, "pending", 0.0)
  }

  /** `sum(task.estimated_time for task in tasks)` */
  function TotalTime(tasks: seq<Task>): (r: int)
    ensures (forall j :: 0 <= j < |tasks| ==> tasks[j].estimatedTime >= 0) ==> r >= 0
  {
    if tasks == [] then 0 else TotalTime(tasks[..|tasks| - 1]) + tasks[|tasks| - 1].estimatedTime
  }

  lemma TotalTimeSnoc(tasks: seq<Task>, t: Task)
    ensures TotalTime(tasks + [t]) == TotalTime(tasks) + t.estimatedTime
  {
    assert (tasks + [t])[..|tasks|] == tasks;
  }

  /** The loop of generate_plan: one task per knowledge point, in order, and the running
      total of their times. */
  method BuildTasks(points: seq<string>, level: int) returns (tasks: seq<Task>, total: int)
    ensures |tasks| == |points|
    ensures forall i :: 0 <= i < |points| ==> tasks[i] == NewTask(i, points[i], level)
    ensures total == TotalTime(tasks) && total == TaskMinutes * |points|
  {
    tasks, total := [], 0;
    for i := 0 to |points|
      invariant |tasks| == i
      invariant forall j :: 0 <= j < i ==> tasks[j] == NewTask(j, points[j], level)
      invariant total == TotalTime(tasks) == TaskMinutes * i
    {
      var task := NewTask(i, points[i], level);
      TotalTimeSnoc(tasks, task);
      tasks := tasks + [task];
      total := total + task.estimatedTime;
    }
  }

  /** A task's id is `task_` followed by text that `int()` reads back to its position. */
  lemma NewTaskIdReadsBack(i: nat, point: string, level: int)
    ensures var id := NewTask(i, point, level).id;
      |id| > 5 && id[..5] == "task_" && ParseInt(id[5..]) == Some(i)
  {
    IntToStringRoundTrip(i);
    assert NewTask(i, point, level).id[5..] == NatToString(i);
  }

  /** The generated task ids are pairwise distinct. */
  lemma NewTaskIdsDistinct(i: nat, j: nat, p: string, q: string, level: int)
    requires i != j
    ensures NewTask(i, p, level).id != NewTask(j, q, level).id
  {
    var a, b := NatToString(i), NatToString(j);
    NatToStringValue(i);
    NatToStringValue(j);
    assert ("task_" + a)[5..] == a && ("task_" + b)[5..] == b;
  }

  // ---------------------------------------------------------------------------------
  // Adjustments

  /** One entry of `task_adjustments`: the fields it sets. */
  datatype Adjustment = Adjustment(taskId: string, estimatedTime: Option<int>, difficulty: Option<int>)

  datatype Feedback = Feedback(extendDays: Option<int>, adjustments: Option<seq<Adjustment>>)

  function AdjustTask(t: Task, a: Adjustment): Task
  {
    if t.id != a.taskId then t
    else
      t.(estimatedTime := if a.estimatedTime.Some? then a.estimatedTime.value else t.estimatedTime,
         difficulty := if a.difficulty.Some? then a.difficulty.value else t.difficulty)
  }

  /** Every task with the adjustment's id adjusted. */
  function AdjustAll(tasks: seq<Task>, a: Adjustment): (r: seq<Task>)
    ensures |r| == |tasks|
  {
    seq(|tasks|, j requires 0 <= j < |tasks| => AdjustTask(tasks[j], a))
  }

  /** The adjustments applied in order. */
  function Adjusted(tasks: seq<Task>, adjustments: seq<Adjustment>): (r: seq<Task>)
    ensures |r| == |tasks|
  {
    if adjustments == [] then tasks
    else AdjustAll(Adjusted(tasks, adjustments[..|adjustments| - 1]), adjustments[|adjustments| - 1])
  }

  /** Adjustment `a` names the task `id` and sets its estimated time. */
  predicate SetsTime(a: Adjustment, id: string)
  {
    a.taskId == id && a.estimatedTime.Some?
  }

  /** Adjustment `a` names the task `id` and sets its difficulty. */
  predicate SetsDifficulty(a: Adjustment, id: string)
  {
    a.taskId == id && a.difficulty.Some?
  }

  /** Adjusting changes only the time and difficulty of tasks whose id an adjustment
      names. Each of those two fields is the value of the last adjustment for the task that
      sets it, and stays as it was when no adjustment for the task sets it. */
  lemma {:induction false} AdjustedEffect(tasks: seq<Task>, adjustments: seq<Adjustment>, j: nat)
    requires j < |tasks|
    ensures var t, r := tasks[j], Adjusted(tasks, adjustments)[j];
      r == t.(estimatedTime := r.estimatedTime, difficulty := r.difficulty)
      && ((forall k :: 0 <= k < |adjustments| ==> adjustments[k].taskId != t.id) ==> r == t)
    ensures var t, r := tasks[j], Adjusted(tasks, adjustments)[j];
      ((forall k :: 0 <= k < |adjustments| ==> !SetsTime(adjustments[k], t.id)) ==> r.estimatedTime == t.estimatedTime)
      && (forall k :: (0 <= k < |adjustments| && SetsTime(adjustments[k], t.id)
            && (forall m :: k < m < |adjustments| ==> !SetsTime(adjustments[m], t.id))) ==>
            r.estimatedTime == adjustments[k].estimatedTime.value)
    ensures var t, r := tasks[j], Adjusted(tasks, adjustments)[j];
      ((forall k :: 0 <= k < |adjustments| ==> !SetsDifficulty(adjustments[k], t.id)) ==> r.difficulty == t.difficulty)
      && (forall k :: (0 <= k < |adjustments| && SetsDifficulty(adjustments[k], t.id)
            && (forall m :: k < m < |adjustments| ==> !SetsDifficulty(adjustments[m], t.id))) ==>
            r.difficulty == adjustments[k].difficulty.value)
    decreases |adjustments|
  {
    if adjustments != [] {
      var init := adjustments[..|adjustments| - 1];
      AdjustedEffect(tasks, init, j);
      assert forall k :: 0 <= k < |init| ==> init[k] == adjustments[k];
    }
  }

  // ---------------------------------------------------------------------------------
  // Progress updates

  /** One entry of `task_updates`; a missing `task_id` matches no task. */
  datatype TaskUpdate = TaskUpdate(taskId: Option<string>, progress: Option<real>, status: Option<string>)

  function UpdateTask(t: Task, u: TaskUpdate): Task
  {
    if u.taskId != Some(t.id) then t
    else
      t.(progress := if u.progress.Some? then u.progress.value else 0.0,
         status := if u.status.Some? then u.status.value else "pending")
  }

  function UpdateAll(tasks: seq<Task>, u: TaskUpdate): (r: seq<Task>)
    ensures |r| == |tasks|
  {
    seq(|tasks|, j requires 0 <= j < |tasks| => UpdateTask(tasks[j], u))
  }

  function Tracked(tasks: seq<Task>, updates: seq<TaskUpdate>): (r: seq<Task>)
    ensures |r| == |tasks|
  {
    if updates == [] then tasks
    else UpdateAll(Tracked(tasks, updates[..|updates| - 1]), updates[|updates| - 1])
  }

  /** The task's progress and status after the updates come from the last update naming
      it (0 and `pending` where that update omits them); with no such update they are
      unchanged. Nothing else about a task changes. */
  lemma {:induction false} TrackedLastWins(tasks: seq<Task>, updates: seq<TaskUpdate>, j: nat)
    requires j < |tasks|
    ensures var t, r := tasks[j], Tracked(tasks, updates)[j];
      r == t.(progress := r.progress, status := r.status)
      && ((forall k :: 0 <= k < |updates| ==> updates[k].taskId != Some(t.id)) ==> r == t)
      && (forall k :: (0 <= k < |updates| && updates[k].taskId == Some(t.id)
            && (forall m :: k < m < |updates| ==> updates[m].taskId != Some(t.id))) ==>
            (r.status == (if updates[k].status.Some? then updates[k].status.value else "pending")
             && r.progress == (if updates[k].progress.Some? then updates[k].progress.value else 0.0)))
    decreases |updates|
  {
    if updates != [] {
      var init := updates[..|updates| - 1];
      TrackedLastWins(tasks, init, j);
      assert forall k :: 0 <= k < |init| ==> init[k] == updates[k];
    }
  }

  /** The tasks with the given status, in plan order. */
  function WithStatus(tasks: seq<Task>, status: string): (r: seq<Task>)
    ensures |r| <= |tasks|
  {
    if tasks == [] then []
    else WithStatus(tasks[..|tasks| - 1], status)
         + (if tasks[|tasks| - 1].status == status then [tasks[|tasks| - 1]] else [])
  }

  /** Every task has the status exactly when all of them are counted. */
  lemma {:induction false} WithStatusAll(tasks: seq<Task>, status: string)
    ensures |WithStatus(tasks, status)| == |tasks| <==> forall j :: 0 <= j < |tasks| ==> tasks[j].status == status
  {
    if tasks != [] {
      var init := tasks[..|tasks| - 1];
      WithStatusAll(init, status);
      assert forall j :: 0 <= j < |init| ==> init[j] == tasks[j];
    }
  }

  /** Tasks counted under three different statuses are different tasks. */
  lemma {:induction false} StatusCountsBounded(tasks: seq<Task>, a: string, b: string, c: string)
    requires a != b && b != c && a != c
    ensures |WithStatus(tasks, a)| + |WithStatus(tasks, b)| + |WithStatus(tasks, c)| <= |tasks|
  {
    if tasks != [] {
      StatusCountsBounded(tasks[..|tasks| - 1], a, b, c);
    }
  }

  /** The share of completed tasks; 0 for a plan without tasks. */
  function ProgressOf(tasks: seq<Task>): (r: real)
    ensures 0.0 <= r <= 1.0
    ensures tasks == [] ==> r == 0.0
  {
    if tasks == [] then 0.0
    else
      RatioOfCount(|WithStatus(tasks, "completed")|, |tasks|);
      |WithStatus(tasks, "completed")| as real / |tasks| as real
  }

  /** The overall progress reaches 1 exactly when there is a task and every task is
      completed. */
  lemma ProgressComplete(tasks: seq<Task>)
    ensures 0.0 <= ProgressOf(tasks) <= 1.0
    ensures ProgressOf(tasks) >= 1.0 <==> tasks != [] && forall j :: 0 <= j < |tasks| ==> tasks[j].status == "completed"
  {
    WithStatusAll(tasks, "completed");
    if tasks != [] {
      RatioOfCount(|WithStatus(tasks, "completed")|, |tasks|);
    }
  }

  /** A count out of a positive total gives a ratio in [0, 1], which is 1 only when the
      count is the total. */
  lemma RatioOfCount(c: nat, n: nat)
    requires 0 < n && c <= n
    ensures 0.0 <= c as real / n as real <= 1.0
    ensures c as real / n as real >= 1.0 <==> c == n
  {
    var q, m := c as real / n as real, n as real;
    assert q * m == c as real;
    assert (1.0 - q) * m == (n - c) as real;
    FactorSign(q, m);
    FactorSign(1.0 - q, m);
  }

  /** The sign of a product with a positive factor is the sign of the other factor. */
  lemma FactorSign(a: real, b: real)
    requires b > 0.0
    ensures a * b >= 0.0 ==> a >= 0.0
    ensures a * b > 0.0 ==> a > 0.0
  {
  }

  /** What track_progress returns. */
  datatype ProgressSummary = ProgressSummary(planId: string, progress: real, status: string, completedTasks: nat, totalTasks: nat)

  /** What generate_progress_report returns, without the time statistics. */
  datatype NextTask = NextTask(id: string, title: string, estimatedTime: int)

  datatype Report = Report(
    planId: string, overallProgress: real, status: string, totalPlannedTime: int,
    completed: nat, inProgress: nat, pending: nat, total: nat,
    completedTasks: seq<(string, string)>, nextTasks: seq<NextTask>)

  /** What the report shows of a next task. */
  function Brief(t: Task): NextTask
  {
    NextTask(t.id, t.title, t.estimatedTime)
  }

  /** `pending_tasks[:3]`, as the report shows them. */
  function NextTasks(tasks: seq<Task>): (r: seq<NextTask>)
    ensures |r| <= 3 && |r| <= |tasks|
  {
    var pending := WithStatus(tasks, "pending");
    var first := if |pending| <= 3 then pending else pending[..3];
    seq(|first|, i requires 0 <= i < |first| => Brief(first[i]))
  }

  lemma WithStatusSplit(tasks: seq<Task>, j: nat, status: string)
    requires j < |tasks| && tasks[j].status == status
    ensures |WithStatus(tasks, status)| > |WithStatus(tasks[..j], status)|
    ensures WithStatus(tasks, status)[|WithStatus(tasks[..j], status)|] == tasks[j]
    decreases |tasks|
  {
    var init := tasks[..|tasks| - 1];
    if j < |tasks| - 1 {
      assert init[..j] == tasks[..j];
      WithStatusSplit(init, j, status);
    } else {
      assert init == tasks[..j];
    }
  }

  /** The `i`-th task with a status is a task of the plan with that status, with exactly `i`
      such tasks before it. */
  lemma {:induction false} WithStatusIndex(tasks: seq<Task>, status: string, i: nat)
    requires i < |WithStatus(tasks, status)|
    ensures exists j ::
              (0 <= j < |tasks| && tasks[j] == WithStatus(tasks, status)[i]
               && tasks[j].status == status && |WithStatus(tasks[..j], status)| == i)
    decreases |tasks|
  {
    var n := |tasks| - 1;
    var init := tasks[..n];
    if i < |WithStatus(init, status)| {
      WithStatusIndex(init, status, i);
      var j :| 0 <= j < |init| && init[j] == WithStatus(init, status)[i]
        && init[j].status == status && |WithStatus(init[..j], status)| == i;
      assert init[..j] == tasks[..j] && tasks[j] == init[j];
    } else {
      assert tasks[..n] == init && tasks[n] == WithStatus(tasks, status)[i];
    }
  }

  /** A pending task is among the next tasks of the report exactly when fewer than three
      pending tasks come before it, and then it is shown at the position their number
      gives; there are as many next tasks as pending ones, but never more than three. */
  lemma NextTasksFirstPending(tasks: seq<Task>, j: nat)
    requires j < |tasks| && tasks[j].status == "pending"
    ensures var k := |WithStatus(tasks[..j], "pending")|;
      (k < |NextTasks(tasks)| <==> k < 3) && (k < 3 ==> NextTasks(tasks)[k] == Brief(tasks[j]))
    ensures var n := |WithStatus(tasks, "pending")|;
      |NextTasks(tasks)| == if n <= 3 then n else 3
  {
    WithStatusSplit(tasks, j, "pending");
  }

  /** Every next task shows a pending task, the `i`-th one in plan order. */
  lemma NextTasksArePending(tasks: seq<Task>, i: nat)
    requires i < |NextTasks(tasks)|
    ensures exists j ::
              (0 <= j < |tasks| && tasks[j].status == "pending"
               && |WithStatus(tasks[..j], "pending")| == i && NextTasks(tasks)[i] == Brief(tasks[j]))
  {
    WithStatusIndex(tasks, "pending", i);
  }

  class LearningPlan {
    var id: string
    var userId: string
    var title: string
    var description: string
    var startDate: int
    var endDate: int
    var tasks: seq<Task>
    var totalTime: int
    var progress: real
    var status: string

    constructor (id: string, userId: string, title: string, startDate: int, endDate: int,
                 tasks: seq<Task>, totalTime: int)
      ensures this.id == id && this.userId == userId && this.title == title
      ensures this.description == "自动生成的学习计划"
      ensures this.startDate == startDate && this.endDate == endDate
      ensures this.tasks == tasks && this.totalTime == totalTime
      ensures progress == 0.0 && status == "active"
    {
      this.id, this.userId, this.title := id, userId, title;
      this.description := "自动生成的学习计划";
      this.startDate, this.endDate := startDate, endDate;
      this.tasks, this.totalTime := tasks, totalTime;
      progress, status := 0.0, "active";
    }

    /** The inner loop of adjust_plan for one adjustment. */
    method AdjustTasks(a: Adjustment)
      modifies this
      ensures tasks == AdjustAll(old(tasks), a)
      ensures unchanged(this`id, this`userId, this`title, this`description, this`startDate, this`endDate)
      ensures unchanged(this`totalTime, this`progress, this`status)
    {
      ghost var before := tasks;
      for j := 0 to |tasks|
        invariant |tasks| == |before|
        invariant forall k :: 0 <= k < j ==> tasks[k] == AdjustTask(before[k], a)
        invariant forall k :: j <= k < |tasks| ==> tasks[k] == before[k]
        invariant unchanged(this`id, this`userId, this`title, this`description, this`startDate, this`endDate)
        invariant unchanged(this`totalTime, this`progress, this`status)
      {
        if tasks[j].id == a.taskId {
          tasks := tasks[j := AdjustTask(tasks[j], a)];
        }
      }
    }

    /** adjust_plan: the end date moved by `extend_days`, the adjustments applied in
        order, and the total time recomputed. `ok` is false where the model request
        fails or the new end date overflows, and then nothing changed. */
    method AdjustPlan(feedback: Feedback, requestFails: bool) returns (ok: bool)
      modifies this
      ensures !ok <==> requestFails || (feedback.extendDays.Some? && AddDays(old(endDate), feedback.extendDays.value).None?)
      ensures !ok ==> tasks == old(tasks) && endDate == old(endDate) && totalTime == old(totalTime)
      ensures ok ==> endDate == if feedback.extendDays.Some? then AddDays(old(endDate), feedback.extendDays.value).value else old(endDate)
      ensures ok ==> tasks == Adjusted(old(tasks), if feedback.adjustments.Some? then feedback.adjustments.value else [])
      ensures ok ==> totalTime == TotalTime(tasks)
      ensures unchanged(this`id, this`userId, this`title, this`description, this`startDate)
      ensures unchanged(this`progress, this`status)
    {
      if requestFails {
        return false;
      }
      if feedback.extendDays.Some? {
        var moved := AddDays(endDate, feedback.extendDays.value);
        if moved.None? {
          return false;
        }
        endDate := moved.value;
      }
      if feedback.adjustments.Some? {
        var adjustments := feedback.adjustments.value;
        ghost var before := tasks;
        for i := 0 to |adjustments|
          invariant tasks == Adjusted(before, adjustments[..i])
          invariant endDate == if feedback.extendDays.Some? then AddDays(old(endDate), feedback.extendDays.value).value else old(endDate)
          invariant unchanged(this`id, this`userId, this`title, this`description, this`startDate)
          invariant unchanged(this`progress, this`status)
        {
          assert adjustments[..i + 1][..i] == adjustments[..i];
          AdjustTasks(adjustments[i]);
        }
        assert adjustments[..|adjustments|] == adjustments;
      }
      totalTime := TotalTime(tasks);
      ok := true;
    }

    /** The inner loop of track_progress for one update. */
    method UpdateTasks(u: TaskUpdate)
      modifies this
      ensures tasks == UpdateAll(old(tasks), u)
      ensures unchanged(this`id, this`userId, this`title, this`description, this`startDate, this`endDate)
      ensures unchanged(this`totalTime, this`progress, this`status)
    {
      ghost var before := tasks;
      for j := 0 to |tasks|
        invariant |tasks| == |before|
        invariant forall k :: 0 <= k < j ==> tasks[k] == UpdateTask(before[k], u)
        invariant forall k :: j <= k < |tasks| ==> tasks[k] == before[k]
        invariant unchanged(this`id, this`userId, this`title, this`description, this`startDate, this`endDate)
        invariant unchanged(this`totalTime, this`progress, this`status)
      {
        if u.taskId == Some(tasks[j].id) {
          tasks := tasks[j := UpdateTask(tasks[j], u)];
        }
      }
    }

    /** track_progress: the updates applied in order, the progress recomputed, and the
        status set to completed once every task is. */
    method TrackProgress(updates: seq<TaskUpdate>) returns (summary: ProgressSummary)
      modifies this
      ensures tasks == Tracked(old(tasks), updates)
      ensures progress == ProgressOf(tasks)
      ensures status == if ProgressOf(tasks) >= 1.0 then "completed" else old(status)
      ensures summary == ProgressSummary(id, progress, status, |WithStatus(tasks, "completed")|, |tasks|)
      ensures unchanged(this`id, this`userId, this`title, this`description, this`startDate, this`endDate)
      ensures unchanged(this`totalTime)
    {
      ghost var before := tasks;
      for i := 0 to |updates|
        invariant tasks == Tracked(before, updates[..i])
        invariant unchanged(this`id, this`userId, this`title, this`description, this`startDate, this`endDate)
        invariant unchanged(this`totalTime, this`status)
      {
        assert updates[..i + 1][..i] == updates[..i];
        UpdateTasks(updates[i]);
      }
      assert updates[..|updates|] == updates;
      var completed := |WithStatus(tasks, "completed")|;
      progress := if tasks != [] then completed as real / |tasks| as real else 0.0;
      if progress >= 1.0 {
        status := "completed";
      }
      summary := ProgressSummary(id, progress, status, completed, |tasks|);
    }

    /** generate_progress_report without its time statistics. */
    function ProgressReport(): (r: Report)
      reads this
      ensures r.total == |tasks| && r.completed + r.inProgress + r.pending <= r.total
      ensures |r.nextTasks| <= 3 && |r.completedTasks| == r.completed
    {
      var completed := WithStatus(tasks, "completed");
      StatusCountsBounded(tasks, "completed", "in_progress", "pending");
      Report(id, progress, status, totalTime,
             |completed|, |WithStatus(tasks, "in_progress")|, |WithStatus(tasks, "pending")|, |tasks|,
             seq(|completed|, i requires 0 <= i < |completed| => (completed[i].id, completed[i].title)),
             NextTasks(tasks))
    }
  }

  /** A generated plan: None where the request fails or the end date overflows. */
  method GeneratePlan(userId: string, points: seq<string>, durationDays: int, level: int,
                      now: int, planId: string, requestFails: bool)
    returns (plan: Option<LearningPlan>)
    ensures plan.Some? <==> !requestFails && AddDays(now, durationDays).Some?
    ensures plan.Some? ==> (fresh(plan.value)
      && plan.value.id == planId && plan.value.userId == userId
      && plan.value.description == "自动生成的学习计划"
      && plan.value.startDate == now && plan.value.endDate == AddDays(now, durationDays).value
      && plan.value.progress == 0.0 && plan.value.status == "active"
      && plan.value.title == "学习计划 - " + JoinWith(points, ", ")
      && |plan.value.tasks| == |points|
      && (forall i :: 0 <= i < |points| ==> plan.value.tasks[i] == NewTask(i, points[i], level))
      && plan.value.totalTime == TotalTime(plan.value.tasks))
  {
    if requestFails {
      return None;
    }
    var endDate := AddDays(now, durationDays);
    if endDate.None? {
      return None;
    }
    var tasks, total := BuildTasks(points, level);
    var p := new LearningPlan(planId, userId, "学习计划 - " + JoinWith(points, ", "), now,
                              endDate.value, tasks, total);
    plan := Some(p);
  }
}

=== FILE: line_stream.dfy ===
/** Reading a streamed HTTP response line by line, as both model clients do: each line is
    skipped, yields one value, raises (which ends the call), or ends the stream. */
module LineStream {
  import opened Json

  datatype LineOutcome = Skip | Yield(value: Value) | Raise | Stop

  predicate Ends(o: LineOutcome)
  {
    o.Raise? || o.Stop?
  }

  /** Where a call stands after some lines: the values yielded so far, and whether a line
      raised or ended the stream. */
  datatype Progress = Progress(yielded: seq<Value>, raised: bool, stopped: bool)

  function Step(p: Progress, o: LineOutcome): Progress
  {
    if p.raised || p.stopped then p
    else match o
      case Skip => p
      case Yield(v) => p.(yielded := p.yielded + [v])
      case Raise => p.(raised := true)
      case Stop => p.(stopped := true)
  }

  /** The lines' outcomes taken one after the other, as the client's loop does. */
  function Consume(outcomes: seq<LineOutcome>): Progress
  {
    if outcomes == [] then Progress([], false, false)
    else Step(Consume(outcomes[..|outcomes| - 1]), outcomes[|outcomes| - 1])
  }

  lemma ConsumeSnoc(outcomes: seq<LineOutcome>, i: nat)
    requires i < |outcomes|
    ensures Consume(outcomes[..i + 1]) == Step(Consume(outcomes[..i]), outcomes[i])
  {
    assert outcomes[..i + 1][..i] == outcomes[..i];
  }

  /** Once a line has raised or ended the stream, the remaining lines change nothing. */
  lemma {:induction false} ConsumeSettled(outcomes: seq<LineOutcome>, i: nat)
    requires i <= |outcomes|
    requires Consume(outcomes[..i]).raised || Consume(outcomes[..i]).stopped
    ensures Consume(outcomes) == Consume(outcomes[..i])
    decreases |outcomes| - i
  {
    if i < |outcomes| {
      ConsumeSnoc(outcomes, i);
      ConsumeSettled(outcomes, i + 1);
    } else {
      assert outcomes[..i] == outcomes;
    }
  }

  // ---------------------------------------------------------------------------------
  // The same result, stated front to back

  /** The number of lines before the first one that raises or ends the stream. */
  function Prefix(outcomes: seq<LineOutcome>): (r: nat)
    ensures r <= |outcomes|
    ensures r < |outcomes| ==> Ends(outcomes[r])
  {
    if outcomes == [] || Ends(outcomes[0]) then 0 else 1 + Prefix(outcomes[1..])
  }

  /** The values the `Yield` outcomes carry, in order. */
  function Values(outcomes: seq<LineOutcome>): seq<Value>
  {
    if outcomes == [] then []
    else (if outcomes[0].Yield? then [outcomes[0].value] else []) + Values(outcomes[1..])
  }

  lemma {:induction false} ValuesSnoc(a: seq<LineOutcome>, o: LineOutcome)
    ensures Values(a + [o]) == Values(a) + (if o.Yield? then [o.value] else [])
  {
    if a != [] {
      assert (a + [o])[1..] == a[1..] + [o];
      ValuesSnoc(a[1..], o);
    }
  }

  /** Every value comes from a `Yield` line. */
  lemma {:induction false} ValuesIn(outcomes: seq<LineOutcome>, v: Value)
    requires v in Values(outcomes)
    ensures exists j :: 0 <= j < |outcomes| && outcomes[j] == Yield(v)
  {
    if outcomes[0] != Yield(v) {
      ValuesIn(outcomes[1..], v);
      var j :| 0 <= j < |outcomes[1..]| && outcomes[1..][j] == Yield(v);
      assert outcomes[j + 1] == Yield(v);
    }
  }

  lemma {:induction false} PrefixSnoc(a: seq<LineOutcome>, o: LineOutcome)
    ensures Prefix(a) < |a| ==> Prefix(a + [o]) == Prefix(a)
    ensures Prefix(a) == |a| ==> Prefix(a + [o]) == if Ends(o) then |a| else |a| + 1
  {
    if a != [] {
      assert (a + [o])[1..] == a[1..] + [o];
      PrefixSnoc(a[1..], o);
    }
  }

  lemma {:induction false} PrefixAt(outcomes: seq<LineOutcome>, i: nat)
    requires i < Prefix(outcomes)
    ensures !Ends(outcomes[i])
  {
    if i > 0 {
      PrefixAt(outcomes[1..], i - 1);
    }
  }

  /** The loop yields exactly the values of the lines before the first line that raises
      or ends the stream, and it raised (or stopped) exactly when that line raises (or
      ends the stream). */
  lemma {:induction false} ConsumeReference(outcomes: seq<LineOutcome>)
    ensures Consume(outcomes).yielded == Values(outcomes[..Prefix(outcomes)])
    ensures Consume(outcomes).raised <==> Prefix(outcomes) < |outcomes| && outcomes[Prefix(outcomes)].Raise?
    ensures Consume(outcomes).stopped <==> Prefix(outcomes) < |outcomes| && outcomes[Prefix(outcomes)].Stop?
    ensures forall i :: 0 <= i < Prefix(outcomes) ==> !Ends(outcomes[i])
  {
    forall i | 0 <= i < Prefix(outcomes)
      ensures !Ends(outcomes[i])
    {
      PrefixAt(outcomes, i);
    }
    if outcomes != [] {
      var init, o := outcomes[..|outcomes| - 1], outcomes[|outcomes| - 1];
      assert outcomes == init + [o];
      assert Consume(outcomes) == Step(Consume(init), o);
      ConsumeReference(init);
      PrefixSnoc(init, o);
      var k := Prefix(init);
      if k == |init| {
        assert outcomes[..k] == init[..k];
        if !Ends(o) {
          assert outcomes[..k + 1] == init[..k] + [o];
          ValuesSnoc(init[..k], o);
        }
      } else {
        assert outcomes[..k] == init[..k];
        assert outcomes[k] == init[k];
      }
    }
  }

  lemma {:induction false} PrefixAll(outcomes: seq<LineOutcome>)
    requires forall i :: 0 <= i < |outcomes| ==> !Ends(outcomes[i])
    ensures Prefix(outcomes) == |outcomes|
  {
    if outcomes != [] {
      assert !Ends(outcomes[0]);
      forall i | 0 <= i < |outcomes[1..]|
        ensures !Ends(outcomes[1..][i])
      {
        assert outcomes[1..][i] == outcomes[i + 1];
      }
      PrefixAll(outcomes[1..]);
    }
  }

  /** A stream in which no line raises or ends it yields the values of all its lines. */
  lemma NoEndYieldsAll(outcomes: seq<LineOutcome>)
    requires forall i :: 0 <= i < |outcomes| ==> !Ends(outcomes[i])
    ensures Consume(outcomes) == Progress(Values(outcomes), false, false)
  {
    PrefixAll(outcomes);
    ConsumeReference(outcomes);
    assert outcomes[..|outcomes|] == outcomes;
  }
}

=== FILE: ollama.dfy ===
/** The streaming loop of the Ollama client (`OllamaLLM._call`): the response of
    /api/generate is read line by line; each line is a JSON object whose `response` text is
    passed on, and an `error` key aborts the call. The HTTP exchange itself is a parameter:
    the status code and the body's lines; `json.loads` is the parameter `loads` (None where
    it raises JSONDecodeError). */
module OllamaClient {
  import opened Text
  import opened Json
  import opened LineStream

  /** What one line of the body does to the call. */
  function OllamaLine(loads: string -> Option<Value>, text: string): (r: LineOutcome)
    ensures !r.Stop?
    ensures text == "" || loads(text).None? ==> r == Skip
    ensures text != "" && loads(text).Some? && loads(text).value.Obj? ==>
      var f := loads(text).value.fields;
      r == if "error" in f then Raise
           else if "response" in f && f["response"] != Str("") then Yield(f["response"])
           else Skip
    ensures r.Yield? ==> text != "" && loads(text).Some? && loads(text).value.Obj?
    ensures text != "" && loads(text).Some? && (loads(text).value.Null? || loads(text).value.Bool? || loads(text).value.Num? || loads(text).value.Float?) ==> r == Raise
  {
    if text == "" then Skip
    else match loads(text)
      case None => Skip
      case Some(data) =>
        match In(data, "error")
        case None => Raise
        case Some(true) => Raise
        case Some(false) =>
          if In(data, "response") != Some(true) then Skip
          else match Index(data, "response")
            case None => Raise
            case Some(v) => if v == Str("") then Skip else Yield(v)
  }

  function OllamaOutcomes(loads: string -> Option<Value>, lines: seq<string>): (r: seq<LineOutcome>)
    ensures |r| == |lines|
  {
    seq(|lines|, i requires 0 <= i < |lines| => OllamaLine(loads, lines[i]))
  }

  /** The call: a status other than 200 raises before any line is read; otherwise every
      line is handled in order until one raises. */
  method Generate(status: int, lines: seq<string>, loads: string -> Option<Value>)
    returns (yielded: seq<Value>, raised: bool)
    ensures status != 200 ==> yielded == [] && raised
    ensures status == 200 ==> Progress(yielded, raised, false) == Consume(OllamaOutcomes(loads, lines))
  {
    if status != 200 {
      return [], true;
    }
    ghost var outcomes := OllamaOutcomes(loads, lines);
    yielded, raised := [], false;
    var i := 0;
    while i < |lines| && !raised
      invariant 0 <= i <= |lines|
      invariant Progress(yielded, raised, false) == Consume(outcomes[..i])
    {
      ConsumeSnoc(outcomes, i);
      var text := lines[i];
      if text != "" {
        match loads(text)
        case None =>
        case Some(data) =>
          match In(data, "error")
          case None =>
            raised := true;
          case Some(true) =>
            raised := true;
          case Some(false) =>
            if In(data, "response") == Some(true) {
              match Index(data, "response")
              case None =>
                raised := true;
              case Some(v) =>
                if v != Str("") {
                  yielded := yielded + [v];
                }
            }
      }
      i := i + 1;
    }
    if raised {
      ConsumeSettled(outcomes, i);
    } else {
      assert outcomes[..i] == outcomes;
    }
  }

  /** A successful call yields exactly the non-empty `response` values of the lines before
      the first line that raises, in order, and it raises exactly when some line does. */
  lemma GenerateReference(loads: string -> Option<Value>, lines: seq<string>)
    ensures var os := OllamaOutcomes(loads, lines);
      Consume(os).yielded == Values(os[..Prefix(os)])
      && (Consume(os).raised <==> exists i :: 0 <= i < |lines| && OllamaLine(loads, lines[i]) == Raise)
  {
    var os := OllamaOutcomes(loads, lines);
    ConsumeReference(os);
    if exists i :: 0 <= i < |lines| && OllamaLine(loads, lines[i]) == Raise {
      var i :| 0 <= i < |lines| && OllamaLine(loads, lines[i]) == Raise;
      assert os[i] == Raise;
    }
    if Consume(os).raised {
      assert os[Prefix(os)] == OllamaLine(loads, lines[Prefix(os)]);
    }
  }

  /** Every value a call yields is the non-empty `response` of an error-free JSON object
      line. */
  lemma YieldedResponses(loads: string -> Option<Value>, lines: seq<string>, v: Value)
    requires v in Consume(OllamaOutcomes(loads, lines)).yielded
    ensures v != Str("")
    ensures exists i :: (0 <= i < |lines| && lines[i] != "" && loads(lines[i]).Some?
      && loads(lines[i]).value.Obj? && "error" !in loads(lines[i]).value.fields
      && "response" in loads(lines[i]).value.fields && loads(lines[i]).value.fields["response"] == v)
  {
    var os := OllamaOutcomes(loads, lines);
    ConsumeReference(os);
    var k := Prefix(os);
    ValuesIn(os[..k], v);
    var j :| 0 <= j < k && os[..k][j] == Yield(v);
    assert os[j] == OllamaLine(loads, lines[j]);
  }
}

=== FILE: outline.dfy ===
/** The chapter and section outline parsers of the tutorial pipeline: line-oriented state
    machines over the accumulated model output. A `# ` heading (`## ` for sections) flushes
    the open entity before the new heading is validated, a `<...>` line sets the open
    entity's description, and the open entity is flushed at end of input. */
module Outline {
  import opened Text

  datatype Section = Section(number: string, title: string, description: string, content: string)

  datatype Chapter = Chapter(number: int, title: string, description: string, sections: seq<Section>)

  /** content.split('\n') */
  function Lines(content: string): (r: seq<string>)
    ensures |r| >= 1
  {
    SplitOn(content, "\n")
  }

  /** The inner text of a `<...>` description line, if the (stripped) line is one. */
  function DescriptionOf(line: string): Option<string>
  {
    if StartsWith(line, "<") && EndsWith(line, ">") then
      assert line[..1][0] == '<' && line[|line| - 1..][0] == '>';
      Some(Strip(line[1..|line| - 1]))
    else None
  }

  // ---------------------------------------------------------------------------------
  // Chapter outline: `# 第N章 title`

  /** The number and title a chapter heading opens, from the text after `# ` (stripped):
      it must start with 第 and contain 章; N is int() of the stripped text between 第 and
      the first 章, and the title keeps N's text as written. */
  function ChapterHeading(rest: string): Option<(int, string)>
  {
    if StartsWith(rest, "第") && '章' in rest then
      var k := IndexOf(rest, '章').value;
      var part := Strip(rest[1..k]);
      var titlePart := Strip(SplitOn(Strip(rest[k + 1..]), "\n")[0]);
      match ParseInt(part)
      case None => None
      case Some(n) => Some((n, "第" + part + "章 " + titlePart))
    else None
  }

  /** The parser's variables: the chapters flushed so far, current_title, current_desc
      and chapter_number. */
  datatype ChapterState = ChapterState(chapters: seq<Chapter>, title: string, desc: string, number: int)

  const ChapterStart := ChapterState([], "", "", 0)

  /** The chapter list after a `# ` line: the open chapter, if any, is appended. */
  function FlushChapter(st: ChapterState): seq<Chapter>
  {
    if st.title != "" then st.chapters + [Chapter(st.number, st.title, Strip(st.desc), [])]
    else st.chapters
  }

  /** One iteration of the chapter parser's line loop. */
  function ChapterStep(st: ChapterState, raw: string): (r: ChapterState)
    ensures st.chapters <= r.chapters && |r.chapters| <= |st.chapters| + 1
    ensures |r.chapters| > |st.chapters| ==>
      st.title != "" && r.chapters[|st.chapters|] == Chapter(st.number, st.title, Strip(st.desc), [])
  {
    var line := Strip(raw);
    if line == "" then st
    else if StartsWith(line, "# ") then
      var flushed := FlushChapter(st);
      match ChapterHeading(Strip(line[2..]))
      case Some((n, t)) => ChapterState(flushed, t, "", n)
      case None => st.(chapters := flushed)
    else if st.title != "" && !StartsWith(line, "#") then
      match DescriptionOf(line)
      case Some(d) => st.(desc := d)
      case None => st
    else st
  }

  /** Every flushed chapter has a title and, as yet, no sections. */
  predicate Titled(chapters: seq<Chapter>)
  {
    forall i :: 0 <= i < |chapters| ==> chapters[i].title != "" && chapters[i].sections == []
  }

  /** A list extended by at most one chapter, itself titled and without sections, stays
      titled. */
  lemma TitledGrown(before: seq<Chapter>, after: seq<Chapter>)
    requires Titled(before) && before <= after && |after| <= |before| + 1
    requires |after| > |before| ==> after[|before|].title != "" && after[|before|].sections == []
    ensures Titled(after)
  {
    if |after| == |before| {
      assert after == before;
    } else {
      assert after == before + [after[|before|]];
    }
  }

  lemma ChapterStepTitled(st: ChapterState, raw: string)
    requires Titled(st.chapters)
    ensures Titled(ChapterStep(st, raw).chapters)
  {
    TitledGrown(st.chapters, ChapterStep(st, raw).chapters);
  }

  function ScanChapters(lines: seq<string>): (r: ChapterState)
    ensures Titled(r.chapters)
  {
    if lines == [] then ChapterStart
    else
      var prev := ScanChapters(lines[..|lines| - 1]);
      ChapterStepTitled(prev, lines[|lines| - 1]);
      ChapterStep(prev, lines[|lines| - 1])
  }

  lemma ScanChaptersSnoc(lines: seq<string>, i: nat)
    requires i < |lines|
    ensures ScanChapters(lines[..i + 1]) == ChapterStep(ScanChapters(lines[..i]), lines[i])
  {
    assert lines[..i + 1][..i] == lines[..i];
  }

  function FinishChapters(st: ChapterState): seq<Chapter>
  {
    if st.title != "" then st.chapters + [Chapter(st.number, st.title, st.desc, [])] else st.chapters
  }

  /** The chapters the outline parser of the chapter stage reads from `content`. */
  function ParseChapters(content: string): (r: seq<Chapter>)
    ensures Titled(r)
  {
    FinishChapters(ScanChapters(Lines(content)))
  }

  /** One pass of the chapter loop body over one raw line. */
  method ChapterLine(chapters0: seq<Chapter>, title0: string, desc0: string, number0: int, raw: string)
    returns (chapters: seq<Chapter>, currentTitle: string, currentDesc: string, chapterNumber: int)
    ensures ChapterState(chapters, currentTitle, currentDesc, chapterNumber)
      == ChapterStep(ChapterState(chapters0, title0, desc0, number0), raw)
  {
    chapters, currentTitle, currentDesc, chapterNumber := chapters0, title0, desc0, number0;
    var line := Strip(raw);
    if line != "" {
      if StartsWith(line, "# ") {
        if currentTitle != "" {
          chapters := chapters + [Chapter(chapterNumber, currentTitle, Strip(currentDesc), [])];
        }
        var heading := ChapterHeading(Strip(line[2..]));
        if heading.Some? {
          chapterNumber := heading.value.0;
          currentTitle := heading.value.1;
          currentDesc := "";
        }
      } else if currentTitle != "" && !StartsWith(line, "#") {
        if StartsWith(line, "<") && EndsWith(line, ">") {
          assert line[..1][0] == '<' && line[|line| - 1..][0] == '>';
          currentDesc := Strip(line[1..|line| - 1]);
        }
      }
    }
  }

  /** The chapter parser's line loop: updates current_title, current_desc and
      chapter_number line by line and appends each chapter it closes. */
  method ScanChapterLines(lines: seq<string>)
    returns (chapters: seq<Chapter>, currentTitle: string, currentDesc: string, chapterNumber: int)
    ensures ChapterState(chapters, currentTitle, currentDesc, chapterNumber) == ScanChapters(lines)
  {
    assert lines[..0] == [];
    currentTitle, currentDesc, chapterNumber := "", "", 0;
    chapters := [];
    var i := 0;
    while i < |lines|
      invariant 0 <= i <= |lines|
      invariant ScanChapters(lines[..i]) == ChapterState(chapters, currentTitle, currentDesc, chapterNumber)
    {
      ScanChaptersSnoc(lines, i);
      chapters, currentTitle, currentDesc, chapterNumber := ChapterLine(chapters, currentTitle, currentDesc, chapterNumber, lines[i]);
      i := i + 1;
    }
    assert lines[..i] == lines;
  }

  /** The chapter parser as the source runs it: split the accumulated text into lines,
      run the line loop, then append the chapter still open at the end. */
  method ParseChapterOutline(content: string) returns (chapters: seq<Chapter>)
    ensures chapters == ParseChapters(content)
  {
    var currentTitle, currentDesc, chapterNumber;
    chapters, currentTitle, currentDesc, chapterNumber := ScanChapterLines(Lines(content));
    if currentTitle != "" {
      chapters := chapters + [Chapter(chapterNumber, currentTitle, currentDesc, [])];
    }
  }

  // ---------------------------------------------------------------------------------
  // Section outline: `## C.S title`

  /** The number and title a section heading opens, from the text after `## ` (stripped):
      it must split at its first space into two parts, the first containing `.`, and the
      text before the first `.` must equal str(chapterNumber). */
  function SectionHeading(rest: string, chapterNumber: int): (r: Option<(string, string)>)
  {
    var parts := SplitOnceAtSpace(rest);
    if |parts| != 2 then None
    else if '.' !in parts[0] then None
    else if Before(parts[0], '.') != IntToString(chapterNumber) then None
    else Some((parts[0], parts[1]))
  }

  /** current_title, current_desc and current_number, with the sections flushed so far. */
  datatype SectionState = SectionState(sections: seq<Section>, title: string, desc: string, number: string)

  const SectionStart := SectionState([], "", "", "")

  predicate SectionOpen(st: SectionState) {
    st.title != "" && st.number != ""
  }

  function FlushSection(st: SectionState): seq<Section>
  {
    if SectionOpen(st) then st.sections + [Section(st.number, st.title, Strip(st.desc), "")]
    else st.sections
  }

  /** One iteration of the section parser's line loop. A `## ` line flushes first and
      validates afterwards, so a rejected heading leaves the old section open. */
  function SectionStep(st: SectionState, raw: string, chapterNumber: int): (r: SectionState)
    ensures st.sections <= r.sections && |r.sections| <= |st.sections| + 1
    ensures |r.sections| > |st.sections| ==>
      SectionOpen(st) && r.sections[|st.sections|] == Section(st.number, st.title, Strip(st.desc), "")
  {
    var line := Strip(raw);
    if line == "" then st
    else if StartsWith(line, "## ") then
      var flushed := FlushSection(st);
      match SectionHeading(Strip(line[3..]), chapterNumber)
      case Some((num, t)) => SectionState(flushed, t, "", num)
      case None => st.(sections := flushed)
    else if st.title != "" && !StartsWith(line, "#") then
      match DescriptionOf(line)
      case Some(d) => st.(desc := d)
      case None => st
    else st
  }

  /** Every flushed section has a number and a title and, as yet, no content. */
  predicate Named(sections: seq<Section>)
  {
    forall i :: 0 <= i < |sections| ==>
      sections[i].title != "" && sections[i].number != "" && sections[i].content == ""
  }

  /** A list extended by at most one section, itself named, stays named. */
  lemma NamedGrown(before: seq<Section>, after: seq<Section>)
    requires Named(before) && before <= after && |after| <= |before| + 1
    requires |after| > |before| ==>
      after[|before|].title != "" && after[|before|].number != "" && after[|before|].content == ""
    ensures Named(after)
  {
    if |after| == |before| {
      assert after == before;
    } else {
      assert after == before + [after[|before|]];
    }
  }

  lemma SectionStepNamed(st: SectionState, raw: string, chapterNumber: int)
    requires Named(st.sections)
    ensures Named(SectionStep(st, raw, chapterNumber).sections)
  {
    NamedGrown(st.sections, SectionStep(st, raw, chapterNumber).sections);
  }

  function ScanSections(lines: seq<string>, chapterNumber: int): (r: SectionState)
    ensures Named(r.sections)
  {
    if lines == [] then SectionStart
    else
      var prev := ScanSections(lines[..|lines| - 1], chapterNumber);
      SectionStepNamed(prev, lines[|lines| - 1], chapterNumber);
      SectionStep(prev, lines[|lines| - 1], chapterNumber)
  }

  lemma ScanSectionsSnoc(lines: seq<string>, i: nat, chapterNumber: int)
    requires i < |lines|
    ensures ScanSections(lines[..i + 1], chapterNumber) == SectionStep(ScanSections(lines[..i], chapterNumber), lines[i], chapterNumber)
  {
    assert lines[..i + 1][..i] == lines[..i];
  }

  function FinishSections(st: SectionState): seq<Section>
  {
    if SectionOpen(st) then st.sections + [Section(st.number, st.title, st.desc, "")] else st.sections
  }

  /** The sections the outline parser of the section stage reads from `content` for the
      chapter numbered `chapterNumber`. */
  function ParseSections(content: string, chapterNumber: int): (r: seq<Section>)
    ensures Named(r)
  {
    FinishSections(ScanSections(Lines(content), chapterNumber))
  }

  /** One pass of the section loop body over one raw line. */
  method SectionLine(sections0: seq<Section>, title0: string, desc0: string, number0: string, raw: string, chapterNumber: int)
    returns (sections: seq<Section>, currentTitle: string, currentDesc: string, currentNumber: string)
    ensures SectionState(sections, currentTitle, currentDesc, currentNumber)
      == SectionStep(SectionState(sections0, title0, desc0, number0), raw, chapterNumber)
  {
    sections, currentTitle, currentDesc, currentNumber := sections0, title0, desc0, number0;
    var line := Strip(raw);
    if line != "" {
      if StartsWith(line, "## ") {
        if SectionOpen(SectionState(sections, currentTitle, currentDesc, currentNumber)) {
          sections := sections + [Section(currentNumber, currentTitle, Strip(currentDesc), "")];
        }
        var heading := SectionHeading(Strip(line[3..]), chapterNumber);
        if heading.Some? {
          currentNumber := heading.value.0;
          currentTitle := heading.value.1;
          currentDesc := "";
        }
      } else if currentTitle != "" && !StartsWith(line, "#") {
        if StartsWith(line, "<") && EndsWith(line, ">") {
          assert line[..1][0] == '<' && line[|line| - 1..][0] == '>';
          currentDesc := Strip(line[1..|line| - 1]);
        }
      }
    }
  }

  /** The section parser's line loop. */
  method ScanSectionLines(lines: seq<string>, chapterNumber: int)
    returns (sections: seq<Section>, currentTitle: string, currentDesc: string, currentNumber: string)
    ensures SectionState(sections, currentTitle, currentDesc, currentNumber) == ScanSections(lines, chapterNumber)
  {
    assert lines[..0] == [];
    currentTitle, currentDesc, currentNumber := "", "", "";
    sections := [];
    var i := 0;
    while i < |lines|
      invariant 0 <= i <= |lines|
      invariant ScanSections(lines[..i], chapterNumber) == SectionState(sections, currentTitle, currentDesc, currentNumber)
    {
      ScanSectionsSnoc(lines, i, chapterNumber);
      sections, currentTitle, currentDesc, currentNumber := SectionLine(sections, currentTitle, currentDesc, currentNumber, lines[i], chapterNumber);
      i := i + 1;
    }
    assert lines[..i] == lines;
  }

  /** The section parser as the source runs it. */
  method ParseSectionOutline(content: string, chapterNumber: int) returns (sections: seq<Section>)
    ensures sections == ParseSections(content, chapterNumber)
  {
    var currentTitle, currentDesc, currentNumber;
    sections, currentTitle, currentDesc, currentNumber := ScanSectionLines(Lines(content), chapterNumber);
    if SectionOpen(SectionState(sections, currentTitle, currentDesc, currentNumber)) {
      sections := sections + [Section(currentNumber, currentTitle, currentDesc, "")];
    }
  }
}

=== FILE: outline_facts.dfy ===
/** Properties of the outline parsers: what an accepted heading looks like, how many
    entities a text can yield, when the result is empty, the round trip through the text
    format the outline prompts ask the model for, and the duplicate an invalid heading
    causes. */
module OutlineFacts {
  import opened Text
  import opened Outline

  // ---------------------------------------------------------------------------------
  // The outline text format

  /** A fragment the format carries unchanged: no line break and no white space at
      either end. */
  predicate Clean(t: string) {
    t != [] && !IsSpace(t[0]) && !IsSpace(t[|t| - 1]) && '\n' !in t
  }

  predicate CleanDesc(d: string) {
    d == [] || Clean(d)
  }

  /** A chapter the main outline names: its number, the title text after `章`, and its
      description. */
  datatype ChapterEntry = ChapterEntry(number: int, name: string, desc: string)

  predicate CleanChapter(e: ChapterEntry) {
    Clean(e.name) && CleanDesc(e.desc)
  }

  function ChapterTitle(n: int, name: string): string {
    "第" + IntToString(n) + "章 " + name
  }

  function ChapterOf(e: ChapterEntry): Chapter {
    Chapter(e.number, ChapterTitle(e.number, e.name), e.desc, [])
  }

  function ChaptersOf(es: seq<ChapterEntry>): (r: seq<Chapter>)
    ensures |r| == |es|
  {
    if es == [] then [] else ChaptersOf(es[..|es| - 1]) + [ChapterOf(es[|es| - 1])]
  }

  function ChapterHeadingLine(e: ChapterEntry): string {
    "# " + ChapterTitle(e.number, e.name)
  }

  function DescLine(d: string): string {
    "<" + d + ">"
  }

  /** The lines of a main outline: a heading and a description line per chapter. */
  function ChapterOutlineLines(es: seq<ChapterEntry>): (r: seq<string>)
    ensures |r| == 2 * |es|
  {
    if es == [] then []
    else ChapterOutlineLines(es[..|es| - 1]) + [ChapterHeadingLine(es[|es| - 1]), DescLine(es[|es| - 1].desc)]
  }

  function ChapterOutlineText(es: seq<ChapterEntry>): string {
    JoinWith(ChapterOutlineLines(es), "\n")
  }

  // ---------------------------------------------------------------------------------
  // One line at a time

  lemma ChapterTitleShape(n: int, name: string)
    requires Clean(name)
    ensures var t := ChapterTitle(n, name);
      t != [] && !IsSpace(t[0]) && !IsSpace(t[|t| - 1]) && '\n' !in t
  {
    IntToStringAvoids(n, '\n');
  }

  /** Where the pieces of a chapter title sit: `第`, the number's text, the first `章`,
      then a space and the name. */
  lemma ChapterTitleParts(n: int, name: string)
    ensures var d, rest := IntToString(n), ChapterTitle(n, name);
      StartsWith(rest, "第") && IndexOf(rest, '章') == Some(1 + |d|)
      && rest[1..1 + |d|] == d && rest[2 + |d|..] == " " + name
  {
    var d := IntToString(n);
    var rest := ChapterTitle(n, name);
    IntToStringAvoids(n, '章');
    assert rest == ("第" + d) + ['章'] + (" " + name);
    IndexOfAfter("第" + d, '章', " " + name);
    assert rest[..1] == "第";
  }

  /** A heading written by ChapterTitle is accepted with its own number and title. */
  lemma ChapterHeadingOf(n: int, name: string)
    requires Clean(name)
    ensures ChapterHeading(ChapterTitle(n, name)) == Some((n, ChapterTitle(n, name)))
  {
    var d := IntToString(n);
    ChapterTitleParts(n, name);
    IntToStringAvoids(n, '章');
    StripKeeps(d);
    StripLeadingSpace(name);
    SplitOnAbsent(name, '\n');
    StripKeeps(name);
    IntToStringRoundTrip(n);
  }

  lemma ChapterHeadingStep(st: ChapterState, e: ChapterEntry)
    requires Clean(e.name)
    ensures ChapterStep(st, ChapterHeadingLine(e))
      == ChapterState(FlushChapter(st), ChapterTitle(e.number, e.name), "", e.number)
  {
    var t := ChapterTitle(e.number, e.name);
    var line := ChapterHeadingLine(e);
    ChapterTitleShape(e.number, e.name);
    StripKeeps(line);
    assert line[..2] == "# " && line[2..] == t;
    StripKeeps(t);
    ChapterHeadingOf(e.number, e.name);
  }

  lemma StripClean(d: string)
    requires CleanDesc(d)
    ensures Strip(d) == d
  {
    if d != [] {
      StripKeeps(d);
    }
  }

  lemma ChapterDescStep(st: ChapterState, d: string)
    requires st.title != "" && CleanDesc(d)
    ensures ChapterStep(st, DescLine(d)) == st.(desc := d)
  {
    var line := DescLine(d);
    assert line[0] == '<' && line[|line| - 1] == '>';
    StripKeeps(line);
    assert line[..1] == "<" && line[|line| - 1..] == ">";
    assert line[..1] != "#" && line[..2] != "# ";
    assert line[1..|line| - 1] == d;
    StripClean(d);
    assert DescriptionOf(line) == Some(d);
  }

  // ---------------------------------------------------------------------------------
  // The round trip for chapters

  /** Two more lines of input advance the scan by two steps. */
  lemma ScanChaptersTwo(pre: seq<string>, a: string, b: string)
    ensures ScanChapters(pre + [a, b]) == ChapterStep(ChapterStep(ScanChapters(pre), a), b)
  {
    var lines := pre + [a, b];
    var mid := pre + [a];
    assert lines[..|pre|] == pre && lines[|pre|] == a;
    assert lines[..|pre| + 1] == mid && lines[|pre| + 1] == b;
    assert lines[..|pre| + 2] == lines;
    ScanChaptersSnoc(lines, |pre|);
    ScanChaptersSnoc(lines, |pre| + 1);
  }

  lemma {:induction false} ScanChapterOutline(es: seq<ChapterEntry>)
    requires es != []
    requires forall i :: 0 <= i < |es| ==> CleanChapter(es[i])
    ensures var e := es[|es| - 1];
      ScanChapters(ChapterOutlineLines(es))
        == ChapterState(ChaptersOf(es[..|es| - 1]), ChapterTitle(e.number, e.name), e.desc, e.number)
  {
    var init, e := es[..|es| - 1], es[|es| - 1];
    var pre := ChapterOutlineLines(init);
    ScanChaptersTwo(pre, ChapterHeadingLine(e), DescLine(e.desc));
    var st := ScanChapters(pre);
    if init != [] {
      ScanChapterOutline(init);
      StripClean(init[|init| - 1].desc);
    }
    ChapterHeadingStep(st, e);
    ChapterDescStep(ChapterState(FlushChapter(st), ChapterTitle(e.number, e.name), "", e.number), e.desc);
  }

  lemma {:induction false} ChapterOutlineLinesOneLine(es: seq<ChapterEntry>)
    requires forall i :: 0 <= i < |es| ==> CleanChapter(es[i])
    ensures forall i :: 0 <= i < |ChapterOutlineLines(es)| ==> '\n' !in ChapterOutlineLines(es)[i]
  {
    if es != [] {
      var init, e := es[..|es| - 1], es[|es| - 1];
      ChapterOutlineLinesOneLine(init);
      ChapterTitleShape(e.number, e.name);
    }
  }

  /** The chapter parser reads back every chapter of a main outline written in the format
      the prompt asks for, in order, with its number, title and description. */
  lemma ChapterOutlineRoundTrip(es: seq<ChapterEntry>)
    requires forall i :: 0 <= i < |es| ==> CleanChapter(es[i])
    ensures ParseChapters(ChapterOutlineText(es)) == ChaptersOf(es)
  {
    if es == [] {
      assert Lines("") == [""];
      assert ScanChapters([""]) == ChapterStep(ScanChapters([]), "");
    } else {
      ChapterOutlineLinesOneLine(es);
      SplitJoin(ChapterOutlineLines(es), '\n');
      ScanChapterOutline(es);
    }
  }

  // ---------------------------------------------------------------------------------
  // The round trip for sections

  /** A section of a chapter outline: the number's text after `N.`, the title and the
      description. */
  datatype SectionEntry = SectionEntry(suffix: string, title: string, desc: string)

  predicate CleanSection(e: SectionEntry) {
    ' ' !in e.suffix && '\n' !in e.suffix && Clean(e.title) && CleanDesc(e.desc)
  }

  function SectionNumber(n: int, suffix: string): string {
    IntToString(n) + "." + suffix
  }

  function SectionOf(n: int, e: SectionEntry): Section {
    Section(SectionNumber(n, e.suffix), e.title, e.desc, "")
  }

  function SectionsOf(n: int, es: seq<SectionEntry>): (r: seq<Section>)
    ensures |r| == |es|
  {
    if es == [] then [] else SectionsOf(n, es[..|es| - 1]) + [SectionOf(n, es[|es| - 1])]
  }

  function SectionHeadingLine(n: int, e: SectionEntry): string {
    "## " + SectionNumber(n, e.suffix) + " " + e.title
  }

  function SectionOutlineLines(n: int, es: seq<SectionEntry>): (r: seq<string>)
    ensures |r| == 2 * |es|
  {
    if es == [] then []
    else SectionOutlineLines(n, es[..|es| - 1]) + [SectionHeadingLine(n, es[|es| - 1]), DescLine(es[|es| - 1].desc)]
  }

  function SectionOutlineText(n: int, es: seq<SectionEntry>): string {
    JoinWith(SectionOutlineLines(n, es), "\n")
  }

  lemma SectionNumberShape(n: int, suffix: string)
    requires ' ' !in suffix && '\n' !in suffix
    ensures var num := SectionNumber(n, suffix);
      num != [] && !IsSpace(num[0]) && ' ' !in num && '\n' !in num
      && '.' in num && Before(num, '.') == IntToString(n)
  {
    var d := IntToString(n);
    IntToStringAvoids(n, ' ');
    IntToStringAvoids(n, '\n');
    IntToStringAvoids(n, '.');
    assert SectionNumber(n, suffix) == d + ['.'] + suffix;
    BeforeOf(d, '.', suffix);
  }

  /** A heading written by SectionHeadingLine is accepted with its own number and title. */
  lemma SectionHeadingOf(n: int, e: SectionEntry)
    requires CleanSection(e)
    ensures SectionHeading(SectionNumber(n, e.suffix) + " " + e.title, n)
      == Some((SectionNumber(n, e.suffix), e.title))
  {
    SectionNumberShape(n, e.suffix);
    SplitOnceAtSpaceOf(SectionNumber(n, e.suffix), e.title);
  }

  lemma SectionHeadingStep(st: SectionState, n: int, e: SectionEntry)
    requires CleanSection(e)
    ensures SectionStep(st, SectionHeadingLine(n, e), n)
      == SectionState(FlushSection(st), e.title, "", SectionNumber(n, e.suffix))
  {
    var num := SectionNumber(n, e.suffix);
    var rest := num + " " + e.title;
    var line := SectionHeadingLine(n, e);
    SectionNumberShape(n, e.suffix);
    assert line == "## " + rest;
    StripKeeps(line);
    assert line[..3] == "## " && line[3..] == rest;
    StripKeeps(rest);
    SectionHeadingOf(n, e);
  }

  lemma SectionDescStep(st: SectionState, d: string, n: int)
    requires st.title != "" && CleanDesc(d)
    ensures SectionStep(st, DescLine(d), n) == st.(desc := d)
  {
    var line := DescLine(d);
    assert line[0] == '<' && line[|line| - 1] == '>';
    StripKeeps(line);
    assert line[..1] == "<" && line[|line| - 1..] == ">";
    assert line[..1] != "#" && !StartsWith(line, "## ");
    assert line[1..|line| - 1] == d;
    StripClean(d);
    assert DescriptionOf(line) == Some(d);
  }

  lemma ScanSectionsTwo(pre: seq<string>, a: string, b: string, n: int)
    ensures ScanSections(pre + [a, b], n) == SectionStep(SectionStep(ScanSections(pre, n), a, n), b, n)
  {
    var lines := pre + [a, b];
    var mid := pre + [a];
    assert lines[..|pre|] == pre && lines[|pre|] == a;
    assert lines[..|pre| + 1] == mid && lines[|pre| + 1] == b;
    assert lines[..|pre| + 2] == lines;
    ScanSectionsSnoc(lines, |pre|, n);
    ScanSectionsSnoc(lines, |pre| + 1, n);
  }

  lemma {:induction false} ScanSectionOutline(n: int, es: seq<SectionEntry>)
    requires es != []
    requires forall i :: 0 <= i < |es| ==> CleanSection(es[i])
    ensures var e := es[|es| - 1];
      ScanSections(SectionOutlineLines(n, es), n)
        == SectionState(SectionsOf(n, es[..|es| - 1]), e.title, e.desc, SectionNumber(n, e.suffix))
  {
    var init, e := es[..|es| - 1], es[|es| - 1];
    var pre := SectionOutlineLines(n, init);
    ScanSectionsTwo(pre, SectionHeadingLine(n, e), DescLine(e.desc), n);
    var st := ScanSections(pre, n);
    if init != [] {
      ScanSectionOutline(n, init);
      SectionNumberShape(n, init[|init| - 1].suffix);
      StripClean(init[|init| - 1].desc);
    }
    SectionHeadingStep(st, n, e);
    SectionDescStep(SectionState(FlushSection(st), e.title, "", SectionNumber(n, e.suffix)), e.desc, n);
  }

  lemma {:induction false} SectionOutlineLinesOneLine(n: int, es: seq<SectionEntry>)
    requires forall i :: 0 <= i < |es| ==> CleanSection(es[i])
    ensures forall i :: 0 <= i < |SectionOutlineLines(n, es)| ==> '\n' !in SectionOutlineLines(n, es)[i]
  {
    if es != [] {
      var init, e := es[..|es| - 1], es[|es| - 1];
      SectionOutlineLinesOneLine(n, init);
      SectionNumberShape(n, e.suffix);
    }
  }

  /** The section parser reads back every section of a chapter outline written in the
      format the prompt asks for, in order, with its number, title and description. */
  lemma SectionOutlineRoundTrip(n: int, es: seq<SectionEntry>)
    requires forall i :: 0 <= i < |es| ==> CleanSection(es[i])
    ensures ParseSections(SectionOutlineText(n, es), n) == SectionsOf(n, es)
  {
    if es == [] {
      assert Lines("") == [""];
      assert ScanSections([""], n) == SectionStep(ScanSections([], n), "", n);
    } else {
      SectionOutlineLinesOneLine(n, es);
      SplitJoin(SectionOutlineLines(n, es), '\n');
      ScanSectionOutline(n, es);
      SectionNumberShape(n, es[|es| - 1].suffix);
    }
  }

  // ---------------------------------------------------------------------------------
  // Section numbers belong to their chapter

  /** The number of a section of chapter `n` starts with str(n) followed by `.`. */
  predicate NumberedIn(num: string, n: int) {
    StartsWith(num, IntToString(n) + ".")
  }

  lemma SectionHeadingNumbered(rest: string, n: int)
    requires SectionHeading(rest, n).Some?
    ensures NumberedIn(SectionHeading(rest, n).value.0, n)
  {
    var num := SplitOnceAtSpace(rest)[0];
    var d := IntToString(n);
    assert Before(num, '.') == d;
    assert num[..|d|] == d && num[|d|] == '.';
    assert num[..|d| + 1] == d + ".";
  }

  predicate SectionsNumbered(st: SectionState, n: int) {
    (forall i :: 0 <= i < |st.sections| ==> NumberedIn(st.sections[i].number, n))
    && (st.number == "" || NumberedIn(st.number, n))
  }

  lemma SectionStepNumbered(st: SectionState, raw: string, n: int)
    requires SectionsNumbered(st, n)
    ensures SectionsNumbered(SectionStep(st, raw, n), n)
  {
    var line := Strip(raw);
    if line != "" && StartsWith(line, "## ") {
      var flushed := FlushSection(st);
      assert forall i :: 0 <= i < |flushed| ==> NumberedIn(flushed[i].number, n) by {
        if SectionOpen(st) {
          assert flushed == st.sections + [Section(st.number, st.title, Strip(st.desc), "")];
        }
      }
      var h := SectionHeading(Strip(line[3..]), n);
      if h.Some? {
        SectionHeadingNumbered(Strip(line[3..]), n);
        assert SectionStep(st, raw, n) == SectionState(flushed, h.value.1, "", h.value.0);
      } else {
        assert SectionStep(st, raw, n) == st.(sections := flushed);
      }
    }
  }

  lemma {:induction false} ScanSectionsNumbered(lines: seq<string>, n: int)
    ensures SectionsNumbered(ScanSections(lines, n), n)
  {
    if lines != [] {
      ScanSectionsNumbered(lines[..|lines| - 1], n);
      SectionStepNumbered(ScanSections(lines[..|lines| - 1], n), lines[|lines| - 1], n);
    }
  }

  /** Every section the parser returns for chapter `n` is numbered `n.`-something, so a
      heading such as `01.1` or `2.1` never opens a section of chapter 1. */
  lemma ParseSectionsNumbered(content: string, n: int)
    ensures forall i :: 0 <= i < |ParseSections(content, n)| ==> NumberedIn(ParseSections(content, n)[i].number, n)
  {
    var st := ScanSections(Lines(content), n);
    ScanSectionsNumbered(Lines(content), n);
    assert ParseSections(content, n) == FinishSections(st);
    if SectionOpen(st) {
      assert FinishSections(st) == st.sections + [Section(st.number, st.title, st.desc, "")];
    }
  }

  // ---------------------------------------------------------------------------------
  // At most one entity per heading line

  /** How many lines are, once stripped, headings of the given marker. */
  function HeadingLines(lines: seq<string>, marker: string): (r: nat)
    ensures r <= |lines|
  {
    if lines == [] then 0
    else HeadingLines(lines[..|lines| - 1], marker) + (if StartsWith(Strip(lines[|lines| - 1]), marker) then 1 else 0)
  }

  function ChapterWeight(st: ChapterState): nat {
    |st.chapters| + (if st.title != "" then 1 else 0)
  }

  lemma {:induction false} ScanChaptersCount(lines: seq<string>)
    ensures ChapterWeight(ScanChapters(lines)) <= HeadingLines(lines, "# ")
  {
    if lines != [] {
      ScanChaptersCount(lines[..|lines| - 1]);
    }
  }

  /** The chapter parser yields at most one chapter per `# ` line. (A rejected heading can
      repeat the open chapter, so the count is bounded by all `# ` lines, not by the
      accepted ones.) */
  lemma ParseChaptersCount(content: string)
    ensures |ParseChapters(content)| <= HeadingLines(Lines(content), "# ")
  {
    ScanChaptersCount(Lines(content));
  }

  function SectionWeight(st: SectionState): nat {
    |st.sections| + (if SectionOpen(st) then 1 else 0)
  }

  lemma {:induction false} ScanSectionsCount(lines: seq<string>, n: int)
    ensures SectionWeight(ScanSections(lines, n)) <= HeadingLines(lines, "## ")
  {
    if lines != [] {
      ScanSectionsCount(lines[..|lines| - 1], n);
    }
  }

  /** The section parser yields at most one section per `## ` line. */
  lemma ParseSectionsCount(content: string, n: int)
    ensures |ParseSections(content, n)| <= HeadingLines(Lines(content), "## ")
  {
    ScanSectionsCount(Lines(content), n);
  }

  // ---------------------------------------------------------------------------------
  // An empty result means no heading was accepted

  /** The line is a `# ` heading the chapter parser accepts. */
  predicate OpensChapter(raw: string) {
    var line := Strip(raw);
    StartsWith(line, "# ") && ChapterHeading(Strip(line[2..])).Some?
  }

  predicate ChapterSeen(st: ChapterState) {
    st.chapters != [] || st.title != ""
  }

  lemma ChapterStepSeen(st: ChapterState, raw: string)
    ensures ChapterSeen(ChapterStep(st, raw)) <==> ChapterSeen(st) || OpensChapter(raw)
  {
  }

  predicate AnyTrue(flags: seq<bool>) {
    flags != [] && (AnyTrue(flags[..|flags| - 1]) || flags[|flags| - 1])
  }

  lemma {:induction false} AnyTrueExists(flags: seq<bool>)
    ensures AnyTrue(flags) <==> exists i :: 0 <= i < |flags| && flags[i]
  {
    if flags != [] {
      var init := flags[..|flags| - 1];
      AnyTrueExists(init);
      assert forall i :: 0 <= i < |init| ==> init[i] == flags[i];
    }
  }

  function ChapterFlags(lines: seq<string>): (r: seq<bool>)
    ensures |r| == |lines| && forall i :: 0 <= i < |lines| ==> r[i] == OpensChapter(lines[i])
  {
    seq(|lines|, i requires 0 <= i < |lines| => OpensChapter(lines[i]))
  }

  lemma {:induction false} AnyOpensChapterFlags(lines: seq<string>)
    ensures AnyOpensChapter(lines) == AnyTrue(ChapterFlags(lines))
  {
    if lines != [] {
      AnyOpensChapterFlags(lines[..|lines| - 1]);
      assert ChapterFlags(lines)[..|lines| - 1] == ChapterFlags(lines[..|lines| - 1]);
    }
  }

  /** Some line of `lines` is an accepted chapter heading. */
  predicate AnyOpensChapter(lines: seq<string>) {
    lines != [] && (AnyOpensChapter(lines[..|lines| - 1]) || OpensChapter(lines[|lines| - 1]))
  }

  lemma {:induction false} ScanChaptersSeen(lines: seq<string>)
    ensures ChapterSeen(ScanChapters(lines)) <==> AnyOpensChapter(lines)
  {
    if lines != [] {
      var init := lines[..|lines| - 1];
      ScanChaptersSeen(init);
      ChapterStepSeen(ScanChapters(init), lines[|lines| - 1]);
    }
  }

  /** The chapter parser returns no chapter exactly when no line is an accepted chapter
      heading; that is the case in which the main-outline stage raises and retries. */
  lemma ParseChaptersEmpty(content: string)
    ensures ParseChapters(content) == [] <==> forall i :: 0 <= i < |Lines(content)| ==> !OpensChapter(Lines(content)[i])
  {
    var st := ScanChapters(Lines(content));
    ScanChaptersSeen(Lines(content));
    var flags := ChapterFlags(Lines(content));
    AnyOpensChapterFlags(Lines(content));
    AnyTrueExists(flags);
    assert ParseChapters(content) == FinishChapters(st);
  }

  /** The line is a `## ` heading the section parser accepts for chapter `n`. */
  predicate OpensSection(raw: string, n: int) {
    var line := Strip(raw);
    StartsWith(line, "## ") && SectionHeading(Strip(line[3..]), n).Some?
  }

  predicate SectionSeen(st: SectionState) {
    st.sections != [] || SectionOpen(st)
  }

  /** An accepted section heading has a non-empty number and title. */
  lemma SectionHeadingOpens(rest: string, n: int)
    requires rest == [] || !IsSpace(rest[|rest| - 1])
    requires SectionHeading(rest, n).Some?
    ensures SectionHeading(rest, n).value.0 != "" && SectionHeading(rest, n).value.1 != ""
  {
    var parts := SplitOnceAtSpace(rest);
    assert rest == parts[0] + " " + parts[1];
  }

  lemma SectionStepSeen(st: SectionState, raw: string, n: int)
    ensures SectionSeen(SectionStep(st, raw, n)) <==> SectionSeen(st) || OpensSection(raw, n)
  {
    var line := Strip(raw);
    if line != "" && StartsWith(line, "## ") && SectionHeading(Strip(line[3..]), n).Some? {
      SectionHeadingOpens(Strip(line[3..]), n);
    }
  }

  function SectionFlags(lines: seq<string>, n: int): (r: seq<bool>)
    ensures |r| == |lines| && forall i :: 0 <= i < |lines| ==> r[i] == OpensSection(lines[i], n)
  {
    seq(|lines|, i requires 0 <= i < |lines| => OpensSection(lines[i], n))
  }

  lemma {:induction false} AnyOpensSectionFlags(lines: seq<string>, n: int)
    ensures AnyOpensSection(lines, n) == AnyTrue(SectionFlags(lines, n))
  {
    if lines != [] {
      AnyOpensSectionFlags(lines[..|lines| - 1], n);
      assert SectionFlags(lines, n)[..|lines| - 1] == SectionFlags(lines[..|lines| - 1], n);
    }
  }

  predicate AnyOpensSection(lines: seq<string>, n: int) {
    lines != [] && (AnyOpensSection(lines[..|lines| - 1], n) || OpensSection(lines[|lines| - 1], n))
  }

  lemma {:induction false} ScanSectionsSeen(lines: seq<string>, n: int)
    ensures SectionSeen(ScanSections(lines, n)) <==> AnyOpensSection(lines, n)
  {
    if lines != [] {
      var init := lines[..|lines| - 1];
      ScanSectionsSeen(init, n);
      SectionStepSeen(ScanSections(init, n), lines[|lines| - 1], n);
    }
  }

  lemma ParseSectionsSeen(content: string, n: int)
    ensures ParseSections(content, n) == [] <==> !AnyOpensSection(Lines(content), n)
  {
    var st := ScanSections(Lines(content), n);
    ScanSectionsSeen(Lines(content), n);
    assert ParseSections(content, n) == FinishSections(st);
  }

  /** The section parser returns no section exactly when no line is an accepted section
      heading for the chapter. */
  lemma ParseSectionsEmpty(content: string, n: int)
    ensures ParseSections(content, n) == [] <==> forall i :: 0 <= i < |Lines(content)| ==> !OpensSection(Lines(content)[i], n)
  {
    var lines := Lines(content);
    var flags := SectionFlags(lines, n);
    ParseSectionsSeen(content, n);
    AnyOpensSectionFlags(lines, n);
    AnyTrueExists(flags);
    if ParseSections(content, n) == [] {
      forall i | 0 <= i < |lines|
        ensures !OpensSection(lines[i], n)
      {
        assert !flags[i];
      }
    } else {
      var i :| 0 <= i < |flags| && flags[i];
      assert OpensSection(lines[i], n);
    }
  }

  // ---------------------------------------------------------------------------------
  // A rejected heading repeats the open entity

  /** A `# ` line whose heading is rejected still appends the open chapter, and leaves it
      open with its title, description and number. */
  lemma ChapterStepRejected(st: ChapterState, raw: string)
    requires StartsWith(Strip(raw), "# ") && !OpensChapter(raw)
    ensures ChapterStep(st, raw) == st.(chapters := FlushChapter(st))
  {
  }

  /** A `## ` line whose heading is rejected for the chapter still appends the open
      section, and leaves it open. */
  lemma SectionStepRejected(st: SectionState, raw: string, n: int)
    requires StartsWith(Strip(raw), "## ") && !OpensSection(raw, n)
    ensures SectionStep(st, raw, n) == st.(sections := FlushSection(st))
  {
  }

  /** A section heading numbered for another chapter `m` is rejected by the parser of
      chapter `n`. */
  lemma ForeignSectionStep(st: SectionState, n: int, m: int, f: SectionEntry)
    requires CleanSection(f) && m != n
    ensures SectionStep(st, SectionHeadingLine(m, f), n) == st.(sections := FlushSection(st))
  {
    var num := SectionNumber(m, f.suffix);
    var rest := num + " " + f.title;
    var line := SectionHeadingLine(m, f);
    SectionNumberShape(m, f.suffix);
    assert line == "## " + rest;
    StripKeeps(line);
    assert line[..3] == "## " && line[3..] == rest;
    StripKeeps(rest);
    SplitOnceAtSpaceOf(num, f.title);
    IntToStringRoundTrip(m);
    IntToStringRoundTrip(n);
    assert SectionHeading(rest, n) == None;
  }

  /** The section block `## 1.1 A`, `<x>`, `## 2.1 B`, `<y>` of chapter 1 yields section
      1.1 twice: `2.1` does not belong to chapter 1, but its heading line has already
      closed 1.1 with description x, and 1.1 stays open to take description y. */
  function DuplicateLines(n: int, e: SectionEntry, m: int, f: SectionEntry, y: string): seq<string> {
    [SectionHeadingLine(n, e), DescLine(e.desc), SectionHeadingLine(m, f), DescLine(y)]
  }

  lemma DuplicateScan(n: int, e: SectionEntry, m: int, f: SectionEntry, y: string)
    requires CleanSection(e) && CleanSection(f) && CleanDesc(y) && m != n
    ensures ScanSections(DuplicateLines(n, e, m, f, y), n)
      == SectionState([SectionOf(n, e)], e.title, y, SectionNumber(n, e.suffix))
  {
    var first := SectionOutlineLines(n, [e]);
    assert [e][..0] == [] && [e][0] == e;
    assert first == [SectionHeadingLine(n, e), DescLine(e.desc)];
    assert first + [SectionHeadingLine(m, f), DescLine(y)] == DuplicateLines(n, e, m, f, y);
    ScanSectionOutline(n, [e]);
    var st := SectionState([], e.title, e.desc, SectionNumber(n, e.suffix));
    ScanSectionsTwo(first, SectionHeadingLine(m, f), DescLine(y), n);
    ForeignSectionStep(st, n, m, f);
    SectionNumberShape(n, e.suffix);
    StripClean(e.desc);
    assert FlushSection(st) == [SectionOf(n, e)];
    SectionDescStep(st.(sections := [SectionOf(n, e)]), y, n);
  }

  lemma DuplicateLinesOneLine(n: int, e: SectionEntry, m: int, f: SectionEntry, y: string)
    requires CleanSection(e) && CleanSection(f) && CleanDesc(y)
    ensures forall i :: 0 <= i < 4 ==> '\n' !in DuplicateLines(n, e, m, f, y)[i]
  {
    assert [e][..0] == [] && [e][0] == e;
    assert [f][..0] == [] && [f][0] == f;
    SectionOutlineLinesOneLine(n, [e]);
    SectionOutlineLinesOneLine(m, [f]);
    assert SectionOutlineLines(m, [f])[0] == SectionHeadingLine(m, f);
  }

  /** An open section followed by a heading for another chapter and a description line is
      returned twice: the foreign heading closes it with its first description but does
      not replace it, so it stays open and takes the second description. For chapter 1,
      the block `## 1.1 A`, `<x>`, `## 2.1 B`, `<y>` gives section 1.1 with description x
      and again with description y. */
  lemma RejectedHeadingDuplicates(n: int, e: SectionEntry, m: int, f: SectionEntry, y: string)
    requires CleanSection(e) && CleanSection(f) && CleanDesc(y) && m != n
    ensures ParseSections(JoinWith(DuplicateLines(n, e, m, f, y), "\n"), n)
      == [SectionOf(n, e), SectionOf(n, e).(description := y)]
  {
    DuplicateLinesOneLine(n, e, m, f, y);
    SplitJoin(DuplicateLines(n, e, m, f, y), '\n');
    DuplicateScan(n, e, m, f, y);
    SectionNumberShape(n, e.suffix);
  }
}

=== FILE: pipeline.dfy ===
/** process_message: the health check, then the three stages one after the other, with
    every stage event relayed onto one ordered stream, progress events around each stage,
    and the chapter records filled in place (sections, then section contents). */
module Pipeline {
  import opened Text
  import opened Outline
  import opened Stages
  import opened Events

  // ---------------------------------------------------------------------------------
  // Relaying stage events

  /** Where the orchestrator is while it relays a stage: which chapter and section the
      stage works on. */
  datatype Phase = InChapters | InSections(chapter: int) | InContent(chapter: int, section: string)

  /** The client events one stage event becomes: a chunk is forwarded as is, a result
      becomes the structured events of the phase it belongs to. */
  function Relayed(e: StageEvent, phase: Phase): seq<Event>
  {
    match e
    case Chunk(d) => [ChunkEvent(d)]
    case ChaptersReady(cs) => if phase.InChapters? then ChapterEvents(cs) else []
    case SectionsReady(ss) => if phase.InSections? then SectionEvents(phase.chapter, ss) else []
    case ContentReady(t) => if phase.InContent? then [ContentEvent(phase.chapter, phase.section, t)] else []
  }

  function Relay(stageEvents: seq<StageEvent>, phase: Phase): seq<Event>
  {
    if stageEvents == [] then []
    else Relay(stageEvents[..|stageEvents| - 1], phase) + Relayed(stageEvents[|stageEvents| - 1], phase)
  }

  /** The chapters a chapter stage announces. */
  function ChaptersIn(stageEvents: seq<StageEvent>): seq<Chapter>
  {
    if stageEvents == [] then []
    else
      var e := stageEvents[|stageEvents| - 1];
      ChaptersIn(stageEvents[..|stageEvents| - 1]) + (if e.ChaptersReady? then e.chapters else [])
  }

  /** The sections a section stage announces. */
  function SectionsIn(stageEvents: seq<StageEvent>): seq<Section>
  {
    if stageEvents == [] then []
    else
      var e := stageEvents[|stageEvents| - 1];
      SectionsIn(stageEvents[..|stageEvents| - 1]) + (if e.SectionsReady? then e.sections else [])
  }

  /** The text of the last content event of a content stage, or `current` if it has none. */
  function ContentIn(stageEvents: seq<StageEvent>, current: string): string
  {
    if stageEvents == [] then current
    else
      var e := stageEvents[|stageEvents| - 1];
      if e.ContentReady? then e.content else ContentIn(stageEvents[..|stageEvents| - 1], current)
  }

  lemma RelaySnoc(stageEvents: seq<StageEvent>, k: nat, phase: Phase, current: string)
    requires k < |stageEvents|
    ensures Relay(stageEvents[..k + 1], phase) == Relay(stageEvents[..k], phase) + Relayed(stageEvents[k], phase)
    ensures ChaptersIn(stageEvents[..k + 1])
      == ChaptersIn(stageEvents[..k]) + (if stageEvents[k].ChaptersReady? then stageEvents[k].chapters else [])
    ensures SectionsIn(stageEvents[..k + 1])
      == SectionsIn(stageEvents[..k]) + (if stageEvents[k].SectionsReady? then stageEvents[k].sections else [])
    ensures ContentIn(stageEvents[..k + 1], current)
      == if stageEvents[k].ContentReady? then stageEvents[k].content else ContentIn(stageEvents[..k], current)
  {
    assert stageEvents[..k + 1][..k] == stageEvents[..k];
  }

  /** Relayed chunks are chunk events only, one per stage chunk, and announce nothing. */
  lemma {:induction false} RelayChunks(stageEvents: seq<StageEvent>, phase: Phase, current: string)
    requires forall i :: 0 <= i < |stageEvents| ==> stageEvents[i].Chunk?
    ensures forall i :: 0 <= i < |Relay(stageEvents, phase)| ==> Relay(stageEvents, phase)[i].ChunkEvent?
    ensures NonChunks(Relay(stageEvents, phase)) == []
    ensures ChunkCount(Relay(stageEvents, phase)) == |stageEvents|
    ensures ChaptersIn(stageEvents) == [] && SectionsIn(stageEvents) == []
    ensures ContentIn(stageEvents, current) == current
  {
    if stageEvents != [] {
      var init := stageEvents[..|stageEvents| - 1];
      RelayChunks(init, phase, current);
      EventSnoc(Relay(init, phase), ChunkEvent(stageEvents[|stageEvents| - 1].data));
    }
  }

  /** A stage's chunks, relayed in any phase, are chunk events only and announce nothing. */
  lemma StreamRelay(calls: seq<Attempt>, phase: Phase, current: string)
    ensures PhaseEvents(Relay(StreamChunks(calls), phase), ChaptersStage)
    ensures PhaseEvents(Relay(StreamChunks(calls), phase), SectionsStage)
    ensures PhaseEvents(Relay(StreamChunks(calls), phase), ContentStage)
    ensures NonChunks(Relay(StreamChunks(calls), phase)) == []
    ensures ChunkCount(Relay(StreamChunks(calls), phase)) == |StreamChunks(calls)|
    ensures ChaptersIn(StreamChunks(calls)) == [] && SectionsIn(StreamChunks(calls)) == []
    ensures ContentIn(StreamChunks(calls), current) == current
  {
    StreamChunksOnlyChunks(calls);
    RelayChunks(StreamChunks(calls), phase, current);
  }

  /** Relaying one more stage event. */
  lemma RelayAppendOne(stageEvents: seq<StageEvent>, e: StageEvent, phase: Phase, current: string)
    ensures Relay(stageEvents + [e], phase) == Relay(stageEvents, phase) + Relayed(e, phase)
    ensures ChaptersIn(stageEvents + [e]) == ChaptersIn(stageEvents) + (if e.ChaptersReady? then e.chapters else [])
    ensures SectionsIn(stageEvents + [e]) == SectionsIn(stageEvents) + (if e.SectionsReady? then e.sections else [])
    ensures ContentIn(stageEvents + [e], current) == if e.ContentReady? then e.content else ContentIn(stageEvents, current)
  {
    assert (stageEvents + [e])[..|stageEvents|] == stageEvents;
  }

  /** The chunk texts a relayed event carries: a chunk's own text, nothing for a result. */
  lemma RelayedData(e: StageEvent, phase: Phase)
    ensures ChunkData(Relayed(e, phase)) == if e.Chunk? then [e.data] else []
  {
    match e
    case Chunk(d) =>
      assert [ChunkEvent(d)][..0] == [];
    case ChaptersReady(cs) =>
      ChapterEventsStructured(cs);
      StructuredNoData(ChapterEvents(cs));
    case SectionsReady(ss) =>
      if phase.InSections? {
        SectionEventsStructured(phase.chapter, ss);
        StructuredNoData(SectionEvents(phase.chapter, ss));
      }
    case ContentReady(t) =>
      if phase.InContent? {
        assert [ContentEvent(phase.chapter, phase.section, t)][..0] == [];
      }
  }

  /** Relaying forwards the texts of the stage's chunks, in order, and no others. */
  lemma {:induction false} RelayChunkData(stageEvents: seq<StageEvent>, phase: Phase)
    ensures ChunkData(Relay(stageEvents, phase)) == ChunkTexts(stageEvents)
    decreases |stageEvents|
  {
    if stageEvents != [] {
      var init, e := stageEvents[..|stageEvents| - 1], stageEvents[|stageEvents| - 1];
      RelayChunkData(init, phase);
      ChunkDataAppend(Relay(init, phase), Relayed(e, phase));
      RelayedData(e, phase);
    }
  }

  /** The chunk events of `events` carry, in order, the texts of the chunks the calls
      `src[lo..hi]` streamed. */
  predicate CarriesChunks(events: seq<Event>, src: seq<Attempt>, lo: nat, hi: nat)
  {
    lo <= hi <= |src| && ChunkData(events) == ChunkTexts(StreamChunks(src[lo..][..hi - lo]))
  }

  lemma CarriesAppend(a: seq<Event>, b: seq<Event>, src: seq<Attempt>, lo: nat, mid: nat, hi: nat)
    requires CarriesChunks(a, src, lo, mid) && CarriesChunks(b, src, mid, hi)
    ensures CarriesChunks(a + b, src, lo, hi)
  {
    ChunkDataAppend(a, b);
    assert src[lo..][..hi - lo] == src[lo..][..mid - lo] + src[mid..][..hi - mid];
    StreamChunksAppend(src[lo..][..mid - lo], src[mid..][..hi - mid]);
    ChunkTextsAppend(StreamChunks(src[lo..][..mid - lo]), StreamChunks(src[mid..][..hi - mid]));
  }

  lemma CarriesShift(events: seq<Event>, src: seq<Attempt>, used: nat, u: nat)
    requires used <= |src| && CarriesChunks(events, src[used..], 0, u)
    ensures CarriesChunks(events, src, used, used + u)
  {
    assert src[used..][0..][..u - 0] == src[used..][..used + u - used];
  }

  /** The chunks of the `u` calls from `used` on relayed, followed by structured events. */
  lemma RelayedStageCarriesFrom(src: seq<Attempt>, used: nat, u: nat, phase: Phase, tail: seq<Event>)
    requires used + u <= |src| && NonChunks(tail) == tail
    ensures CarriesChunks(Relay(StreamChunks(src[used..][..u]), phase) + tail, src, used, used + u)
  {
    RelayedStageCarries(src[used..], u, phase, tail);
    CarriesShift(Relay(StreamChunks(src[used..][..u]), phase) + tail, src, used, u);
  }

  /** A stage's chunks relayed, followed by structured events. */
  lemma RelayedStageCarries(src: seq<Attempt>, used: nat, phase: Phase, tail: seq<Event>)
    requires used <= |src| && NonChunks(tail) == tail
    ensures CarriesChunks(Relay(StreamChunks(src[..used]), phase) + tail, src, 0, used)
  {
    RelayChunkData(StreamChunks(src[..used]), phase);
    ChunkDataAppend(Relay(StreamChunks(src[..used]), phase), tail);
    StructuredNoData(tail);
    assert src[0..][..used - 0] == src[..used];
  }

  // ---------------------------------------------------------------------------------
  // Stage 1: chapters

  /** The inner loop over a `chapters` event: count, record and announce each chapter. */
  method AnnounceChapters(events0: seq<Event>, chapters0: seq<Chapter>, count0: nat, cs: seq<Chapter>)
    returns (events: seq<Event>, chapters: seq<Chapter>, count: nat)
    ensures events == events0 + ChapterEvents(cs)
    ensures chapters == chapters0 + cs
    ensures count == count0 + |cs|
  {
    events, chapters, count := events0, chapters0, count0;
    var k := 0;
    while k < |cs|
      invariant k <= |cs|
      invariant events == events0 + ChapterEvents(cs[..k])
      invariant chapters == chapters0 + cs[..k]
      invariant count == count0 + k
    {
      assert cs[..k + 1][..k] == cs[..k];
      count := count + 1;
      chapters := chapters + [cs[k]];
      events := events + [ChapterEvent(cs[k].number, cs[k].title, cs[k].description)];
      k := k + 1;
    }
    assert cs[..k] == cs;
  }

  /** The `async for data in generate_main_outline(...)` loop of process_message. */
  method RelayChapterStage(stageEvents: seq<StageEvent>)
    returns (events: seq<Event>, chapters: seq<Chapter>, count: nat)
    ensures events == Relay(stageEvents, InChapters)
    ensures chapters == ChaptersIn(stageEvents)
    ensures count == |chapters|
  {
    events, chapters, count := [], [], 0;
    var k := 0;
    while k < |stageEvents|
      invariant k <= |stageEvents|
      invariant events == Relay(stageEvents[..k], InChapters)
      invariant chapters == ChaptersIn(stageEvents[..k])
      invariant count == |chapters|
    {
      RelaySnoc(stageEvents, k, InChapters, "");
      match stageEvents[k] {
        case Chunk(d) =>
          events := events + [ChunkEvent(d)];
        case ChaptersReady(cs) =>
          events, chapters, count := AnnounceChapters(events, chapters, count, cs);
        case _ =>
      }
      k := k + 1;
    }
    assert stageEvents[..k] == stageEvents;
  }

  /** Stage 1 as process_message runs it: the chapter stage relayed, with chapter_count. */
  method ChapterPhase(src: seq<Attempt>)
    returns (events: seq<Event>, chapters: seq<Chapter>, count: nat, used: nat, done: bool)
    ensures used <= |src| && (!done ==> used == |src| && chapters == [])
    ensures done ==> (0 < used && src[used - 1].Completed? && chapters != [])
    ensures done ==> chapters == ParseChapters(Concat(src[used - 1].fragments))
    ensures NoChapters(src[..if done then used - 1 else used])
    ensures events == Relay(StreamChunks(src[..used]), InChapters) + ChapterEvents(chapters)
    ensures count == |chapters|
    ensures PhaseEvents(events, ChaptersStage) && NonChunks(events) == ChapterEvents(chapters)
    ensures CarriesChunks(events, src, 0, used)
  {
    var stageEvents, parsed;
    stageEvents, parsed, used, done := GenerateMainOutline(src);
    events, chapters, count := RelayChapterStage(stageEvents);
    ChapterStageRelayed(src, used, done, parsed, stageEvents);
  }

  /** What relaying a finished main outline stage forwards. */
  lemma ChapterStageRelayed(src: seq<Attempt>, used: nat, done: bool, parsed: seq<Chapter>, stageEvents: seq<StageEvent>)
    requires used <= |src|
    requires stageEvents == StreamChunks(src[..used]) + (if done then [ChaptersReady(parsed)] else [])
    ensures ChaptersIn(stageEvents) == if done then parsed else []
    ensures Relay(stageEvents, InChapters)
      == Relay(StreamChunks(src[..used]), InChapters) + ChapterEvents(ChaptersIn(stageEvents))
    ensures PhaseEvents(Relay(stageEvents, InChapters), ChaptersStage)
    ensures NonChunks(Relay(stageEvents, InChapters)) == ChapterEvents(ChaptersIn(stageEvents))
    ensures CarriesChunks(Relay(stageEvents, InChapters), src, 0, used)
  {
    var chunks := StreamChunks(src[..used]);
    var chapters := ChaptersIn(stageEvents);
    StreamRelay(src[..used], InChapters, "");
    if done {
      RelayAppendOne(chunks, ChaptersReady(parsed), InChapters, "");
    } else {
      assert stageEvents == chunks;
    }
    ChapterEventsStructured(chapters);
    PhaseEventsAppend(Relay(chunks, InChapters), ChapterEvents(chapters), ChaptersStage);
    NonChunksAppend(Relay(chunks, InChapters), ChapterEvents(chapters));
    RelayedStageCarries(src, used, InChapters, ChapterEvents(chapters));
  }

  // ---------------------------------------------------------------------------------
  // Stage 2: sections, chapter by chapter

  /** The inner loop over a `sections` event: count each section and append it to the
      chapter's section list, announcing it. */
  method AnnounceSections(events0: seq<Event>, chapter0: Chapter, count0: nat, ss: seq<Section>)
    returns (events: seq<Event>, chapter: Chapter, count: nat)
    ensures events == events0 + SectionEvents(chapter0.number, ss)
    ensures chapter == chapter0.(sections := chapter0.sections + ss)
    ensures count == count0 + |ss|
  {
    events, chapter, count := events0, chapter0, count0;
    var k := 0;
    while k < |ss|
      invariant k <= |ss|
      invariant events == events0 + SectionEvents(chapter0.number, ss[..k])
      invariant chapter == chapter0.(sections := chapter0.sections + ss[..k])
      invariant count == count0 + k
    {
      assert ss[..k + 1][..k] == ss[..k];
      var s := ss[k];
      count := count + 1;
      chapter := chapter.(sections := chapter.sections + [s]);
      events := events + [SectionEvent(chapter.number, s.number, s.title, s.description)];
      k := k + 1;
    }
    assert ss[..k] == ss;
  }

  /** One chapter's section list is reset, then the `async for data in
      generate_chapter_outline(...)` loop fills it. */
  method RelaySectionStage(stageEvents: seq<StageEvent>, chapter0: Chapter, count0: nat)
    returns (events: seq<Event>, chapter: Chapter, count: nat)
    ensures events == Relay(stageEvents, InSections(chapter0.number))
    ensures chapter == chapter0.(sections := SectionsIn(stageEvents))
    ensures count == count0 + |SectionsIn(stageEvents)|
  {
    events, chapter, count := [], chapter0.(sections := []), count0;
    var k := 0;
    assert stageEvents[..0] == [];
    while k < |stageEvents|
      invariant k <= |stageEvents|
      invariant events == Relay(stageEvents[..k], InSections(chapter0.number))
      invariant chapter == chapter0.(sections := SectionsIn(stageEvents[..k]))
      invariant count == count0 + |SectionsIn(stageEvents[..k])|
    {
      RelaySnoc(stageEvents, k, InSections(chapter0.number), "");
      match stageEvents[k] {
        case Chunk(d) =>
          events := events + [ChunkEvent(d)];
        case SectionsReady(ss) =>
          events, chapter, count := AnnounceSections(events, chapter, count, ss);
        case _ =>
      }
      k := k + 1;
    }
    assert stageEvents[..k] == stageEvents;
  }

  /** One chapter of stage 2: its section list is filled anew from the stage. */
  method SectionPhaseStep(src: seq<Attempt>, chapter0: Chapter, count0: nat)
    returns (events: seq<Event>, chapter: Chapter, count: nat, used: nat, done: bool)
    ensures used <= |src| && (!done ==> used == |src| && chapter.sections == [])
    ensures chapter == chapter0.(sections := chapter.sections)
    ensures done ==> (0 < used && src[used - 1].Completed? && chapter.sections != [])
    ensures done ==> chapter.sections == ParseSections(Concat(src[used - 1].fragments), chapter0.number)
    ensures events == Relay(StreamChunks(src[..used]), InSections(chapter0.number))
      + SectionEvents(chapter0.number, chapter.sections)
    ensures NoSections(src[..if done then used - 1 else used], chapter0.number)
    ensures count == count0 + |chapter.sections|
    ensures PhaseEvents(events, SectionsStage) && NonChunks(events) == SectionEvents(chapter0.number, chapter.sections)
  {
    var stageEvents, parsed;
    stageEvents, parsed, used, done := GenerateChapterOutline(src, chapter0.number);
    events, chapter, count := RelaySectionStage(stageEvents, chapter0, count0);
    var chunks := StreamChunks(src[..used]);
    StreamRelay(src[..used], InSections(chapter0.number), "");
    if done {
      RelayAppendOne(chunks, SectionsReady(parsed), InSections(chapter0.number), "");
    } else {
      assert stageEvents == chunks;
    }
    SectionEventsStructured(chapter0.number, chapter.sections);
    PhaseEventsAppend(Relay(chunks, InSections(chapter0.number)), SectionEvents(chapter0.number, chapter.sections), SectionsStage);
    NonChunksAppend(Relay(StreamChunks(src[..used]), InSections(chapter0.number)), SectionEvents(chapter0.number, chapter.sections));
  }

  lemma AllSectionEventsSnoc(chapters: seq<Chapter>, i: nat)
    requires i < |chapters|
    ensures AllSectionEvents(chapters[..i + 1])
      == AllSectionEvents(chapters[..i]) + SectionEvents(chapters[i].number, chapters[i].sections)
    ensures TotalSections(chapters[..i + 1]) == TotalSections(chapters[..i]) + |chapters[i].sections|
  {
    assert chapters[..i + 1][..i] == chapters[..i];
  }

  /** Chapter `chapter` got the sections the section parser read from the completed call
      `call`, there is at least one, and every call from `lo` up to `call` gave none. */
  predicate FilledFrom(src: seq<Attempt>, lo: nat, chapter: Chapter, call: nat)
  {
    lo <= call < |src| && src[call].Completed? && chapter.sections != []
    && chapter.sections == ParseSections(Concat(src[call].fragments), chapter.number)
    && forall j :: lo <= j < call ==> !ChapterOutlineSucceeds(src[j], chapter.number)
  }

  /** The call after the last of `calls`, or `start` when there is none. */
  function Next(start: nat, calls: seq<nat>): (r: nat)
    ensures calls == [] ==> r == start
    ensures calls != [] ==> r == calls[|calls| - 1] + 1
  {
    if calls == [] then start else calls[|calls| - 1] + 1
  }

  /** What stage 2 establishes on the calls from `start` on: chapter `k` was filled from
      call `calls[k]`, the first success after the call that filled chapter `k - 1`. */
  predicate SectionsFilled(src: seq<Attempt>, start: nat, chapters: seq<Chapter>, calls: seq<nat>)
    decreases |calls|, 1
  {
    |calls| == |chapters| && (calls == [] || LastFilled(src, start, chapters, calls))
  }

  /** The chapters before the last were filled, and so was the last, after them. */
  predicate LastFilled(src: seq<Attempt>, start: nat, chapters: seq<Chapter>, calls: seq<nat>)
    requires |calls| == |chapters| && calls != []
    decreases |calls|, 0
  {
    SectionsFilled(src, start, chapters[..|chapters| - 1], calls[..|calls| - 1])
    && FilledFrom(src, Next(start, calls[..|calls| - 1]), chapters[|chapters| - 1], calls[|calls| - 1])
  }

  lemma {:induction false} SectionsFilledAt(src: seq<Attempt>, start: nat, chapters: seq<Chapter>, calls: seq<nat>, k: nat)
    requires SectionsFilled(src, start, chapters, calls) && k < |chapters|
    ensures FilledFrom(src, Next(start, calls[..k]), chapters[k], calls[k])
    decreases |calls|
  {
    var n := |chapters| - 1;
    if k < n {
      SectionsFilledAt(src, start, chapters[..n], calls[..n], k);
      assert calls[..n][..k] == calls[..k];
    }
  }

  /** The calls stage 2 used start at `start` and strictly increase. */
  lemma SectionsFilledIncreasing(src: seq<Attempt>, start: nat, chapters: seq<Chapter>, calls: seq<nat>)
    requires SectionsFilled(src, start, chapters, calls)
    ensures calls != [] ==> start <= calls[0]
    ensures forall k :: 0 < k < |calls| ==> calls[k - 1] < calls[k]
  {
    if calls != [] {
      SectionsFilledAfter(src, start, chapters, calls, 0);
    }
    forall k | 0 < k < |calls|
      ensures calls[k - 1] < calls[k]
    {
      SectionsFilledAfter(src, start, chapters, calls, k);
      assert calls[..k][k - 1] == calls[k - 1];
    }
  }

  lemma SectionsFilledAfter(src: seq<Attempt>, start: nat, chapters: seq<Chapter>, calls: seq<nat>, k: nat)
    requires SectionsFilled(src, start, chapters, calls) && k < |chapters|
    ensures Next(start, calls[..k]) <= calls[k]
  {
    SectionsFilledAt(src, start, chapters, calls, k);
  }

  /** `s` with `x` appended. */
  function Snoc<T>(s: seq<T>, x: T): seq<T>
  {
    s + [x]
  }

  /** Stage 2 for one chapter on the calls from `used` on: which call gave its sections. */
  method FillChapter(src: seq<Attempt>, used: nat, chapter0: Chapter, count0: nat)
    returns (events: seq<Event>, chapter: Chapter, count: nat, next: nat, done: bool, ghost call: nat)
    requires used <= |src|
    ensures used <= next <= |src| && (!done ==> next == |src|)
    ensures chapter == chapter0.(sections := chapter.sections)
    ensures done ==> FilledFrom(src, used, chapter, call) && next == call + 1
    ensures PhaseEvents(events, SectionsStage)
    ensures NonChunks(events) == SectionEvents(chapter0.number, chapter.sections)
    ensures count == count0 + |chapter.sections|
    ensures CarriesChunks(events, src, used, next)
  {
    var u;
    events, chapter, count, u, done := SectionPhaseStep(src[used..], chapter0, count0);
    next := used + u;
    call := used;
    if done {
      call := used + u - 1;
      FilledChapterFrom(src, used, u, true, chapter0.number, chapter, events);
    } else {
      FilledChapterFrom(src, used, u, false, chapter0.number, chapter, events);
    }
  }

  /** What one section stage run on the calls from `used` on says about `src` itself. */
  lemma FilledChapterFrom(src: seq<Attempt>, used: nat, u: nat, done: bool, n: int, chapter: Chapter, events: seq<Event>)
    requires used + u <= |src| && chapter.number == n
    requires done ==> (0 < u && src[used..][u - 1].Completed? && chapter.sections != [])
    requires done ==> chapter.sections == ParseSections(Concat(src[used..][u - 1].fragments), n)
    requires NoSections(src[used..][..if done then u - 1 else u], n)
    requires events == Relay(StreamChunks(src[used..][..u]), InSections(n)) + SectionEvents(n, chapter.sections)
    ensures done ==> FilledFrom(src, used, chapter, used + u - 1)
    ensures CarriesChunks(events, src, used, used + u)
  {
    if done {
      assert src[used + u - 1] == src[used..][u - 1];
      NoSectionsEvery(src[used..][..u - 1], n);
      forall j | used <= j < used + u - 1
        ensures !ChapterOutlineSucceeds(src[j], n)
      {
        assert src[j] == src[used..][..u - 1][j - used];
      }
    }
    SectionEventsStructured(n, chapter.sections);
    RelayedStageCarriesFrom(src, used, u, InSections(n), SectionEvents(n, chapter.sections));
  }

  /** Chapter `i`, filled after the chapters before it, extends them. */
  lemma SectionsFilledStep(src: seq<Attempt>, start: nat, chapters: seq<Chapter>, i: nat, calls: seq<nat>, call: nat)
    requires i < |chapters| && SectionsFilled(src, start, chapters[..i], calls)
    requires FilledFrom(src, Next(start, calls), chapters[i], call)
    ensures SectionsFilled(src, start, chapters[..i + 1], Snoc(calls, call))
  {
    var cs, ks := chapters[..i + 1], Snoc(calls, call);
    assert cs[..i] == chapters[..i] && cs[i] == chapters[i];
    assert ks[..i] == calls && ks[i] == call;
  }

  /** One round of stage 2: chapter `i` is filled from the calls from `used` on. */
  method SectionRound(src: seq<Attempt>, used: nat, chapters0: seq<Chapter>, i: nat, count0: nat)
    returns (events: seq<Event>, chapters: seq<Chapter>, count: nat, next: nat, done: bool, ghost call: nat)
    requires used <= |src| && i < |chapters0|
    ensures used <= next <= |src| && (!done ==> next == |src|)
    ensures |chapters| == |chapters0| && chapters[..i] == chapters0[..i]
    ensures chapters == chapters0[i := chapters[i]] && chapters[i] == chapters0[i].(sections := chapters[i].sections)
    ensures done ==> FilledFrom(src, used, chapters[i], call) && next == call + 1
    ensures PhaseEvents(events, SectionsStage)
    ensures AllSectionEvents(chapters[..i + 1]) == AllSectionEvents(chapters0[..i]) + NonChunks(events)
    ensures TotalSections(chapters[..i + 1]) == TotalSections(chapters0[..i]) + (count - count0)
    ensures CarriesChunks(events, src, used, next)
  {
    var chapter;
    events, chapter, count, next, done, call := FillChapter(src, used, chapters0[i], count0);
    chapters := chapters0[i := chapter];
    assert chapters[..i] == chapters0[..i];
    AllSectionEventsSnoc(chapters, i);
  }

  /** Stage 2 as process_message runs it: the section stage for every chapter in turn,
      consuming the calls of `src` from `start` on. */
  method SectionPhase(src: seq<Attempt>, start: nat, chapters0: seq<Chapter>)
    returns (events: seq<Event>, chapters: seq<Chapter>, count: nat, used: nat, done: bool, ghost calls: seq<nat>)
    requires start <= |src|
    ensures start <= used <= |src| && (!done ==> used == |src|)
    ensures SameHeadings(chapters, chapters0)
    ensures PhaseEvents(events, SectionsStage)
    ensures done ==> SectionsFilled(src, start, chapters, calls) && used == Next(start, calls)
    ensures done ==> NonChunks(events) == AllSectionEvents(chapters) && count == TotalSections(chapters)
    ensures CarriesChunks(events, src, start, used)
  {
    events, chapters, count, used, done := [], chapters0, 0, start, true;
    calls := [];
    var i := 0;
    assert src[start..start] == [];
    while i < |chapters| && done
      decreases |chapters0| - i, if done then 1 else 0
      invariant i <= |chapters| && start <= used <= |src| && (!done ==> used == |src|)
      invariant SameHeadings(chapters, chapters0)
      invariant PhaseEvents(events, SectionsStage)
      invariant done ==> SectionsFilled(src, start, chapters[..i], calls) && used == Next(start, calls)
      invariant done ==> NonChunks(events) == AllSectionEvents(chapters[..i]) && count == TotalSections(chapters[..i])
      invariant CarriesChunks(events, src, start, used)
    {
      var evs, c, next;
      ghost var call;
      evs, chapters, c, next, done, call := SectionRound(src, used, chapters, i, count);
      NonChunksAppend(events, evs);
      PhaseEventsAppend(events, evs, SectionsStage);
      CarriesAppend(events, evs, src, start, used, next);
      events, count, used := events + evs, c, next;
      if done {
        SectionsFilledStep(src, start, chapters, i, calls, call);
        calls := Snoc(calls, call);
        i := i + 1;
      }
    }
    if done {
      assert chapters[..i] == chapters;
    }
  }

  // ---------------------------------------------------------------------------------
  // Stage 3: section contents

  /** The `async for data in generate_section_content(...)` loop for one section: each chunk
      counts and is forwarded, the content event sets the section's content. */
  method RelayContentStage(stageEvents: seq<StageEvent>, chapterNumber: int, section0: Section, count0: nat)
    returns (events: seq<Event>, section: Section, count: nat)
    ensures events == Relay(stageEvents, InContent(chapterNumber, section0.number))
    ensures section == section0.(content := ContentIn(stageEvents, section0.content))
    ensures count == count0 + ChunkCount(events)
  {
    events, section, count := [], section0, count0;
    var k := 0;
    assert stageEvents[..0] == [];
    while k < |stageEvents|
      invariant k <= |stageEvents|
      invariant events == Relay(stageEvents[..k], InContent(chapterNumber, section0.number))
      invariant section == section0.(content := ContentIn(stageEvents[..k], section0.content))
      invariant count == count0 + ChunkCount(events)
    {
      RelaySnoc(stageEvents, k, InContent(chapterNumber, section0.number), section0.content);
      match stageEvents[k] {
        case Chunk(d) =>
          EventSnoc(events, ChunkEvent(d));
          count := count + 1;
          events := events + [ChunkEvent(d)];
        case ContentReady(t) =>
          EventSnoc(events, ContentEvent(chapterNumber, section.number, t));
          section := section.(content := t);
          events := events + [ContentEvent(chapterNumber, section.number, t)];
        case _ =>
      }
      k := k + 1;
    }
    assert stageEvents[..k] == stageEvents;
  }

  /** One section of stage 3. */
  method ContentPhaseStep(src: seq<Attempt>, chapterNumber: int, section0: Section, count0: nat)
    returns (events: seq<Event>, section: Section, count: nat, used: nat, done: bool)
    ensures used <= |src| && (!done ==> used == |src| && section == section0)
    ensures done ==> (0 < used && src[used - 1].Completed?)
    ensures done ==> section == section0.(content := Concat(src[used - 1].fragments))
    ensures forall j :: 0 <= j < used && (j < used - 1 || !done) ==> src[j].Failed?
    ensures events == Relay(StreamChunks(src[..used]), InContent(chapterNumber, section0.number))
      + (if done then [ContentEvent(chapterNumber, section.number, section.content)] else [])
    ensures count == count0 + ChunkCount(events)
    ensures PhaseEvents(events, ContentStage)
    ensures NonChunks(events) == if done then ContentEvents(chapterNumber, [section]) else []
  {
    var stageEvents, text;
    stageEvents, text, used, done := GenerateSectionContent(src);
    events, section, count := RelayContentStage(stageEvents, chapterNumber, section0, count0);
    var chunks := StreamChunks(src[..used]);
    StreamRelay(src[..used], InContent(chapterNumber, section0.number), section0.content);
    if done {
      var e := ContentEvent(chapterNumber, section0.number, text);
      RelayAppendOne(chunks, ContentReady(text), InContent(chapterNumber, section0.number), section0.content);
      NonChunksAppend(Relay(chunks, InContent(chapterNumber, section0.number)), [e]);
      assert PhaseEvent(e, ContentStage);
      PhaseEventsAppend(Relay(chunks, InContent(chapterNumber, section0.number)), [e], ContentStage);
      assert [section][..0] == [];
    } else {
      assert stageEvents == chunks;
    }
  }

  lemma ContentEventsSnoc(n: int, sections: seq<Section>, j: nat)
    requires j < |sections|
    ensures ContentEvents(n, sections[..j + 1]) == ContentEvents(n, sections[..j]) + ContentEvents(n, [sections[j]])
  {
    assert sections[..j + 1][..j] == sections[..j];
    assert [sections[j]][..0] == [];
  }

  /** Section `section` holds the text the completed call `call` streamed, and every call
      from `lo` up to `call` failed. */
  predicate ContentFrom(src: seq<Attempt>, lo: nat, section: Section, call: nat)
  {
    lo <= call < |src| && src[call].Completed? && section.content == Concat(src[call].fragments)
    && forall j :: lo <= j < call ==> src[j].Failed?
  }

  /** What stage 3 establishes for one chapter on the calls from `start` on: section `k` got
      its content from call `calls[k]`, the first success after the call that filled
      section `k - 1`. */
  predicate ContentsFilled(src: seq<Attempt>, start: nat, sections: seq<Section>, calls: seq<nat>)
    decreases |calls|
  {
    |calls| == |sections|
    && (calls == []
        || (ContentsFilled(src, start, sections[..|sections| - 1], calls[..|calls| - 1])
            && ContentFrom(src, Next(start, calls[..|calls| - 1]), sections[|sections| - 1], calls[|calls| - 1])))
  }

  /** The call after the last one the chapters' calls used, or `start` when they used none. */
  function ChaptersEnd(start: nat, calls: seq<seq<nat>>): nat
    decreases |calls|
  {
    if calls == [] then start
    else Next(ChaptersEnd(start, calls[..|calls| - 1]), calls[|calls| - 1])
  }

  /** What stage 3 establishes for all chapters: each chapter's sections were filled, in
      order, from the calls after those the previous chapters used. */
  predicate ChaptersFilled(src: seq<Attempt>, start: nat, chapters: seq<Chapter>, calls: seq<seq<nat>>)
    decreases |calls|
  {
    |calls| == |chapters|
    && (calls == []
        || (ChaptersFilled(src, start, chapters[..|chapters| - 1], calls[..|calls| - 1])
            && ContentsFilled(src, ChaptersEnd(start, calls[..|calls| - 1]), chapters[|chapters| - 1].sections, calls[|calls| - 1])))
  }

  lemma ContentsFilledSnoc(src: seq<Attempt>, start: nat, sections: seq<Section>, calls: seq<nat>, section: Section, call: nat)
    requires ContentsFilled(src, start, sections, calls) && ContentFrom(src, Next(start, calls), section, call)
    ensures ContentsFilled(src, start, sections + [section], Snoc(calls, call))
    ensures Next(start, Snoc(calls, call)) == call + 1
  {
    var ss, ks := sections + [section], Snoc(calls, call);
    assert ss[..|ss| - 1] == sections && ss[|ss| - 1] == section;
    assert ks[..|ks| - 1] == calls && ks[|ks| - 1] == call;
  }

  lemma ChaptersFilledSnoc(src: seq<Attempt>, start: nat, chapters: seq<Chapter>, calls: seq<seq<nat>>, chapter: Chapter, call: seq<nat>)
    requires ChaptersFilled(src, start, chapters, calls)
    requires ContentsFilled(src, ChaptersEnd(start, calls), chapter.sections, call)
    ensures ChaptersFilled(src, start, chapters + [chapter], Snoc(calls, call))
    ensures ChaptersEnd(start, Snoc(calls, call)) == Next(ChaptersEnd(start, calls), call)
  {
    var cs, ks := chapters + [chapter], Snoc(calls, call);
    assert cs[..|cs| - 1] == chapters && cs[|cs| - 1] == chapter;
    assert ks[..|ks| - 1] == calls && ks[|ks| - 1] == call;
  }

  lemma {:induction false} ContentsFilledAt(src: seq<Attempt>, start: nat, sections: seq<Section>, calls: seq<nat>, k: nat)
    requires ContentsFilled(src, start, sections, calls) && k < |sections|
    ensures ContentFrom(src, Next(start, calls[..k]), sections[k], calls[k])
    decreases |calls|
  {
    var n := |sections| - 1;
    if k < n {
      ContentsFilledAt(src, start, sections[..n], calls[..n], k);
      assert calls[..n][..k] == calls[..k];
    }
  }

  /** The calls stage 3 used for one chapter start at `start` and strictly increase. */
  lemma ContentsFilledIncreasing(src: seq<Attempt>, start: nat, sections: seq<Section>, calls: seq<nat>)
    requires ContentsFilled(src, start, sections, calls)
    ensures calls != [] ==> start <= calls[0]
    ensures forall k :: 0 < k < |calls| ==> calls[k - 1] < calls[k]
  {
    if calls != [] {
      ContentsFilledAt(src, start, sections, calls, 0);
    }
    forall k | 0 < k < |calls|
      ensures calls[k - 1] < calls[k]
    {
      ContentsFilledAt(src, start, sections, calls, k);
      assert calls[..k][k - 1] == calls[k - 1];
    }
  }

  lemma {:induction false} ChaptersFilledAt(src: seq<Attempt>, start: nat, chapters: seq<Chapter>, calls: seq<seq<nat>>, i: nat)
    requires ChaptersFilled(src, start, chapters, calls) && i < |chapters|
    ensures |calls| == |chapters| && ContentsFilled(src, ChaptersEnd(start, calls[..i]), chapters[i].sections, calls[i])
    decreases |calls|
  {
    var n := |chapters| - 1;
    if i < n {
      ChaptersFilledAt(src, start, chapters[..n], calls[..n], i);
      assert calls[..n][..i] == calls[..i];
    }
  }

  /** Stage 3 for one section on the calls from `used` on: which call gave its content. */
  method FillSection(src: seq<Attempt>, used: nat, chapterNumber: int, section0: Section, count0: nat)
    returns (events: seq<Event>, section: Section, count: nat, next: nat, done: bool, ghost call: nat)
    requires used <= |src|
    ensures used <= next <= |src| && (!done ==> next == |src|)
    ensures section == section0.(content := section.content)
    ensures done ==> ContentFrom(src, used, section, call) && next == call + 1
    ensures PhaseEvents(events, ContentStage)
    ensures NonChunks(events) == if done then ContentEvents(chapterNumber, [section]) else []
    ensures count == count0 + ChunkCount(events)
    ensures CarriesChunks(events, src, used, next)
  {
    var u;
    events, section, count, u, done := ContentPhaseStep(src[used..], chapterNumber, section0, count0);
    next := used + u;
    call := used;
    if done {
      call := used + u - 1;
      FilledSectionFrom(src, used, u, true, chapterNumber, section0, section, events);
    } else {
      FilledSectionFrom(src, used, u, false, chapterNumber, section0, section, events);
    }
  }

  /** What one content stage run on the calls from `used` on says about `src` itself. */
  lemma FilledSectionFrom(src: seq<Attempt>, used: nat, u: nat, done: bool, n: int, section0: Section, section: Section, events: seq<Event>)
    requires used + u <= |src|
    requires done ==> (0 < u && src[used..][u - 1].Completed?)
    requires done ==> section.content == Concat(src[used..][u - 1].fragments)
    requires forall j :: 0 <= j < u && (j < u - 1 || !done) ==> src[used..][j].Failed?
    requires events == Relay(StreamChunks(src[used..][..u]), InContent(n, section0.number))
      + (if done then [ContentEvent(n, section.number, section.content)] else [])
    ensures done ==> ContentFrom(src, used, section, used + u - 1)
    ensures CarriesChunks(events, src, used, used + u)
  {
    if done {
      assert src[used + u - 1] == src[used..][u - 1];
      forall j | used <= j < used + u - 1
        ensures src[j].Failed?
      {
        assert src[j] == src[used..][j - used];
      }
    }
    var tail := if done then [ContentEvent(n, section.number, section.content)] else [];
    assert NonChunks(tail) == tail by {
      if done {
        assert tail[..0] == [];
      }
    }
    RelayedStageCarriesFrom(src, used, u, InContent(n, section0.number), tail);
  }

  /** One round of stage 3 inside a chapter: section `j` gets its content. */
  method SectionContentRound(src: seq<Attempt>, used: nat, chapter0: Chapter, j: nat, count0: nat,
                             ghost start: nat, ghost calls0: seq<nat>)
    returns (events: seq<Event>, chapter: Chapter, count: nat, next: nat, done: bool, ghost calls: seq<nat>)
    requires used <= |src| && j < |chapter0.sections|
    requires ContentsFilled(src, start, chapter0.sections[..j], calls0) && used == Next(start, calls0)
    ensures used <= next <= |src| && (!done ==> next == |src|)
    ensures chapter == chapter0.(sections := chapter.sections) && |chapter.sections| == |chapter0.sections|
    ensures chapter.sections == chapter0.sections[j := chapter.sections[j]]
    ensures chapter.sections[j] == chapter0.sections[j].(content := chapter.sections[j].content)
    ensures done ==> ContentsFilled(src, start, chapter.sections[..j + 1], calls) && next == Next(start, calls)
    ensures PhaseEvents(events, ContentStage)
    ensures done ==> (ContentEvents(chapter.number, chapter.sections[..j + 1])
      == ContentEvents(chapter.number, chapter0.sections[..j]) + NonChunks(events))
    ensures count == count0 + ChunkCount(events)
    ensures CarriesChunks(events, src, used, next)
  {
    var section;
    ghost var call;
    events, section, count, next, done, call := FillSection(src, used, chapter0.number, chapter0.sections[j], count0);
    chapter := chapter0.(sections := chapter0.sections[j := section]);
    assert chapter.sections[..j] == chapter0.sections[..j];
    calls := calls0;
    if done {
      ContentEventsSnoc(chapter.number, chapter.sections, j);
      assert chapter.sections[..j + 1] == chapter0.sections[..j] + [section];
      ContentsFilledSnoc(src, start, chapter0.sections[..j], calls0, section, call);
      calls := Snoc(calls0, call);
    }
  }

  /** Stage 3 for the sections of one chapter, in order. */
  method ContentForChapter(src: seq<Attempt>, start: nat, chapter0: Chapter, count0: nat)
    returns (events: seq<Event>, chapter: Chapter, count: nat, used: nat, done: bool, ghost calls: seq<nat>)
    requires start <= |src|
    ensures start <= used <= |src| && (!done ==> used == |src|)
    ensures chapter == chapter0.(sections := chapter.sections)
    ensures |chapter.sections| == |chapter0.sections|
    ensures forall j :: 0 <= j < |chapter.sections| ==>
      chapter.sections[j] == chapter0.sections[j].(content := chapter.sections[j].content)
    ensures count == count0 + ChunkCount(events)
    ensures PhaseEvents(events, ContentStage)
    ensures done ==> ContentsFilled(src, start, chapter.sections, calls) && used == Next(start, calls)
    ensures done ==> NonChunks(events) == ContentEvents(chapter.number, chapter.sections)
    ensures CarriesChunks(events, src, start, used)
  {
    events, chapter, count, used, done := [], chapter0, count0, start, true;
    calls := [];
    var j := 0;
    assert src[start..][..0] == [];
    while j < |chapter.sections| && done
      decreases |chapter0.sections| - j, if done then 1 else 0
      invariant j <= |chapter.sections| && start <= used <= |src| && (!done ==> used == |src|)
      invariant chapter == chapter0.(sections := chapter.sections)
      invariant |chapter.sections| == |chapter0.sections|
      invariant forall k :: 0 <= k < |chapter.sections| ==>
        chapter.sections[k] == chapter0.sections[k].(content := chapter.sections[k].content)
      invariant count == count0 + ChunkCount(events)
      invariant PhaseEvents(events, ContentStage)
      invariant done ==> ContentsFilled(src, start, chapter.sections[..j], calls) && used == Next(start, calls)
      invariant done ==> NonChunks(events) == ContentEvents(chapter.number, chapter.sections[..j])
      invariant CarriesChunks(events, src, start, used)
    {
      var evs, c, next;
      evs, chapter, c, next, done, calls := SectionContentRound(src, used, chapter, j, 0, start, calls);
      NonChunksAppend(events, evs);
      ChunkCountAppend(events, evs);
      PhaseEventsAppend(events, evs, ContentStage);
      CarriesAppend(events, evs, src, start, used, next);
      events, count, used := events + evs, count + c, next;
      if done {
        j := j + 1;
      }
    }
    if done {
      assert chapter.sections[..j] == chapter.sections;
    }
  }

  lemma AllContentEventsSnoc(chapters: seq<Chapter>, i: nat)
    requires i < |chapters|
    ensures AllContentEvents(chapters[..i + 1])
      == AllContentEvents(chapters[..i]) + ContentEvents(chapters[i].number, chapters[i].sections)
  {
    assert chapters[..i + 1][..i] == chapters[..i];
  }

  /** One round of stage 3 over chapters: chapter `i` gets the contents of its sections. */
  method ChapterContentRound(src: seq<Attempt>, used: nat, chapters0: seq<Chapter>, i: nat, count0: nat,
                             ghost start: nat, ghost calls0: seq<seq<nat>>)
    returns (events: seq<Event>, chapters: seq<Chapter>, count: nat, next: nat, done: bool, ghost calls: seq<seq<nat>>)
    requires used <= |src| && i < |chapters0|
    requires ChaptersFilled(src, start, chapters0[..i], calls0) && used == ChaptersEnd(start, calls0)
    ensures used <= next <= |src| && (!done ==> next == |src|)
    ensures |chapters| == |chapters0| && chapters == chapters0[i := chapters[i]]
    ensures chapters[i] == chapters0[i].(sections := chapters[i].sections)
    ensures |chapters[i].sections| == |chapters0[i].sections|
    ensures forall j :: 0 <= j < |chapters[i].sections| ==>
      chapters[i].sections[j] == chapters0[i].sections[j].(content := chapters[i].sections[j].content)
    ensures done ==> ChaptersFilled(src, start, chapters[..i + 1], calls) && next == ChaptersEnd(start, calls)
    ensures PhaseEvents(events, ContentStage)
    ensures done ==> AllContentEvents(chapters[..i + 1]) == AllContentEvents(chapters0[..i]) + NonChunks(events)
    ensures count == count0 + ChunkCount(events)
    ensures CarriesChunks(events, src, used, next)
  {
    var chapter;
    ghost var call;
    events, chapter, count, next, done, call := ContentForChapter(src, used, chapters0[i], count0);
    chapters := chapters0[i := chapter];
    assert chapters[..i] == chapters0[..i];
    calls := calls0;
    if done {
      AllContentEventsSnoc(chapters, i);
      assert chapters[..i + 1] == chapters0[..i] + [chapter];
      ChaptersFilledSnoc(src, start, chapters0[..i], calls0, chapter, call);
      calls := Snoc(calls0, call);
    }
  }

  /** Changing only the section contents of chapter `i` keeps the outline. */
  lemma SameOutlineUpdate(a: seq<Chapter>, b: seq<Chapter>, i: nat, x: Chapter)
    requires SameOutline(a, b) && i < |a|
    requires x == a[i].(sections := x.sections) && |x.sections| == |a[i].sections|
    requires forall j :: 0 <= j < |x.sections| ==> x.sections[j] == a[i].sections[j].(content := x.sections[j].content)
    ensures SameOutline(a[i := x], b)
  {
    var r := a[i := x];
    forall k, j | 0 <= k < |r| && 0 <= j < |r[k].sections|
      ensures r[k].sections[j] == b[k].sections[j].(content := r[k].sections[j].content)
    {
      if k == i {
        assert a[i].sections[j] == b[i].sections[j].(content := a[i].sections[j].content);
      }
    }
  }

  /** Stage 3 as process_message runs it: every section of every chapter in turn, with
      content_count counting the chunks, on the calls of `src` from `start` on. */
  method ContentPhase(src: seq<Attempt>, start: nat, chapters0: seq<Chapter>)
    returns (events: seq<Event>, chapters: seq<Chapter>, count: nat, used: nat, done: bool, ghost calls: seq<seq<nat>>)
    requires start <= |src|
    ensures start <= used <= |src| && (!done ==> used == |src|)
    ensures SameOutline(chapters, chapters0)
    ensures count == ChunkCount(events)
    ensures PhaseEvents(events, ContentStage)
    ensures done ==> ChaptersFilled(src, start, chapters, calls) && used == ChaptersEnd(start, calls)
    ensures done ==> NonChunks(events) == AllContentEvents(chapters)
    ensures CarriesChunks(events, src, start, used)
  {
    events, chapters, count, used, done := [], chapters0, 0, start, true;
    calls := [];
    var i := 0;
    assert src[start..][..0] == [];
    while i < |chapters| && done
      decreases |chapters0| - i, if done then 1 else 0
      invariant i <= |chapters| && start <= used <= |src| && (!done ==> used == |src|)
      invariant SameOutline(chapters, chapters0)
      invariant count == ChunkCount(events)
      invariant PhaseEvents(events, ContentStage)
      invariant done ==> ChaptersFilled(src, start, chapters[..i], calls) && used == ChaptersEnd(start, calls)
      invariant done ==> NonChunks(events) == AllContentEvents(chapters[..i])
      invariant CarriesChunks(events, src, start, used)
    {
      var evs, c, next;
      ghost var before := chapters;
      evs, chapters, c, next, done, calls := ChapterContentRound(src, used, chapters, i, count, start, calls);
      SameOutlineUpdate(before, chapters0, i, chapters[i]);
      NonChunksAppend(events, evs);
      ChunkCountAppend(events, evs);
      PhaseEventsAppend(events, evs, ContentStage);
      CarriesAppend(events, evs, src, start, used, next);
      events, count, used := events + evs, c, next;
      if done {
        i := i + 1;
      }
    }
    if done {
      assert chapters[..i] == chapters;
    }
  }
}

=== FILE: providers.dfy ===
/** The hosted-model clients and their configuration: which stored settings reach the
    configuration (`get_user_settings`), how `APIConfig` merges them over its defaults,
    the model name in use, the provider-name check, and for the DeepSeek, OpenAI and
    OpenRouter clients the request URL, the request payload and the handling of each
    line of the streamed response. The settings file is a parameter (None when it is
    missing or not valid JSON), as are `json.loads` and the HTTP exchange. */
module Providers {
  import opened Text
  import opened Json
  import opened LineStream

  const ProviderNames: seq<string> := ["ollama", "deepseek", "openai", "openrouter"]

  /** The providers configured through LLMProviderConfig records. */
  const HostedNames: seq<string> := ["deepseek", "openai", "openrouter"]

  predicate KnownProvider(name: string)
  {
    name in ProviderNames
  }

  // ---------------------------------------------------------------------------------
  // get_user_settings

  /** The keys copied out of the stored `global` entry. */
  predicate SettingsKey(k: string)
  {
    k in ProviderNames || k == "default_provider"
  }

  /** The settings get_user_settings returns: the provider entries and `default_provider`
      of the stored `global` dict, and nothing at all when the file is unreadable, its top
      level is not a dict, or `global` is not a dict (every such case raises inside the
      function's `try`, or finds no key). */
  function UserSettings(file: Option<Value>): (r: map<string, Value>)
    ensures forall k :: k in r ==> SettingsKey(k)
    ensures "providers" !in r
  {
    match file
    case None => map[]
    case Some(top) =>
      match GetOr(top, "global", Obj(map[]))
      case Some(Obj(g)) => map k | k in g && SettingsKey(k) :: g[k]
      case _ => map[]
  }

  /** get_user_settings: the copying loop over the four provider names, then
      `default_provider`; any exception gives the empty dict. */
  method ReadUserSettings(file: Option<Value>) returns (r: map<string, Value>)
    ensures r == UserSettings(file)
  {
    if file.None? {
      return map[];
    }
    var found := GetOr(file.value, "global", Obj(map[]));
    if found.None? {
      return map[];
    }
    var g := found.value;
    r := map[];
    var i := 0;
    while i < |ProviderNames|
      invariant 0 <= i <= |ProviderNames|
      invariant g.Obj? ==> r == map k | k in g.fields && k in ProviderNames[..i] :: g.fields[k]
      invariant !g.Obj? ==> r == map[]
    {
      var name := ProviderNames[i];
      var has := In(g, name);
      if has.None? {
        return map[];
      }
      if has.value {
        var v := Index(g, name);
        if v.None? {
          return map[];
        }
        r := r[name := v.value];
      }
      assert ProviderNames[..i + 1] == ProviderNames[..i] + [name];
      i := i + 1;
    }
    var has := In(g, "default_provider");
    if has.None? {
      return map[];
    }
    if has.value {
      var v := Index(g, "default_provider");
      if v.None? {
        return map[];
      }
      r := r["default_provider" := v.value];
    }
    assert ProviderNames[..i] == ProviderNames;
  }

  // ---------------------------------------------------------------------------------
  // APIConfig

  /** An LLMProviderConfig record. */
  datatype ProviderConfig = ProviderConfig(
    apiKey: string, provider: string, baseUrl: string, modelName: string,
    temperature: Value, maxTokens: Value)

  predicate StrField(fields: map<string, Value>, k: string)
  {
    k in fields && fields[k].Str?
  }

  /** LLMProviderConfig(**fields): the four text fields are required, temperature is a
      number (0.7 by default) and max_tokens an integer above -2 or null (1024 by default);
      other keys are ignored. None where the record is refused. */
  function Validate(fields: map<string, Value>): (r: Option<ProviderConfig>)
    ensures r.Some? ==> (StrField(fields, "api_key") && StrField(fields, "provider")
      && StrField(fields, "base_url") && StrField(fields, "model_name"))
    ensures r.Some? ==> (Str(r.value.apiKey) == fields["api_key"] && Str(r.value.provider) == fields["provider"]
      && Str(r.value.baseUrl) == fields["base_url"] && Str(r.value.modelName) == fields["model_name"])
    ensures r.Some? ==> r.value.maxTokens != Num(-1) || "max_tokens" in fields
  {
    if !(StrField(fields, "api_key") && StrField(fields, "provider")
         && StrField(fields, "base_url") && StrField(fields, "model_name")) then None
    else
      var temperature := if "temperature" in fields then fields["temperature"] else Float(7.0 / 10.0);
      var maxTokens := if "max_tokens" in fields then fields["max_tokens"] else Num(1024);
      if !(temperature.Num? || temperature.Float?) then None
      else if !(maxTokens.Null? || (maxTokens.Num? && maxTokens.n > -2)) then None
      else
        var t := if temperature.Num? then Float(temperature.n as real) else temperature;
        Some(ProviderConfig(fields["api_key"].s, fields["provider"].s, fields["base_url"].s,
                            fields["model_name"].s, t, maxTokens))
  }

  /** config.dict() */
  function ConfigDict(c: ProviderConfig): map<string, Value>
  {
    map["api_key" := Str(c.apiKey), "provider" := Str(c.provider), "base_url" := Str(c.baseUrl),
        "model_name" := Str(c.modelName), "temperature" := c.temperature, "max_tokens" := c.maxTokens]
  }

  const OllamaKeys: set<string> := {"base_url", "model_name", "temperature", "max_tokens"}

  const OllamaDefaults: map<string, Value> :=
    map["base_url" := Str("http://localhost:11434"), "model_name" := Str("deepseek-r1:8b"),
        "temperature" := Float(7.0 / 10.0), "max_tokens" := Num(1024)]

  function Pick(m: map<string, Value>, k: string, default: Value): Value
  {
    if k in m then m[k] else default
  }

  /** The stored ollama entry over the current ollama settings: each of the four fields is
      taken from the entry when it has it and kept otherwise. */
  function OllamaMerged(current: map<string, Value>, entry: map<string, Value>): (r: map<string, Value>)
    requires OllamaKeys <= current.Keys
    ensures r.Keys == current.Keys
  {
    current["base_url" := Pick(entry, "base_url", current["base_url"])]
           ["model_name" := Pick(entry, "model_name", current["model_name"])]
           ["temperature" := Pick(entry, "temperature", current["temperature"])]
           ["max_tokens" := Pick(entry, "max_tokens", current["max_tokens"])]
  }

  /** Merging the ollama entry changes only the four known fields, each to the entry's
      value when the entry has it; every other key, `models` included, keeps its value. */
  lemma OllamaMergedFields(current: map<string, Value>, entry: map<string, Value>)
    requires OllamaKeys <= current.Keys
    ensures OllamaMerged(current, entry).Keys == current.Keys
    ensures forall k :: k in current && k !in OllamaKeys ==> OllamaMerged(current, entry)[k] == current[k]
    ensures forall k :: k in OllamaKeys ==>
      OllamaMerged(current, entry)[k] == if k in entry then entry[k] else current[k]
  {
  }

  /** A stored entry for a hosted provider: a dict copy without `models`, with `provider`
      set to the provider's name and `api_key` defaulting to the empty string, then
      validated. Anything but a dict raises. */
  function HostedConfig(name: string, entry: Value): (r: Option<ProviderConfig>)
    ensures r.Some? ==> entry.Obj? && r.value.provider == name
    ensures r.Some? && "api_key" !in entry.fields ==> r.value.apiKey == ""
    ensures r.Some? && "api_key" in entry.fields ==> Str(r.value.apiKey) == entry.fields["api_key"]
  {
    match entry
    case Obj(fields) =>
      var f := (fields - {"models"})["provider" := Str(name)];
      Validate(if "api_key" in f then f else f["api_key" := Str("")])
    case _ => None
  }

  /** Whether APIConfig() gets through the entries of the named providers without
      raising. */
  predicate AcceptedUpTo(settings: map<string, Value>, names: seq<string>)
  {
    ("ollama" in names && "ollama" in settings ==> settings["ollama"].Obj?)
    && forall name :: name in HostedNames && name in names && name in settings ==> HostedConfig(name, settings[name]).Some?
  }

  predicate SettingsAccepted(settings: map<string, Value>)
  {
    AcceptedUpTo(settings, ProviderNames)
  }

  /** The hosted records once the entries of the named providers are applied. */
  function HostedUpTo(current: map<string, ProviderConfig>, settings: map<string, Value>, names: seq<string>)
    : map<string, ProviderConfig>
    requires AcceptedUpTo(settings, names)
  {
    map name | name in HostedNames && ((name in names && name in settings) || name in current) ::
      if name in names && name in settings then HostedConfig(name, settings[name]).value else current[name]
  }

  /** Every hosted record is rebuilt from its stored entry when there is one and kept
      otherwise; no other name gets a record. */
  lemma HostedAfterLoad(current: map<string, ProviderConfig>, settings: map<string, Value>, name: string)
    requires SettingsAccepted(settings)
    ensures name in HostedUpTo(current, settings, ProviderNames) <==> name in HostedNames && (name in settings || name in current)
    ensures name in HostedNames && name in settings ==>
      HostedUpTo(current, settings, ProviderNames)[name] == HostedConfig(name, settings[name]).value
    ensures name in HostedNames && name !in settings && name in current ==>
      HostedUpTo(current, settings, ProviderNames)[name] == current[name]
  {
    assert name in HostedNames ==> name in ProviderNames;
  }

  /** The part of APIConfig the provider entries change. */
  datatype Loaded = Loaded(ollama: map<string, Value>, hosted: map<string, ProviderConfig>)

  /** Applying one stored entry, as the loop body does; None where it raises. */
  function ApplyStep(st: Loaded, name: string, entry: Value): (r: Option<Loaded>)
    requires OllamaKeys <= st.ollama.Keys
    ensures r.Some? ==> OllamaKeys <= r.value.ollama.Keys
    ensures r.Some? <==> EntryAccepted(name, entry)
    ensures r.Some? && name == "ollama" ==> r.value.hosted == st.hosted
    ensures r.Some? && name != "ollama" ==> r.value.ollama == st.ollama
  {
    if name == "ollama" then
      if entry.Obj? then Some(st.(ollama := OllamaMerged(st.ollama, entry.fields))) else None
    else
      match HostedConfig(name, entry)
      case None => None
      case Some(c) => Some(st.(hosted := st.hosted[name := c]))
  }

  /** The entries of the named providers applied in order, stopping at the first that
      raises. */
  function ApplyAll(st: Loaded, settings: map<string, Value>, names: seq<string>): (r: Option<Loaded>)
    requires OllamaKeys <= st.ollama.Keys
    ensures r.Some? ==> OllamaKeys <= r.value.ollama.Keys
    ensures !("ollama" in names && "ollama" in settings) && r.Some? ==> r.value.ollama == st.ollama
    decreases |names|
  {
    if names == [] then Some(st)
    else if names[0] !in settings then ApplyAll(st, settings, names[1..])
    else match ApplyStep(st, names[0], settings[names[0]])
      case None => None
      case Some(next) => ApplyAll(next, settings, names[1..])
  }

  /** The entry a step applies is acceptable: a dict for ollama, a valid record for the
      hosted providers. */
  predicate EntryAccepted(name: string, entry: Value)
  {
    if name == "ollama" then entry.Obj? else HostedConfig(name, entry).Some?
  }

  lemma AcceptedCons(settings: map<string, Value>, names: seq<string>)
    requires names != [] && names[0] in ProviderNames
    ensures AcceptedUpTo(settings, names) <==>
      (names[0] in settings ==> EntryAccepted(names[0], settings[names[0]])) && AcceptedUpTo(settings, names[1..])
  {
    assert forall x :: x in names <==> x == names[0] || x in names[1..];
  }

  lemma HostedCons(current: map<string, ProviderConfig>, settings: map<string, Value>, names: seq<string>)
    requires names != [] && names[0] !in names[1..]
    requires AcceptedUpTo(settings, names) && AcceptedUpTo(settings, names[1..])
    ensures HostedUpTo(current, settings, names) ==
      HostedUpTo(if names[0] in HostedNames && names[0] in settings
                 then current[names[0] := HostedConfig(names[0], settings[names[0]]).value]
                 else current, settings, names[1..])
  {
    assert forall x :: x in names <==> x == names[0] || x in names[1..];
  }

  /** Applying the entries one by one succeeds exactly when every entry is acceptable, and
      then ollama's settings are merged with its entry and each hosted record is rebuilt
      from its entry, whatever the order of the (distinct) names. */
  lemma {:induction false} ApplyAllResult(st: Loaded, settings: map<string, Value>, names: seq<string>)
    requires OllamaKeys <= st.ollama.Keys
    requires forall k :: k in st.hosted ==> k in HostedNames
    requires forall j :: 0 <= j < |names| ==> names[j] in ProviderNames
    requires forall j, k :: 0 <= j < k < |names| ==> names[j] != names[k]
    ensures ApplyAll(st, settings, names).Some? <==> AcceptedUpTo(settings, names)
    ensures AcceptedUpTo(settings, names) ==> (ApplyAll(st, settings, names).value ==
      Loaded(if "ollama" in names && "ollama" in settings then OllamaMerged(st.ollama, settings["ollama"].fields) else st.ollama,
             HostedUpTo(st.hosted, settings, names)))
    decreases |names|
  {
    if names == [] {
      assert HostedUpTo(st.hosted, settings, names) == st.hosted;
    } else {
      var n, rest := names[0], names[1..];
      assert n in ProviderNames;
      assert n !in rest;
      assert "ollama" in names <==> n == "ollama" || "ollama" in rest;
      AcceptedCons(settings, names);
      var next := if n in settings && EntryAccepted(n, settings[n]) then ApplyStep(st, n, settings[n]).value else st;
      ApplyAllResult(next, settings, rest);
      if AcceptedUpTo(settings, names) {
        HostedCons(st.hosted, settings, names);
      }
    }
  }

  class ApiConfig {
    var defaultProvider: Value
    var ollama: map<string, Value>
    /** The hosted providers that have a record; the others are None. */
    var hosted: map<string, ProviderConfig>

    predicate Valid()
      reads this
    {
      OllamaKeys <= ollama.Keys && forall k :: k in hosted ==> k in HostedNames
    }

    function State(): Loaded
      reads this
    {
      Loaded(ollama, hosted)
    }

    /** The class defaults. */
    constructor ()
      ensures Valid()
      ensures defaultProvider == Str("ollama") && ollama == OllamaDefaults && hosted == map[]
    {
      defaultProvider := Str("ollama");
      ollama := OllamaDefaults;
      hosted := map[];
    }

    /** One provider's stored entry: a dict copy without `models`; for ollama the four
        fields are merged, for the others a record is built and stored. */
    method ApplyEntry(name: string, entry: Value) returns (ok: bool)
      requires Valid() && KnownProvider(name)
      modifies this
      ensures Valid() && defaultProvider == old(defaultProvider)
      ensures ok <==> ApplyStep(old(State()), name, entry).Some?
      ensures ok ==> State() == ApplyStep(old(State()), name, entry).value
    {
      if !entry.Obj? {
        return false;
      }
      var config := entry.fields - {"models"};
      if name == "ollama" {
        ollama := OllamaMerged(ollama, config);
        return true;
      }
      config := config["provider" := Str(name)];
      if "api_key" !in config {
        config := config["api_key" := Str("")];
      }
      var record := Validate(config);
      if record.None? {
        return false;
      }
      hosted := hosted[name := record.value];
      ok := true;
    }

    /** The rest of APIConfig.__init__: `default_provider` and the provider entries of
        the user settings, in the order ollama, deepseek, openai, openrouter. When `ok` is
        false an entry was refused and the constructor raises, so the object is never
        used. */
    method LoadUserSettings(settings: map<string, Value>) returns (ok: bool)
      requires Valid()
      modifies this
      ensures Valid()
      ensures ok <==> SettingsAccepted(settings)
      ensures ok ==> defaultProvider == Pick(settings, "default_provider", old(defaultProvider))
      ensures ok ==> ollama == if "ollama" in settings then OllamaMerged(old(ollama), settings["ollama"].fields) else old(ollama)
      ensures ok ==> hosted == HostedUpTo(old(hosted), settings, ProviderNames)
    {
      ApplyAllResult(State(), settings, ProviderNames);
      if settings == map[] {
        return true;
      }
      if "default_provider" in settings {
        defaultProvider := settings["default_provider"];
      }
      ok := ApplyEntries(settings);
    }

    /** The loop over the provider names, stopping at the first entry that raises. */
    method ApplyEntries(settings: map<string, Value>) returns (ok: bool)
      requires Valid()
      modifies this
      ensures Valid() && defaultProvider == old(defaultProvider)
      ensures ok <==> ApplyAll(old(State()), settings, ProviderNames).Some?
      ensures ok ==> State() == ApplyAll(old(State()), settings, ProviderNames).value
    {
      var i := 0;
      while i < |ProviderNames|
        invariant 0 <= i <= |ProviderNames|
        invariant Valid() && defaultProvider == old(defaultProvider)
        invariant ApplyAll(State(), settings, ProviderNames[i..]) == ApplyAll(old(State()), settings, ProviderNames)
      {
        var name := ProviderNames[i];
        assert ProviderNames[i..][1..] == ProviderNames[i + 1..];
        if name in settings {
          ok := ApplyEntry(name, settings[name]);
          if !ok {
            return;
          }
        }
        i := i + 1;
      }
      ok := true;
    }

    /** get_model_name: ollama's raw `model_name` value, whatever its type, or the model
        of the default provider's record, or None when that provider has no record. None
        as the outer result where Python raises (a default provider that names no
        provider). */
    function ModelName(): (r: Option<Option<Value>>)
      reads this
      requires Valid()
      ensures r.Some? <==> defaultProvider.Str? && KnownProvider(defaultProvider.s)
      ensures defaultProvider == Str("ollama") ==> r == Some(Some(ollama["model_name"]))
      ensures r.Some? && defaultProvider != Str("ollama") ==>
        (r.value.Some? <==> defaultProvider.s in hosted)
      ensures r.Some? && r.value.Some? && defaultProvider != Str("ollama") ==>
        r.value.value == Str(hosted[defaultProvider.s].modelName)
    {
      if defaultProvider == Str("ollama") then
        Some(Some(ollama["model_name"]))
      else if defaultProvider.Str? && defaultProvider.s in HostedNames then
        Some(if defaultProvider.s in hosted then Some(Str(hosted[defaultProvider.s].modelName)) else None)
      else None
    }

    /** update_provider_config: an unknown name raises and changes nothing; ollama's
        settings are updated key by key; a hosted provider gets a new record built from
        `config` with `provider` set (a refused record raises and changes nothing). */
    method UpdateProviderConfig(name: string, config: map<string, Value>) returns (ok: bool)
      requires Valid()
      modifies this
      ensures Valid()
      ensures !KnownProvider(name) ==> !ok
      ensures !ok ==> unchanged(this)
      ensures ok && name == "ollama" ==> ollama == old(ollama) + config && hosted == old(hosted)
      ensures name != "ollama" ==> ollama == old(ollama)
      ensures name != "ollama" && KnownProvider(name) ==>
        (ok <==> Validate(config["provider" := Str(name)]).Some?)
        && (ok ==> hosted == old(hosted)[name := Validate(config["provider" := Str(name)]).value])
      ensures defaultProvider == old(defaultProvider)
    {
      if !KnownProvider(name) {
        return false;
      }
      if name == "ollama" {
        ollama := ollama + config;
        return true;
      }
      var record := Validate(config["provider" := Str(name)]);
      if record.None? {
        return false;
      }
      hosted := hosted[name := record.value];
      ok := true;
    }

    /** get_provider_config: an unknown name raises (None); a provider entry under
        `providers` in the user settings would win, then ollama's settings, then the
        hosted provider's record as a dict, or null when it has none. */
    function ProviderConfigOf(name: string, file: Option<Value>): (r: Option<Value>)
      reads this
      requires Valid()
      ensures r.None? <==> !KnownProvider(name)
    {
      if !KnownProvider(name) then None
      else
        var settings := UserSettings(file);
        var stored := Pick(settings, "providers", Obj(map[]));
        if In(stored, name) == Some(true) && Index(stored, name).Some? then Index(stored, name)
        else if name == "ollama" then Some(Obj(ollama))
        else if name in hosted then Some(Obj(ConfigDict(hosted[name])))
        else Some(Null)
    }

    /** The user-settings branch of get_provider_config never applies: the settings it
        reads never hold a `providers` key, so the result is always the configuration
        held in memory. */
    lemma ProviderConfigFromMemory(name: string, file: Option<Value>)
      requires Valid() && KnownProvider(name)
      ensures ProviderConfigOf(name, file) ==
        Some(if name == "ollama" then Obj(ollama)
             else if name in hosted then Obj(ConfigDict(hosted[name]))
             else Null)
    {
      assert "providers" !in UserSettings(file);
    }
  }

  // ---------------------------------------------------------------------------------
  // The hosted-model client (BaseLLM and its subclasses)

  datatype LlmKind = DeepSeekLlm | OpenAILlm | OpenRouterLlm

  /** The endpoint: OpenAI's responses API, the chat-completions API for the others. */
  function RequestUrl(kind: LlmKind, baseUrl: string): (r: string)
    ensures StartsWith(r, baseUrl)
    ensures kind == OpenAILlm <==> r == baseUrl + "/responses"
    ensures kind != OpenAILlm <==> r == baseUrl + "/chat/completions"
  {
    var r := baseUrl + (if kind == OpenAILlm then "/responses" else "/chat/completions");
    assert r[..|baseUrl|] == baseUrl;
    assert "/responses" != "/chat/completions" by {
      assert "/responses"[1] != "/chat/completions"[1];
    }
    r
  }

  /** _get_payload */
  function Payload(kind: LlmKind, modelName: string, temperature: Value, maxTokens: Value, prompt: string)
    : (r: map<string, Value>)
    ensures "model" in r && r["model"] == Str(modelName)
    ensures "temperature" in r && r["temperature"] == temperature
    ensures kind == OpenAILlm ==> "input" in r && r["input"] == Str(prompt) && "messages" !in r && "stream" !in r
    ensures kind != OpenAILlm ==> ("input" !in r && "stream" in r && r["stream"] == Bool(true)
      && "messages" in r && r["messages"] == Arr([Obj(map["role" := Str("user"), "content" := Str(prompt)])]))
    ensures "max_tokens" in r <==> maxTokens != Num(-1)
    ensures "max_tokens" in r ==> r["max_tokens"] == maxTokens
  {
    var base :=
      if kind == OpenAILlm then
        map["model" := Str(modelName), "input" := Str(prompt), "temperature" := temperature]
      else
        map["model" := Str(modelName),
            "messages" := Arr([Obj(map["role" := Str("user"), "content" := Str(prompt)])]),
            "stream" := Bool(true), "temperature" := temperature];
    if maxTokens != Num(-1) then base["max_tokens" := maxTokens] else base
  }

  /** `c[0]` for a value whose length is positive: a list's first element, a string's
      first character; a dict raises KeyError (its keys are strings). */
  function First(c: Value): Option<Value>
  {
    match c
    case Arr(items) => if items != [] then Some(items[0]) else None
    case Str(s) => if s != [] then Some(Str([s[0]])) else None
    case _ => None
  }

  /** `data["choices"][0].get("delta", {}).get("content")` when `choices` is present and
      non-empty: a truthy content is yielded. */
  function ChoicesLine(data: Value): (r: LineOutcome)
    ensures r.Yield? ==> Truthy(r.value)
    ensures !r.Stop?
  {
    if In(data, "choices") != Some(true) then Skip
    else match Index(data, "choices")
      case None => Raise
      case Some(c) =>
        match Len(c)
        case None => Raise
        case Some(n) =>
          if n == 0 then Skip
          else match First(c)
            case None => Raise
            case Some(item) =>
              match GetOr(item, "delta", Obj(map[]))
              case None => Raise
              case Some(delta) =>
                match GetOr(delta, "content", Null)
                case None => Raise
                case Some(content) => if Truthy(content) then Yield(content) else Skip
  }

  /** The text of a line once a leading `data: ` is removed. */
  function Unprefixed(raw: string): string
  {
    if StartsWith(raw, "data: ") then raw[6..] else raw
  }

  /** What one line of the response does to the call. */
  function ProviderLine(kind: LlmKind, loads: string -> Option<Value>, raw: string): (r: LineOutcome)
    ensures raw == "" ==> r == Skip
    ensures raw != "" ==> (r.Stop? <==> Unprefixed(raw) == "[DONE]")
    ensures r.Yield? ==> (loads(Unprefixed(raw)).Some? && loads(Unprefixed(raw)).value.Obj?
      && "error" !in loads(Unprefixed(raw)).value.fields)
    ensures r.Yield? && kind == OpenAILlm ==>
      "text" in loads(Unprefixed(raw)).value.fields && r.value == loads(Unprefixed(raw)).value.fields["text"]
    ensures r.Yield? && kind != OpenAILlm ==> Truthy(r.value)
    ensures (raw != "" && Unprefixed(raw) != "[DONE]" && loads(Unprefixed(raw)).Some?
      && loads(Unprefixed(raw)).value.Obj? && "error" in loads(Unprefixed(raw)).value.fields) ==> r == Raise
  {
    if raw == "" then Skip
    else
      var text := Unprefixed(raw);
      if text == "[DONE]" then Stop
      else match loads(text)
        case None => Skip
        case Some(data) =>
          match In(data, "error")
          case None => Raise
          case Some(true) => Raise
          case Some(false) =>
            if kind == OpenAILlm then
              if In(data, "text") != Some(true) then Skip
              else match Index(data, "text")
                case None => Raise
                case Some(v) => Yield(v)
            else ChoicesLine(data)
  }

  /** A `data: ` prefix is dropped before the line is read. */
  lemma DataPrefixDropped(kind: LlmKind, loads: string -> Option<Value>, text: string)
    requires text != "" && !StartsWith(text, "data: ")
    ensures ProviderLine(kind, loads, "data: " + text) == ProviderLine(kind, loads, text)
  {
    var raw := "data: " + text;
    assert raw[..6] == "data: ";
    assert raw[6..] == text;
  }

  function ProviderOutcomes(kind: LlmKind, loads: string -> Option<Value>, lines: seq<string>): (r: seq<LineOutcome>)
    ensures |r| == |lines|
  {
    seq(|lines|, i requires 0 <= i < |lines| => ProviderLine(kind, loads, lines[i]))
  }

  /** BaseLLM._call after the request: a status other than 200 raises; otherwise the lines
      are read in order until one raises or is `[DONE]`. */
  method Generate(kind: LlmKind, status: int, lines: seq<string>, loads: string -> Option<Value>)
    returns (yielded: seq<Value>, raised: bool)
    ensures status != 200 ==> yielded == [] && raised
    ensures status == 200 ==> exists stopped :: Progress(yielded, raised, stopped) == Consume(ProviderOutcomes(kind, loads, lines))
  {
    if status != 200 {
      return [], true;
    }
    ghost var outcomes := ProviderOutcomes(kind, loads, lines);
    yielded, raised := [], false;
    var stopped := false;
    var i := 0;
    while i < |lines| && !raised && !stopped
      invariant 0 <= i <= |lines|
      invariant Progress(yielded, raised, stopped) == Consume(outcomes[..i])
    {
      ConsumeSnoc(outcomes, i);
      assert outcomes[i] == ProviderLine(kind, loads, lines[i]);
      var line := lines[i];
      if line != "" {
        var text := line;
        if StartsWith(text, "data: ") {
          text := text[6..];
        }
        if text == "[DONE]" {
          stopped := true;
        } else {
          var parsed := loads(text);
          if parsed.Some? {
            var data := parsed.value;
            var hasError := In(data, "error");
            if hasError != Some(false) {
              raised := true;
            } else if kind == OpenAILlm {
              if In(data, "text") == Some(true) {
                var v := Index(data, "text");
                if v.None? {
                  raised := true;
                } else {
                  yielded := yielded + [v.value];
                }
              }
            } else {
              match ChoicesLine(data)
              case Yield(content) =>
                yielded := yielded + [content];
              case Raise =>
                raised := true;
              case _ =>
            }
          }
        }
      }
      i := i + 1;
    }
    if raised || stopped {
      ConsumeSettled(outcomes, i);
    } else {
      assert outcomes[..i] == outcomes;
    }
  }

  /** A call yields the values of the lines before the first line that raises or is
      `[DONE]`, and raises exactly when such a first line raises; lines after `[DONE]` are
      never read. */
  lemma GenerateReference(kind: LlmKind, loads: string -> Option<Value>, lines: seq<string>, k: nat)
    requires k < |lines| && ProviderLine(kind, loads, lines[k]).Stop?
    requires forall i :: 0 <= i < k ==> !Ends(ProviderLine(kind, loads, lines[i]))
    ensures Consume(ProviderOutcomes(kind, loads, lines)).stopped
    ensures Consume(ProviderOutcomes(kind, loads, lines)).yielded == Values(ProviderOutcomes(kind, loads, lines[..k]))
    ensures !Consume(ProviderOutcomes(kind, loads, lines)).raised
  {
    var os := ProviderOutcomes(kind, loads, lines);
    var pre := ProviderOutcomes(kind, loads, lines[..k]);
    assert os[..k] == pre;
    forall i | 0 <= i < |pre|
      ensures !Ends(pre[i])
    {
      assert pre[i] == ProviderLine(kind, loads, lines[i]);
    }
    NoEndYieldsAll(pre);
    ConsumeSnoc(os, k);
    assert os[k] == ProviderLine(kind, loads, lines[k]);
    ConsumeSettled(os, k + 1);
  }
}

=== FILE: settings.dfy ===
/** The settings store of the backend: one JSON file holding a `global` entry and one
    entry per user. The file is a field of the manager: missing, not valid JSON, not
    valid UTF-8, present but impossible to open (a directory, no permission), or a parsed
    value (which need not be a dict: whatever the file holds is loaded). None stands
    for an exception that escapes the operation. */
module Settings {
  import opened Text
  import opened Json

  const Defaults: map<string, Value> :=
    map["default_provider" := Str("openai"), "theme" := Str("light"), "language" := Str("zh-CN")]

  /** `Undecodable` and `Unopenable` raise errors (UnicodeDecodeError, PermissionError,
      IsADirectoryError) that the store's `except (FileNotFoundError, JSONDecodeError)`
      does not catch. */
  datatype SettingsFile = Missing | Corrupt | Undecodable | Unopenable | Stored(data: Value)

  predicate Raises(file: SettingsFile)
  {
    file.Undecodable? || file.Unopenable?
  }

  /** load_user_settings(default): the parsed file, or the default when the file is
      missing or not valid JSON; None where reading it raises. */
  function LoadAll(file: SettingsFile, default: Value): (r: Option<Value>)
    ensures r.None? <==> Raises(file)
    ensures file.Stored? ==> r == Some(file.data)
    ensures file.Missing? || file.Corrupt? ==> r == Some(default)
  {
    match file
    case Stored(data) => Some(data)
    case Missing => Some(default)
    case Corrupt => Some(default)
    case _ => None
  }

  /** The top level update_settings and get_merged_settings work on: it must load and be
      a dict. */
  predicate TopIsDict(file: SettingsFile)
  {
    LoadAll(file, Obj(map[])).Some? && LoadAll(file, Obj(map[])).value.Obj?
  }

  function Top(file: SettingsFile): map<string, Value>
    requires TopIsDict(file)
  {
    LoadAll(file, Obj(map[])).value.fields
  }

  /** load_global_settings: the stored `global` entry, the defaults when there is none or
      the file is missing or not JSON; a top level that is not a dict raises, and so does
      a file that cannot be opened or decoded. */
  function LoadGlobal(file: SettingsFile): (r: Option<Value>)
    ensures r.None? <==> (file.Stored? && !file.data.Obj?) || Raises(file)
    ensures r.Some? && file.Stored? && "global" in file.data.fields ==> r.value == file.data.fields["global"]
    ensures r.Some? && !(file.Stored? && "global" in file.data.fields) ==> r.value == Obj(Defaults)
  {
    match file
    case Stored(settings) => GetOr(settings, "global", Obj(Defaults))
    case Missing => Some(Obj(Defaults))
    case Corrupt => Some(Obj(Defaults))
    case _ => None
  }

  /** The entry update_settings starts from: the stored global (or the defaults), or the
      stored user entry (or an empty one). */
  function StartingEntry(all: map<string, Value>, user: string): (r: Value)
    ensures user in all ==> r == all[user]
    ensures user !in all && user == "global" ==> r == Obj(Defaults)
    ensures user !in all && user != "global" ==> r == Obj(map[])
  {
    if user == "global" then (if "global" in all then all["global"] else Obj(Defaults))
    else if user in all then all[user] else Obj(map[])
  }

  /** update_settings(user, preferences): the new top level and the entry returned. The
      entry must be a dict (`update`), and so must the top level. */
  function Update(file: SettingsFile, user: string, preferences: map<string, Value>)
    : (r: Option<(map<string, Value>, Value)>)
    ensures r.Some? <==> TopIsDict(file) && StartingEntry(Top(file), user).Obj?
  {
    match LoadAll(file, Obj(map[]))
    case Some(Obj(all)) =>
      var current := StartingEntry(all, user);
      if current.Obj? then
        var entry := Obj(Overlay(current.fields, preferences));
        Some((all[user := entry], entry))
      else None
    case _ => None
  }

  /** get_merged_settings(user): for `global` the stored global (or the defaults); for a
      user, the global entry overlaid with the user's entry, both of which must be dicts. */
  function Merged(file: SettingsFile, user: string): (r: Option<Value>)
    ensures user == "global" ==> r == LoadGlobal(file)
    ensures r.Some? ==> user == "global" || r.value.Obj?
    ensures Raises(file) ==> r.None?
    ensures r.Some? && user != "global" ==> TopIsDict(file)
  {
    match LoadAll(file, Obj(map[]))
    case Some(Obj(all)) =>
      var global := if "global" in all then all["global"] else Obj(Defaults);
      if user == "global" then Some(global)
      else
        var own := if user in all then all[user] else Obj(map[]);
        if global.Obj? && own.Obj? then Some(Obj(global.fields + own.fields)) else None
    case _ => None
  }

  class SettingsManager {
    var file: SettingsFile

    /** A missing file is created holding the defaults as `global`; an existing one is
        left as it is. */
    constructor (existing: SettingsFile)
      ensures file == if existing.Missing? then Stored(Obj(map["global" := Obj(Defaults)])) else existing
    {
      if existing.Missing? {
        file := Stored(Obj(map["global" := Obj(Defaults)]));
      } else {
        file := existing;
      }
    }

    /** save_global_settings: `global` replaced by `settings` as a whole; a top level that
        is not a dict raises before anything is written. */
    method SaveGlobalSettings(settings: Value) returns (ok: bool)
      modifies this
      ensures ok <==> TopIsDict(old(file))
      ensures ok ==> file == Stored(Obj(Top(old(file))["global" := settings]))
      ensures !ok ==> file == old(file)
    {
      var current := LoadAll(file, Obj(map[]));
      if current.None? || !current.value.Obj? {
        return false;
      }
      file := Stored(Obj(current.value.fields["global" := settings]));
      ok := true;
    }

    /** update_settings: None where it raises, and then the file is unchanged. */
    method UpdateSettings(user: string, preferences: map<string, Value>) returns (r: Option<Value>)
      modifies this
      ensures r.Some? <==> Update(old(file), user, preferences).Some?
      ensures r.Some? ==> (r.value == Update(old(file), user, preferences).value.1
        && file == Stored(Obj(Update(old(file), user, preferences).value.0)))
      ensures r.None? ==> file == old(file)
    {
      var loaded := LoadAll(file, Obj(map[]));
      if loaded.None? || !loaded.value.Obj? {
        return None;
      }
      var all := loaded.value.fields;
      if user == "global" {
        var current := if "global" in all then all["global"] else Obj(Defaults);
        if !current.Obj? {
          return None;
        }
        all := all["global" := Obj(current.fields + preferences)];
      } else {
        ghost var before := all;
        if user !in all {
          all := all[user := Obj(map[])];
        }
        if !all[user].Obj? {
          return None;
        }
        var entry := Obj(all[user].fields + preferences);
        all := all[user := entry];
        assert all == before[user := entry];
      }
      file := Stored(Obj(all));
      r := Some(all[user]);
    }
  }

  // ---------------------------------------------------------------------------------
  // What the store promises

  /** A new store over a missing file gives the defaults as its global settings. */
  lemma FreshStoreDefaults()
    ensures LoadGlobal(Stored(Obj(map["global" := Obj(Defaults)]))) == Some(Obj(Defaults))
  {
  }

  /** Global settings read back after save_global_settings are the ones saved. */
  lemma SaveThenLoadGlobal(all: map<string, Value>, settings: Value)
    ensures LoadGlobal(Stored(Obj(all["global" := settings]))) == Some(settings)
  {
  }

  /** An update changes only the updated entry: it becomes the starting entry overlaid
      with the preferences, and every other top-level entry is kept. */
  lemma UpdateEffect(file: SettingsFile, user: string, preferences: map<string, Value>, other: string, k: string)
    requires Update(file, user, preferences).Some?
    ensures var (all, entry) := Update(file, user, preferences).value;
      var before := Top(file);
      all[user] == entry && entry.Obj?
      && (k in preferences ==> k in entry.fields && entry.fields[k] == preferences[k])
      && (k !in preferences ==> (k in entry.fields <==> k in StartingEntry(before, user).fields))
      && (k !in preferences && k in entry.fields ==> entry.fields[k] == StartingEntry(before, user).fields[k])
      && (other != user ==> (other in all <==> other in before))
      && (other != user && other in before ==> all[other] == before[other])
  {
  }

  /** Applying the same preferences twice stores the same as applying them once. */
  lemma UpdateIdempotent(file: SettingsFile, user: string, preferences: map<string, Value>)
    requires Update(file, user, preferences).Some?
    ensures var once := Stored(Obj(Update(file, user, preferences).value.0));
      Update(once, user, preferences).Some?
      && Update(once, user, preferences).value == Update(file, user, preferences).value
  {
    var (all, entry) := Update(file, user, preferences).value;
    var once := Stored(Obj(all));
    assert StartingEntry(all, user) == entry;
    assert Overlay(entry.fields, preferences) == entry.fields;
    assert all[user := entry] == all;
  }

  /** In the merged settings of a user, each of the user's own keys has the user's value
      and every other key has the global value. */
  lemma MergedUserWins(file: SettingsFile, user: string, k: string)
    requires user != "global" && Merged(file, user).Some?
    ensures var all := Top(file);
      var global := if "global" in all then all["global"] else Obj(Defaults);
      var own := if user in all then all[user] else Obj(map[]);
      (k in own.fields ==> Merged(file, user).value.fields[k] == own.fields[k])
      && (k !in own.fields ==> (k in Merged(file, user).value.fields <==> k in global.fields))
      && (k !in own.fields && k in global.fields ==> Merged(file, user).value.fields[k] == global.fields[k])
  {
  }

  /** After an update, the merged settings of that user show the preferences just
      applied; for `global` they always can be read. */
  lemma MergedAfterUpdate(file: SettingsFile, user: string, preferences: map<string, Value>, k: string)
    requires Update(file, user, preferences).Some?
    requires k in preferences
    ensures var after := Stored(Obj(Update(file, user, preferences).value.0));
      (user == "global" ==> Merged(after, user).Some?)
      && (Merged(after, user).Some? ==> (Merged(after, user).value.Obj?
          && Merged(after, user).value.fields[k] == preferences[k]))
  {
    var (all, entry) := Update(file, user, preferences).value;
    assert all[user] == entry;
  }

  /** The merge of a user's settings needs the global entry to be a dict; a user with no
      entry of their own gets exactly the global settings. */
  lemma MergedWithoutOwnEntry(file: SettingsFile, user: string)
    requires user != "global" && file.Stored? && file.data.Obj? && user !in file.data.fields
    ensures Merged(file, user).Some? <==> LoadGlobal(file).value.Obj?
    ensures Merged(file, user).Some? ==> Merged(file, user) == LoadGlobal(file)
  {
    var global := LoadGlobal(file).value;
    if global.Obj? {
      assert global.fields + map[] == global.fields;
    }
  }
}

=== FILE: simulation.dfy ===
/** The simulation builder: one model call whose fragments are joined, the fenced `html`
    block taken out of the text, and the code accepted only if it passes a substring
    check for the structure a canvas simulation needs. Every exception on the way comes
    out as a single ValueError, which is `None` here. */
module Simulation {
  import opened Text
  import opened Json
  import opened Stages

  // ---------------------------------------------------------------------------------
  // Finding a substring

  /** `sub` occurs in `s` starting at index `k`. */
  predicate OccursAt(s: string, sub: string, k: nat)
  {
    k + |sub| <= |s| && s[k..k + |sub|] == sub
  }

  /** The first index at or after `from` where `sub` occurs. */
  function FindFrom(s: string, sub: string, from: nat): (r: Option<nat>)
    ensures r.Some? ==> from <= r.value && OccursAt(s, sub, r.value)
    ensures forall k :: from <= k && (r.None? || k < r.value) ==> !OccursAt(s, sub, k)
    decreases |s| - from
  {
    if from + |sub| > |s| then None
    else if s[from..from + |sub|] == sub then Some(from)
    else FindFrom(s, sub, from + 1)
  }

  /** An occurrence anywhere makes `sub in s` true. */
  lemma {:induction false} OccursContains(s: string, sub: string, k: nat)
    requires OccursAt(s, sub, k)
    ensures Contains(s, sub)
    decreases k
  {
    if k == 0 {
      assert s[..|sub|] == s[0..|sub|];
    } else {
      assert s[1..][k - 1..k - 1 + |sub|] == s[k..k + |sub|];
      OccursContains(s[1..], sub, k - 1);
    }
  }

  // ---------------------------------------------------------------------------------
  // _extract_code_block

  /** The opening and closing delimiters of the regular expression: "```{language}\n" and
      "\n```" when a language is given, plain "```" on both sides otherwise. The language
      is taken literally. */
  datatype Fence = Fence(open: string, close: string)

  function FenceFor(language: Option<string>): (f: Fence)
    ensures f.open != [] && f.close != []
  {
    if language.Some? && language.value != "" then Fence("```" + language.value + "\n", "\n```")
    else Fence("```", "```")
  }

  /** A match of the pattern: an opening at `i` and a closing at `j`, the lazy group
      `text[i + |open| .. j]` between them. */
  predicate MatchAt(text: string, f: Fence, i: nat, j: nat)
  {
    OccursAt(text, f.open, i) && i + |f.open| <= j && OccursAt(text, f.close, j)
  }

  /** re.search: the first opening, and the first closing after it. */
  function BlockSpan(text: string, f: Fence): (r: Option<(nat, nat)>)
    ensures r.Some? ==> MatchAt(text, f, r.value.0, r.value.1)
  {
    match FindFrom(text, f.open, 0)
    case None => None
    case Some(i) =>
      match FindFrom(text, f.close, i + |f.open|)
      case None => None
      case Some(j) => Some((i, j))
  }

  /** The stripped body of the block, or the text itself when there is no block. */
  function ExtractCodeBlock(text: string, language: Option<string>): (r: string)
    ensures |r| <= |text|
    ensures BlockSpan(text, FenceFor(language)).None? ==> r == text
  {
    var f := FenceFor(language);
    var span := BlockSpan(text, f);
    if span.Some? then Strip(text[span.value.0 + |f.open|..span.value.1]) else text
  }

  /** The span found is the one re.search reports for the lazy pattern: there is a match
      exactly when some opening is followed by a closing; the match found starts at the
      leftmost start of any match, and from there ends at the nearest closing. */
  lemma BlockSpanIsLeftmostShortest(text: string, f: Fence)
    ensures BlockSpan(text, f).None? <==> (forall i, j :: !MatchAt(text, f, i, j))
    ensures BlockSpan(text, f).Some? ==>
      (forall i, j :: MatchAt(text, f, i, j) ==> BlockSpan(text, f).value.0 <= i)
      && (forall j :: MatchAt(text, f, BlockSpan(text, f).value.0, j) ==> BlockSpan(text, f).value.1 <= j)
  {
  }

  /** A text without the opening delimiter comes back unchanged. */
  lemma NoOpeningUnchanged(text: string, language: Option<string>)
    requires !Contains(text, FenceFor(language).open)
    ensures ExtractCodeBlock(text, language) == text
  {
    var f := FenceFor(language);
    var first := FindFrom(text, f.open, 0);
    if first.Some? {
      OccursContains(text, f.open, first.value);
    }
  }

  /** A text that is exactly one fenced block gives its stripped body. */
  lemma SingleBlockExtracted(body: string)
    requires '`' !in body
    ensures ExtractCodeBlock("```" + body + "```", None) == Strip(body)
  {
    var text := "```" + body + "```";
    var j := |body| + 3;
    assert OccursAt(text, "```", 0);
    assert OccursAt(text, "```", j);
    forall k | 3 <= k < j
      ensures !OccursAt(text, "```", k)
    {
      BodyHasNoFence(body, k);
    }
    assert FindFrom(text, "```", 3) == Some(j);
    assert text[3..j] == body;
  }

  lemma BodyHasNoFence(body: string, k: nat)
    requires '`' !in body && 3 <= k < |body| + 3
    ensures !OccursAt("```" + body + "```", "```", k)
  {
    var text := "```" + body + "```";
    assert text[k] == body[k - 3];
    assert text[k..k + 3][0] == text[k];
  }

  // ---------------------------------------------------------------------------------
  // _validate_code

  const HtmlMarkers: seq<string> :=
    ["<!DOCTYPE html>", "<html", "<head", "<meta charset", "<title", "<body"]
  const CanvasMarkers: seq<string> := ["<canvas", "getContext('2d')", "canvas.width", "canvas.height"]
  const JsMarkers: seq<string> := ["function", "addEventListener", "requestAnimationFrame", "const", "let"]
  const EventMarkers: seq<string> := ["click", "mousemove", "mousedown", "mouseup"]
  const ErrorPatterns: seq<string> := ["document.write(", "eval(", "innerHTML ="]

  predicate ContainsAll(code: string, markers: seq<string>)
  {
    forall i :: 0 <= i < |markers| ==> Contains(code, markers[i])
  }

  predicate ContainsAny(code: string, markers: seq<string>)
  {
    exists i :: 0 <= i < |markers| && Contains(code, markers[i])
  }

  /** The code passes when it has every HTML, canvas and JavaScript marker, at least one
      event name, and none of the forbidden patterns. */
  predicate ValidateCode(code: string)
  {
    ContainsAll(code, HtmlMarkers) && ContainsAll(code, CanvasMarkers) && ContainsAll(code, JsMarkers)
    && ContainsAny(code, EventMarkers) && !ContainsAny(code, ErrorPatterns)
  }

  /** A forbidden pattern anywhere in the code makes it fail, whatever else it holds. */
  lemma ForbiddenFails(before: string, i: nat, after: string)
    requires i < |ErrorPatterns|
    ensures !ValidateCode(before + ErrorPatterns[i] + after)
  {
    ContainsInfix(before, ErrorPatterns[i], after);
  }

  /** Code that passes has every required marker and an event name. */
  lemma ValidHasMarkers(code: string, m: string)
    requires ValidateCode(code)
    requires m in HtmlMarkers + CanvasMarkers + JsMarkers
    ensures Contains(code, m)
    ensures Contains(code, "click") || Contains(code, "mousemove") || Contains(code, "mousedown")
      || Contains(code, "mouseup")
  {
    var all := HtmlMarkers + CanvasMarkers + JsMarkers;
    var k :| 0 <= k < |all| && all[k] == m;
    if k < 6 {
      assert HtmlMarkers[k] == m;
    } else if k < 10 {
      assert CanvasMarkers[k - 6] == m;
    } else {
      assert JsMarkers[k - 10] == m;
    }
    var e :| 0 <= e < |EventMarkers| && Contains(code, EventMarkers[e]);
  }

  // ---------------------------------------------------------------------------------
  // create_simulation

  /** `SimulationEnvironment`; `parameters` is always empty. */
  datatype Environment = Environment(id: string, title: string, description: string, code: string,
                                     parameters: map<string, Value>)

  /** `replace(' ', '_')` */
  function SpacesToUnderscores(s: string): (r: string)
    ensures |r| == |s| && ' ' !in r
    ensures forall i :: 0 <= i < |s| ==> r[i] == if s[i] == ' ' then '_' else s[i]
  {
    if s == [] then ""
    else [if s[0] == ' ' then '_' else s[0]] + SpacesToUnderscores(s[1..])
  }

  /** The environment id: `sim_` and the lowercased topic with spaces as underscores. */
  function SimulationId(topic: string): (id: string)
    ensures |id| == |topic| + 4 && StartsWith(id, "sim_")
    ensures ' ' !in id
  {
    assert ("sim_" + SpacesToUnderscores(Lower(topic)))[..4] == "sim_";
    "sim_" + SpacesToUnderscores(Lower(topic))
  }

  /** The code the builder keeps from the joined text. */
  function GeneratedCode(fragments: seq<string>): string
  {
    ExtractCodeBlock(Concat(fragments), Some("html"))
  }

  /** The id of a topic is its lowercase form with spaces as underscores: topics that
      differ only in case, or in a space against an underscore, share an id. */
  lemma SimulationIdChars(topic: string, i: nat)
    requires i < |topic|
    ensures SimulationId(topic)[i + 4] == if topic[i] == ' ' then '_' else Lower(topic)[i]
  {
    LowerChar(topic, i);
  }

  lemma {:induction false} LowerChar(s: string, i: nat)
    requires i < |s|
    ensures Lower(s)[i] == if 'A' <= s[i] <= 'Z' then (s[i] as int + 32) as char else s[i]
    decreases i
  {
    if i > 0 {
      LowerChar(s[1..], i - 1);
    }
  }

  /** The joining loop of the model call followed by extraction, validation and the
      environment; `None` where the call fails or the code does not pass. */
  method CreateSimulation(topic: string, call: Attempt) returns (r: Option<Environment>)
    ensures r.Some? <==> call.Completed? && ValidateCode(GeneratedCode(call.fragments))
    ensures r.Some? ==> (r.value.code == GeneratedCode(call.fragments)
      && r.value.id == SimulationId(topic)
      && r.value.title == "Simulation: " + topic
      && r.value.description == "A simulation environment for " + topic
      && r.value.parameters == map[])
  {
    var received := Received(call);
    var output: seq<string> := [];
    var i := 0;
    while i < |received|
      invariant 0 <= i <= |received|
      invariant output == received[..i]
    {
      output := output + [received[i]];
      i := i + 1;
    }
    if call.Failed? {
      return None;
    }
    assert output == call.fragments;
    var code := ExtractCodeBlock(Concat(output), Some("html"));
    if !ValidateCode(code) {
      return None;
    }
    var id := "sim_" + SpacesToUnderscores(Lower(topic));
    r := Some(Environment(id, "Simulation: " + topic, "A simulation environment for " + topic, code, map[]));
  }
}

=== FILE: stages.dfy ===
/** The three retrying stage generators of the tutorial pipeline. Each one calls the model,
    forwards every non-empty fragment as a chunk event as it arrives, accumulates the text,
    and on any exception (a transport failure, or an outline that parses to nothing) starts
    over with a fresh call.

    The model is a finite queue of attempts, consumed in order by every call of a run. The
    source retries forever; here a stage that runs out of attempts reports `done == false`
    (the run would never finish). */
module Stages {
  import opened Text
  import opened Outline

  /** What one model call delivers: some fragments and then a transport error, or a
      complete stream of fragments. */
  datatype Attempt = Failed(partial: seq<string>) | Completed(fragments: seq<string>)

  /** The events a stage generator yields. */
  datatype StageEvent =
    | Chunk(data: string)
    | ChaptersReady(chapters: seq<Chapter>)
    | SectionsReady(sections: seq<Section>)
    | ContentReady(content: string)

  function Received(a: Attempt): seq<string>
  {
    match a
    case Failed(p) => p
    case Completed(f) => f
  }

  /** The chunk events of one call: one per non-empty fragment, in arrival order. */
  function ChunkEvents(fragments: seq<string>): seq<StageEvent>
  {
    if fragments == [] then []
    else
      var last := fragments[|fragments| - 1];
      ChunkEvents(fragments[..|fragments| - 1]) + (if last == "" then [] else [Chunk(last)])
  }

  /** The chunk events of a run of calls, one call after the other. */
  function StreamChunks(attempts: seq<Attempt>): seq<StageEvent>
  {
    if attempts == [] then []
    else StreamChunks(attempts[..|attempts| - 1]) + ChunkEvents(Received(attempts[|attempts| - 1]))
  }

  /** The texts the chunk events carry, in order. */
  function ChunkTexts(events: seq<StageEvent>): seq<string>
  {
    if events == [] then []
    else
      var e := events[|events| - 1];
      ChunkTexts(events[..|events| - 1]) + (if e.Chunk? then [e.data] else [])
  }

  lemma {:induction false} ChunkTextsAppend(a: seq<StageEvent>, b: seq<StageEvent>)
    ensures ChunkTexts(a + b) == ChunkTexts(a) + ChunkTexts(b)
    decreases |b|
  {
    if b == [] {
      assert a + b == a;
    } else {
      assert (a + b)[|a + b| - 1] == b[|b| - 1];
      assert (a + b)[..|a + b| - 1] == a + b[..|b| - 1];
      ChunkTextsAppend(a, b[..|b| - 1]);
    }
  }

  lemma {:induction false} ConcatAppend(a: seq<string>, b: seq<string>)
    ensures Concat(a + b) == Concat(a) + Concat(b)
    decreases |b|
  {
    if b == [] {
      assert a + b == a;
    } else {
      var init, last := b[..|b| - 1], b[|b| - 1];
      assert (a + b)[..|a + b| - 1] == a + init;
      assert (a + b)[|a + b| - 1] == last;
      ConcatAppend(a, init);
      assert Concat(a + b) == (Concat(a) + Concat(init)) + last;
    }
  }

  /** Every chunk event of a call carries a non-empty fragment. */
  lemma {:induction false} ChunksNonEmpty(fragments: seq<string>)
    ensures forall i :: 0 <= i < |ChunkEvents(fragments)| ==>
      ChunkEvents(fragments)[i].Chunk? && ChunkEvents(fragments)[i].data != ""
  {
    if fragments != [] {
      ChunksNonEmpty(fragments[..|fragments| - 1]);
    }
  }

  /** The accumulated text of a call is exactly the concatenation of its chunk events'
      texts: skipping empty fragments loses nothing. */
  lemma {:induction false} ChunksCarryContent(fragments: seq<string>)
    ensures Concat(ChunkTexts(ChunkEvents(fragments))) == Concat(fragments)
  {
    if fragments != [] {
      var init := fragments[..|fragments| - 1];
      var last := fragments[|fragments| - 1];
      ChunksCarryContent(init);
      var before := ChunkEvents(init);
      assert Concat(fragments) == Concat(init) + last;
      if last == "" {
        assert ChunkEvents(fragments) == before;
      } else {
        assert ChunkEvents(fragments) == before + [Chunk(last)];
        ChunkTextsAppend(before, [Chunk(last)]);
        assert ChunkTexts([Chunk(last)]) == [last] by {
          assert [Chunk(last)][..0] == [];
        }
        ConcatAppend(ChunkTexts(before), [last]);
        assert Concat([last]) == last by {
          assert [last][..0] == [];
        }
      }
    }
  }

  /** A run of calls yields only chunk events. */
  lemma {:induction false} StreamChunksOnlyChunks(attempts: seq<Attempt>)
    ensures forall i :: 0 <= i < |StreamChunks(attempts)| ==> StreamChunks(attempts)[i].Chunk?
  {
    if attempts != [] {
      StreamChunksOnlyChunks(attempts[..|attempts| - 1]);
      ChunksNonEmpty(Received(attempts[|attempts| - 1]));
    }
  }

  /** The chunks of two runs of calls, one after the other. */
  lemma {:induction false} StreamChunksAppend(a: seq<Attempt>, b: seq<Attempt>)
    ensures StreamChunks(a + b) == StreamChunks(a) + StreamChunks(b)
    decreases |b|
  {
    if b == [] {
      assert a + b == a;
    } else {
      assert (a + b)[..|a + b| - 1] == a + b[..|b| - 1];
      assert (a + b)[|a + b| - 1] == b[|b| - 1];
      StreamChunksAppend(a, b[..|b| - 1]);
    }
  }

  lemma StreamChunksSnoc(attempts: seq<Attempt>, i: nat)
    requires i < |attempts|
    ensures StreamChunks(attempts[..i + 1]) == StreamChunks(attempts[..i]) + ChunkEvents(Received(attempts[i]))
  {
    assert attempts[..i + 1][..i] == attempts[..i];
  }

  lemma ChunkEventsSnoc(fragments: seq<string>, i: nat)
    requires i < |fragments|
    ensures ChunkEvents(fragments[..i + 1])
      == ChunkEvents(fragments[..i]) + (if fragments[i] == "" then [] else [Chunk(fragments[i])])
    ensures Concat(fragments[..i + 1]) == Concat(fragments[..i]) + fragments[i]
  {
    assert fragments[..i + 1][..i] == fragments[..i];
  }

  /** The streaming loop of one call: skip empty fragments, forward the others, accumulate. */
  method StreamCall(fragments: seq<string>) returns (events: seq<StageEvent>, content: string)
    ensures events == ChunkEvents(fragments)
    ensures content == Concat(fragments)
  {
    events, content := [], "";
    var i := 0;
    while i < |fragments|
      invariant 0 <= i <= |fragments|
      invariant events == ChunkEvents(fragments[..i])
      invariant content == Concat(fragments[..i])
    {
      ChunkEventsSnoc(fragments, i);
      var chunk := fragments[i];
      if chunk != "" {
        events := events + [Chunk(chunk)];
        content := content + chunk;
      }
      i := i + 1;
    }
    assert fragments[..i] == fragments;
  }

  // ---------------------------------------------------------------------------------
  // Chapter outline stage

  /** A call that completes and whose text parses to at least one chapter. */
  predicate MainOutlineSucceeds(a: Attempt)
  {
    a.Completed? && ParseChapters(Concat(a.fragments)) != []
  }

  /** No call in `calls` completes with a non-empty chapter list. */
  predicate NoChapters(calls: seq<Attempt>)
  {
    calls == [] || (NoChapters(calls[..|calls| - 1]) && !MainOutlineSucceeds(calls[|calls| - 1]))
  }

  /** NoChapters says of every call that it fails. */
  lemma {:induction false} NoChaptersEvery(calls: seq<Attempt>)
    ensures NoChapters(calls) <==> forall j :: 0 <= j < |calls| ==> !MainOutlineSucceeds(calls[j])
  {
    if calls != [] {
      var init := calls[..|calls| - 1];
      NoChaptersEvery(init);
      forall j | 0 <= j < |calls| - 1
        ensures calls[j] == init[j]
      {
      }
    }
  }

  /** One pass of generate_main_outline's retry loop, on call `i` of the queue: stream the
      call, then parse the accumulated text if the call completed. */
  method MainOutlineCall(src: seq<Attempt>, i: nat)
    returns (chunks: seq<StageEvent>, chapters: seq<Chapter>, ok: bool)
    requires i < |src|
    ensures StreamChunks(src[..i + 1]) == StreamChunks(src[..i]) + chunks
    ensures ok ==> src[i].Completed? && chapters == ParseChapters(Concat(src[i].fragments)) && chapters != []
    ensures NoChapters(src[..i + 1]) == (NoChapters(src[..i]) && !ok)
  {
    assert src[..i + 1][..i] == src[..i];
    var content;
    chunks, content := StreamCall(Received(src[i]));
    chapters, ok := [], false;
    if src[i].Completed? {
      chapters := ParseChapterOutline(content);
      ok := chapters != [];
    }
  }

  /** generate_main_outline: calls until one call completes with a non-empty chapter list,
      which is yielded in one event after the chunks of every call made; the calls before
      it all fail (NoChaptersEvery). */
  method GenerateMainOutline(src: seq<Attempt>)
    returns (events: seq<StageEvent>, chapters: seq<Chapter>, used: nat, done: bool)
    ensures used <= |src|
    ensures done ==> (0 < used && src[used - 1].Completed? && chapters != [])
    ensures done ==> chapters == ParseChapters(Concat(src[used - 1].fragments))
    ensures !done ==> used == |src|
    ensures NoChapters(src[..if done then used - 1 else used])
    ensures events == StreamChunks(src[..used]) + (if done then [ChaptersReady(chapters)] else [])
  {
    events, chapters, used, done := [], [], 0, false;
    assert src[..0] == [];
    while used < |src| && !done
      invariant used <= |src|
      invariant !done ==> NoChapters(src[..used]) && events == StreamChunks(src[..used])
      invariant done ==> (0 < used && src[used - 1].Completed? && chapters != []
        && chapters == ParseChapters(Concat(src[used - 1].fragments)) && NoChapters(src[..used - 1])
        && events == StreamChunks(src[..used]) + [ChaptersReady(chapters)])
    {
      var chunks, parsed, ok := MainOutlineCall(src, used);
      events := events + chunks;
      used := used + 1;
      if ok {
        chapters := parsed;
        events := events + [ChaptersReady(chapters)];
        done := true;
      }
    }
  }

  // ---------------------------------------------------------------------------------
  // Section outline stage

  predicate ChapterOutlineSucceeds(a: Attempt, chapterNumber: int)
  {
    a.Completed? && ParseSections(Concat(a.fragments), chapterNumber) != []
  }

  /** No call in `calls` completes with a non-empty section list for the chapter. */
  predicate NoSections(calls: seq<Attempt>, chapterNumber: int)
  {
    calls == [] || (NoSections(calls[..|calls| - 1], chapterNumber)
      && !ChapterOutlineSucceeds(calls[|calls| - 1], chapterNumber))
  }

  lemma {:induction false} NoSectionsEvery(calls: seq<Attempt>, chapterNumber: int)
    ensures NoSections(calls, chapterNumber)
      <==> forall j :: 0 <= j < |calls| ==> !ChapterOutlineSucceeds(calls[j], chapterNumber)
  {
    if calls != [] {
      var init := calls[..|calls| - 1];
      NoSectionsEvery(init, chapterNumber);
      forall j | 0 <= j < |calls| - 1
        ensures calls[j] == init[j]
      {
      }
    }
  }

  /** One pass of generate_chapter_outline's retry loop, on call `i` of the queue. */
  method ChapterOutlineCall(src: seq<Attempt>, i: nat, chapterNumber: int)
    returns (chunks: seq<StageEvent>, sections: seq<Section>, ok: bool)
    requires i < |src|
    ensures StreamChunks(src[..i + 1]) == StreamChunks(src[..i]) + chunks
    ensures ok ==> src[i].Completed? && sections == ParseSections(Concat(src[i].fragments), chapterNumber) && sections != []
    ensures NoSections(src[..i + 1], chapterNumber) == (NoSections(src[..i], chapterNumber) && !ok)
  {
    assert src[..i + 1][..i] == src[..i];
    var content;
    chunks, content := StreamCall(Received(src[i]));
    sections, ok := [], false;
    if src[i].Completed? {
      sections := ParseSectionOutline(content, chapterNumber);
      ok := sections != [];
    }
  }

  /** generate_chapter_outline for the chapter numbered `chapterNumber`: calls until one
      call completes with a non-empty section list, yielded in one event after the chunks
      of every call made; the calls before it all fail (NoSectionsEvery). */
  method GenerateChapterOutline(src: seq<Attempt>, chapterNumber: int)
    returns (events: seq<StageEvent>, sections: seq<Section>, used: nat, done: bool)
    ensures used <= |src|
    ensures done ==> (0 < used && src[used - 1].Completed? && sections != [])
    ensures done ==> sections == ParseSections(Concat(src[used - 1].fragments), chapterNumber)
    ensures !done ==> used == |src|
    ensures NoSections(src[..if done then used - 1 else used], chapterNumber)
    ensures events == StreamChunks(src[..used]) + (if done then [SectionsReady(sections)] else [])
  {
    events, sections, used, done := [], [], 0, false;
    assert src[..0] == [];
    while used < |src| && !done
      invariant used <= |src|
      invariant !done ==> NoSections(src[..used], chapterNumber) && events == StreamChunks(src[..used])
      invariant done ==> (0 < used && src[used - 1].Completed? && sections != []
        && sections == ParseSections(Concat(src[used - 1].fragments), chapterNumber)
        && NoSections(src[..used - 1], chapterNumber)
        && events == StreamChunks(src[..used]) + [SectionsReady(sections)])
    {
      var chunks, parsed, ok := ChapterOutlineCall(src, used, chapterNumber);
      events := events + chunks;
      used := used + 1;
      if ok {
        sections := parsed;
        events := events + [SectionsReady(sections)];
        done := true;
      }
    }
  }

  // ---------------------------------------------------------------------------------
  // Section content stage

  /** generate_section_content: the first call that completes ends the stage with one
      content event carrying that call's whole text. */
  method GenerateSectionContent(src: seq<Attempt>)
    returns (events: seq<StageEvent>, content: string, used: nat, done: bool)
    ensures used <= |src|
    ensures done ==> (0 < used && src[used - 1].Completed? && content == Concat(src[used - 1].fragments))
    ensures !done ==> used == |src|
    ensures forall j :: 0 <= j < used && (j < used - 1 || !done) ==> src[j].Failed?
    ensures events == StreamChunks(src[..used]) + (if done then [ContentReady(content)] else [])
  {
    events, content, used, done := [], "", 0, false;
    assert src[..0] == [];
    while used < |src| && !done
      invariant used <= |src|
      invariant forall j :: 0 <= j < used && (j < used - 1 || !done) ==> src[j].Failed?
      invariant !done ==> events == StreamChunks(src[..used])
      invariant done ==> (0 < used && src[used - 1].Completed? && content == Concat(src[used - 1].fragments)
        && events == StreamChunks(src[..used]) + [ContentReady(content)])
    {
      var attempt := src[used];
      StreamChunksSnoc(src, used);
      var chunks, text := StreamCall(Received(attempt));
      events := events + chunks;
      used := used + 1;
      if attempt.Completed? {
        content := text;
        events := events + [ContentReady(content)];
        done := true;
      }
    }
  }
}

=== FILE: text.dfy ===
/** String helpers with the semantics of the Python built-ins the backend uses
    (str.strip, str.split, str.startswith, `in` on strings, int(), str()). */
module Text {

  datatype Option<T> = None | Some(value: T)

  /** Python's str.isspace for one character (the Unicode White_Space set it uses). */
  predicate IsSpace(c: char) {
    c == ' ' || ('\t' <= c <= '\r') || ('\U{1C}' <= c <= '\U{1F}')
    || c == '\U{85}' || c == '\U{A0}' || c == '\U{1680}'
    || ('\U{2000}' <= c <= '\U{200A}') || c == '\U{2028}' || c == '\U{2029}'
    || c == '\U{202F}' || c == '\U{205F}' || c == '\U{3000}'
  }

  function TrimStart(s: string): (r: string)
    ensures |r| <= |s|
    ensures r == [] || !IsSpace(r[0])
    ensures forall i :: 0 <= i < |s| - |r| ==> IsSpace(s[i])
  {
    if s != [] && IsSpace(s[0]) then TrimStart(s[1..]) else s
  }

  function TrimEnd(s: string): (r: string)
    ensures |r| <= |s| && r == s[..|r|]
    ensures r == [] || !IsSpace(r[|r| - 1])
    ensures forall i :: |r| <= i < |s| ==> IsSpace(s[i])
  {
    if s != [] && IsSpace(s[|s| - 1]) then TrimEnd(s[..|s| - 1]) else s
  }

  /** str.strip(): the longest infix without leading or trailing white space. */
  function Strip(s: string): (r: string)
    ensures |r| <= |s|
    ensures r == [] || (!IsSpace(r[0]) && !IsSpace(r[|r| - 1]))
  {
    TrimEnd(TrimStart(s))
  }

  /** TrimStart drops a prefix: what it keeps is a suffix of its argument. */
  lemma {:induction false} TrimStartSuffix(s: string)
    ensures TrimStart(s) == s[|s| - |TrimStart(s)|..]
    decreases |s|
  {
    if s != [] && IsSpace(s[0]) {
      TrimStartSuffix(s[1..]);
      assert s[1..][|s[1..]| - |TrimStart(s[1..])|..] == s[|s| - |TrimStart(s)|..];
    }
  }

  /** str.strip() removes white space at both ends and nothing else: the result is the
      infix `s[i..j]` whose outside is all white space, and it starts and ends with a
      non-space character (so no longer infix qualifies). */
  lemma StripInfix(s: string)
    ensures exists i, j ::
              (0 <= i <= j <= |s| && Strip(s) == s[i..j]
               && (forall k :: 0 <= k < i ==> IsSpace(s[k])) && (forall k :: j <= k < |s| ==> IsSpace(s[k])))
  {
    var t := TrimStart(s);
    TrimStartSuffix(s);
    var i := |s| - |t|;
    var r := TrimEnd(t);
    var j := i + |r|;
    assert r == t[..|r|] == s[i..j];
    forall k | j <= k < |s|
      ensures IsSpace(s[k])
    {
      assert s[k] == t[k - i];
    }
  }

  /** A string that starts and ends with non-space characters is its own strip. */
  lemma StripKeeps(s: string)
    requires s != [] && !IsSpace(s[0]) && !IsSpace(s[|s| - 1])
    ensures Strip(s) == s
  {
  }

  lemma StripEmpty()
    ensures Strip("") == ""
  {
  }

  /** Leading white space before a string with non-space ends is removed by strip. */
  lemma StripLeadingSpace(t: string)
    requires t != [] && !IsSpace(t[0]) && !IsSpace(t[|t| - 1])
    ensures Strip(" " + t) == t
  {
    assert (" " + t)[1..] == t;
    assert TrimStart(" " + t) == TrimStart(t) == t;
  }

  predicate StartsWith(s: string, p: string) {
    |p| <= |s| && s[..|p|] == p
  }

  predicate EndsWith(s: string, p: string) {
    |p| <= |s| && s[|s| - |p|..] == p
  }

  /** Python's `sub in s` for strings. */
  predicate Contains(s: string, sub: string)
    decreases |s|
  {
    StartsWith(s, sub) || (s != [] && Contains(s[1..], sub))
  }

  /** `m in a + m + b`: a string contains every infix. */
  lemma {:induction false} ContainsInfix(a: string, m: string, b: string)
    ensures Contains(a + m + b, m)
    decreases |a|
  {
    if a == [] {
      assert (a + m + b)[..|m|] == m;
    } else {
      assert (a + m + b)[1..] == a[1..] + m + b;
      ContainsInfix(a[1..], m, b);
    }
  }

  /** The first index of `c` in `s`, as str.index / str.find. */
  function IndexOf(s: string, c: char): (r: Option<nat>)
    ensures r.None? <==> c !in s
    ensures r.Some? ==> r.value < |s| && s[r.value] == c && c !in s[..r.value]
  {
    if s == [] then None
    else if s[0] == c then Some(0)
    else match IndexOf(s[1..], c)
      case None => None
      case Some(k) => assert s[1..][..k] == s[1..k + 1]; Some(k + 1)
  }

  /** str.split(sep) with a non-empty separator: scans left to right and cuts at every
      non-overlapping occurrence. */
  function SplitOn(s: string, sep: string): (r: seq<string>)
    requires sep != []
    ensures |r| >= 1
    decreases |s|
  {
    if |s| < |sep| then [s]
    else if s[..|sep|] == sep then [""] + SplitOn(s[|sep|..], sep)
    else var rest := SplitOn(s[1..], sep); [[s[0]] + rest[0]] + rest[1..]
  }

  /** str.split(' ', 1). */
  function SplitOnceAtSpace(s: string): (r: seq<string>)
    ensures 1 <= |r| <= 2
    ensures |r| == 1 <==> ' ' !in s
    ensures |r| == 1 ==> r[0] == s
    ensures |r| == 2 ==> s == r[0] + " " + r[1] && ' ' !in r[0]
  {
    match IndexOf(s, ' ')
    case None => [s]
    case Some(k) => assert s == s[..k] + " " + s[k + 1..]; [s[..k], s[k + 1..]]
  }

  /** The first occurrence of `c` in `a + [c] + b` is right after `a` when `a` lacks `c`. */
  lemma {:induction false} IndexOfAfter(a: string, c: char, b: string)
    requires c !in a
    ensures IndexOf(a + [c] + b, c) == Some(|a|)
    decreases |a|
  {
    if a != [] {
      assert (a + [c] + b)[1..] == a[1..] + [c] + b;
      IndexOfAfter(a[1..], c, b);
    }
  }

  /** split(' ', 1) cuts at the first space. */
  lemma SplitOnceAtSpaceOf(a: string, b: string)
    requires ' ' !in a
    ensures SplitOnceAtSpace(a + " " + b) == [a, b]
  {
    IndexOfAfter(a, ' ', b);
    assert (a + " " + b)[..|a|] == a;
    assert (a + " " + b)[|a| + 1..] == b;
  }

  /** The text before the first occurrence of `c` (str.split(c)[0]). */
  function Before(s: string, c: char): (r: string)
    ensures c !in r && StartsWith(s, r)
    ensures c in s ==> |r| < |s| && s[|r|] == c
    ensures c !in s ==> r == s
  {
    match IndexOf(s, c)
    case None => s
    case Some(k) => s[..k]
  }

  lemma BeforeOf(a: string, c: char, b: string)
    requires c !in a
    ensures Before(a + [c] + b, c) == a
  {
    IndexOfAfter(a, c, b);
    assert (a + [c] + b)[..|a|] == a;
  }

  /** Concatenation, as "".join(parts). */
  function Concat(parts: seq<string>): (r: string)
  {
    if parts == [] then "" else Concat(parts[..|parts| - 1]) + parts[|parts| - 1]
  }

  /** sep.join(parts). */
  function JoinWith(parts: seq<string>, sep: string): string
  {
    if parts == [] then ""
    else if |parts| == 1 then parts[0]
    else parts[0] + sep + JoinWith(parts[1..], sep)
  }

  /** Splitting a string that has no separator character gives the string itself. */
  lemma {:induction false} SplitOnAbsent(s: string, c: char)
    requires c !in s
    ensures SplitOn(s, [c]) == [s]
    decreases |s|
  {
    if s != [] {
      SplitOnAbsent(s[1..], c);
      assert [s[0]] + s[1..] == s;
    }
  }

  /** The first piece of a split ends at the first separator. */
  lemma {:induction false} SplitOnFirst(a: string, b: string, c: char)
    requires c !in a
    ensures SplitOn(a + [c] + b, [c]) == [a] + SplitOn(b, [c])
    decreases |a|
  {
    var s := a + [c] + b;
    if a == [] {
      assert s[..1] == [c] && s[1..] == b;
    } else {
      assert s[0] == a[0] && s[..1] != [c];
      assert s[1..] == a[1..] + [c] + b;
      SplitOnFirst(a[1..], b, c);
      assert [a[0]] + a[1..] == a;
    }
  }

  /** split undoes join when no part contains the separator character. */
  lemma {:induction false} SplitJoin(parts: seq<string>, c: char)
    requires parts != []
    requires forall i :: 0 <= i < |parts| ==> c !in parts[i]
    ensures SplitOn(JoinWith(parts, [c]), [c]) == parts
    decreases |parts|
  {
    if |parts| == 1 {
      SplitOnAbsent(parts[0], c);
    } else {
      var rest := parts[1..];
      forall i | 0 <= i < |rest|
        ensures c !in rest[i]
      {
        assert rest[i] == parts[i + 1];
      }
      SplitJoin(rest, c);
      SplitOnFirst(parts[0], JoinWith(rest, [c]), c);
      assert [parts[0]] + rest == parts;
    }
  }

  /** s.strip().split('\n') */
  function StrippedLines(s: string): (r: seq<string>)
    ensures |r| >= 1
  {
    SplitOn(Strip(s), "\n")
  }

  /** A string without the separator's first character is not split. */
  lemma {:induction false} SplitOnNoLead(s: string, sep: string)
    requires sep != [] && sep[0] !in s
    ensures SplitOn(s, sep) == [s]
    decreases |s|
  {
    if |s| >= |sep| {
      assert s[..|sep|][0] == s[0];
      SplitOnNoLead(s[1..], sep);
      assert [s[0]] + s[1..] == s;
    }
  }

  /** The first piece of a split ends at the separator when it lacks the separator's
      first character. */
  lemma {:induction false} SplitOnLeadFirst(a: string, b: string, sep: string)
    requires sep != [] && sep[0] !in a
    ensures SplitOn(a + sep + b, sep) == [a] + SplitOn(b, sep)
    decreases |a|
  {
    var s := a + sep + b;
    if a == [] {
      assert s[..|sep|] == sep && s[|sep|..] == b;
    } else {
      assert s[..|sep|][0] == a[0];
      assert s[1..] == a[1..] + sep + b;
      SplitOnLeadFirst(a[1..], b, sep);
      assert [a[0]] + a[1..] == a;
    }
  }

  /** split undoes join when no part contains the separator's first character. */
  lemma {:induction false} SplitJoinOn(parts: seq<string>, sep: string)
    requires parts != [] && sep != []
    requires forall i :: 0 <= i < |parts| ==> sep[0] !in parts[i]
    ensures SplitOn(JoinWith(parts, sep), sep) == parts
    decreases |parts|
  {
    if |parts| == 1 {
      SplitOnNoLead(parts[0], sep);
    } else {
      var rest := parts[1..];
      assert forall i :: 0 <= i < |rest| ==> rest[i] == parts[i + 1];
      SplitJoinOn(rest, sep);
      SplitOnLeadFirst(parts[0], JoinWith(rest, sep), sep);
      assert [parts[0]] + rest == parts;
    }
  }

  /** Three parts joined, written out. */
  lemma JoinThree(a: string, b: string, c: string, sep: string)
    ensures JoinWith([a, b, c], sep) == a + sep + b + sep + c
  {
    assert [a, b, c][1..] == [b, c] && [b, c][1..] == [c];
    assert JoinWith([b, c], sep) == b + sep + c;
    assert JoinWith([a, b, c], sep) == a + sep + (b + sep + c);
    assert a + sep + (b + sep + c) == a + sep + b + sep + c;
  }

  /** A join starts with its first part and ends with its last. */
  lemma {:induction false} JoinWithEnds(parts: seq<string>, sep: string)
    requires parts != []
    ensures parts[0] != [] ==> JoinWith(parts, sep) != [] && JoinWith(parts, sep)[0] == parts[0][0]
    ensures var last := parts[|parts| - 1]; last != [] ==>
      JoinWith(parts, sep) != [] && JoinWith(parts, sep)[|JoinWith(parts, sep)| - 1] == last[|last| - 1]
    decreases |parts|
  {
    if |parts| > 1 {
      JoinWithEnds(parts[1..], sep);
    }
  }

  predicate IsDigit(c: char) {
    '0' <= c <= '9'
  }

  predicate AllDigits(s: string) {
    forall i :: 0 <= i < |s| ==> IsDigit(s[i])
  }

  function DigitsValue(s: string): nat
    requires AllDigits(s)
  {
    if s == [] then 0 else DigitsValue(s[..|s| - 1]) * 10 + (s[|s| - 1] as int - '0' as int)
  }

  /** int(s) restricted to an optional sign followed by ASCII digits; None where int()
      raises ValueError. */
  function ParseInt(s: string): (r: Option<int>)
    ensures r.Some? ==> s != [] && AllDigits(s[if s[0] == '+' || s[0] == '-' then 1 else 0..])
    ensures r.Some? && r.value < 0 ==> s[0] == '-'
    ensures s != [] && AllDigits(s) ==> r == Some(DigitsValue(s))
  {
    if s != [] && (s[0] == '+' || s[0] == '-') then
      if |s| > 1 && AllDigits(s[1..]) then
        var v: int := DigitsValue(s[1..]);
        Some(if s[0] == '-' then -v else v)
      else None
    else if s != [] && AllDigits(s) then Some(DigitsValue(s))
    else None
  }

  function DigitChar(d: nat): char
    requires d < 10
  {
    ('0' as int + d) as char
  }

  function NatToString(n: nat): (r: string)
    ensures r != [] && AllDigits(r)
  {
    if n < 10 then [DigitChar(n)] else NatToString(n / 10) + [DigitChar(n % 10)]
  }

  /** str(n) for an int. */
  function IntToString(n: int): (r: string)
    ensures r != []
  {
    if n < 0 then "-" + NatToString(-n) else NatToString(n)
  }

  lemma {:induction false} NatToStringValue(n: nat)
    ensures DigitsValue(NatToString(n)) == n
  {
    if n >= 10 {
      NatToStringValue(n / 10);
      var s := NatToString(n);
      assert s[..|s| - 1] == NatToString(n / 10);
    }
  }

  /** int(str(n)) == n: str() of an int is read back by the restricted int(). */
  lemma IntToStringRoundTrip(n: int)
    ensures ParseInt(IntToString(n)) == Some(n)
  {
    var s := IntToString(n);
    if n < 0 {
      var d := NatToString(-n);
      NatToStringValue(-n);
      assert s == "-" + d;
      assert s[0] == '-' && s[1..] == d;
    } else {
      NatToStringValue(n);
      assert IsDigit(s[0]);
    }
  }

  /** str(n) contains no separator the outline grammar cares about. */
  lemma IntToStringChars(n: int)
    ensures forall i :: 0 <= i < |IntToString(n)| ==> IntToString(n)[i] == '-' || IsDigit(IntToString(n)[i])
  {
  }

  /** str(n) holds only `-` and digits, so it contains no other character and starts and
      ends with a non-space. */
  lemma IntToStringAvoids(n: int, c: char)
    requires c != '-' && !IsDigit(c)
    ensures c !in IntToString(n)
    ensures !IsSpace(IntToString(n)[0]) && !IsSpace(IntToString(n)[|IntToString(n)| - 1])
  {
    IntToStringChars(n);
  }

  /** str.lower() on ASCII letters; other characters are kept. */
  function Lower(s: string): (r: string)
    ensures |r| == |s|
  {
    if s == [] then ""
    else [if 'A' <= s[0] <= 'Z' then (s[0] as int + 32) as char else s[0]] + Lower(s[1..])
  }

  /** Lowering works character by character. */
  lemma {:induction false} LowerAppend(a: string, b: string)
    ensures Lower(a + b) == Lower(a) + Lower(b)
    decreases |a|
  {
    if a == [] {
      assert a + b == b;
    } else {
      assert (a + b)[0] == a[0] && (a + b)[1..] == a[1..] + b;
      LowerAppend(a[1..], b);
    }
  }

  /** A text without ASCII capitals is already lower case. */
  lemma {:induction false} LowerKeeps(s: string)
    requires forall i :: 0 <= i < |s| ==> !('A' <= s[i] <= 'Z')
    ensures Lower(s) == s
    decreases |s|
  {
    if s != [] {
      LowerKeeps(s[1..]);
    }
  }

  /** str.replace(c, "") for one character. */
  function RemoveChar(s: string, c: char): (r: string)
    ensures c !in r && |r| <= |s|
    ensures c !in s ==> r == s
  {
    if s == [] then ""
    else (if s[0] == c then "" else [s[0]]) + RemoveChar(s[1..], c)
  }

  /** Every other character is kept, as often as it occurs. */
  lemma {:induction false} RemoveCharKeeps(s: string, c: char, x: char)
    requires x != c
    ensures multiset(RemoveChar(s, c))[x] == multiset(s)[x]
    decreases |s|
  {
    if s != [] {
      RemoveCharKeeps(s[1..], c, x);
      assert s == [s[0]] + s[1..];
    }
  }

  /** The removal works character by character and keeps the order of what it keeps. */
  lemma {:induction false} RemoveCharAppend(a: string, b: string, c: char)
    ensures RemoveChar(a + b, c) == RemoveChar(a, c) + RemoveChar(b, c)
    decreases |a|
  {
    if a == [] {
      assert a + b == b;
    } else {
      var ab := a + b;
      assert ab[0] == a[0] && ab[1..] == a[1..] + b;
      RemoveCharAppend(a[1..], b, c);
      var head := if a[0] == c then "" else [a[0]];
      calc {
        RemoveChar(ab, c);
        head + RemoveChar(a[1..] + b, c);
        head + (RemoveChar(a[1..], c) + RemoveChar(b, c));
        (head + RemoveChar(a[1..], c)) + RemoveChar(b, c);
      }
    }
  }

  /** A string without the first character of `sub` does not contain `sub`. */
  lemma {:induction false} LeadAbsent(s: string, sub: string)
    requires sub != [] && sub[0] !in s
    ensures !Contains(s, sub)
    decreases |s|
  {
    if s != [] {
      LeadAbsent(s[1..], sub);
    }
  }
}

=== FILE: tree.dfy ===
/** The learning tree: a node list and an edge list that grow by appending records, are
    handed out whole, and are saved to and loaded from a JSON file. The file is a
    parameter: missing, unreadable (an IOError), not valid JSON, not valid UTF-8, or a
    parsed value. The lists are JSON values because loading may put anything the file
    holds there. */
module LearningTreeStore {
  import opened Text
  import opened Json

  /** `Undecodable` raises UnicodeDecodeError, which is neither an IOError nor a
      JSONDecodeError, so load_tree does not catch it. */
  datatype TreeFile = Missing | Unreadable | Malformed | Undecodable | Stored(data: Value)

  /** The two lists of a tree. */
  datatype Graph = Graph(nodes: Value, edges: Value)

  /** `{"id": node_id, **data}`: a key of `data`, `id` included, wins. */
  function NodeRecord(id: string, data: map<string, Value>): (r: map<string, Value>)
    ensures r.Keys == {"id"} + data.Keys
    ensures r["id"] == if "id" in data then data["id"] else Str(id)
    ensures forall k :: k in data ==> r[k] == data[k]
  {
    map["id" := Str(id)] + data
  }

  /** `{"source": source_id, "target": target_id, **data}` */
  function EdgeRecord(source: string, target: string, data: map<string, Value>): (r: map<string, Value>)
    ensures r.Keys == {"source", "target"} + data.Keys
    ensures r["source"] == if "source" in data then data["source"] else Str(source)
    ensures r["target"] == if "target" in data then data["target"] else Str(target)
    ensures forall k :: k in data ==> r[k] == data[k]
  {
    map["source" := Str(source), "target" := Str(target)] + data
  }

  /** What the file holds after save_tree. */
  function SavedFile(g: Graph): TreeFile
  {
    Stored(Obj(map["nodes" := g.nodes, "edges" := g.edges]))
  }

  /** The lists after load_tree; None where an exception escapes (a parsed value that is
      not a dict has no `get`, and bytes that are not UTF-8 do not decode). */
  function AfterLoad(file: TreeFile, g: Graph): (r: Option<Graph>)
    ensures file.Missing? ==> r == Some(g)
    ensures file.Unreadable? || file.Malformed? ==> r == Some(Graph(Arr([]), Arr([])))
    ensures r.None? <==> (file.Stored? && !file.data.Obj?) || file.Undecodable?
    ensures file.Stored? && file.data.Obj? ==>
      r == Some(Graph(GetOr(file.data, "nodes", Arr([])).value, GetOr(file.data, "edges", Arr([])).value))
  {
    match file
    case Missing => Some(g)
    case Unreadable => Some(Graph(Arr([]), Arr([])))
    case Malformed => Some(Graph(Arr([]), Arr([])))
    case Undecodable => None
    case Stored(data) =>
      match (GetOr(data, "nodes", Arr([])), GetOr(data, "edges", Arr([])))
      case (Some(nodes), Some(edges)) => Some(Graph(nodes, edges))
      case _ => None
  }

  /** Loading what was saved gives back the saved lists, whatever the tree held before. */
  lemma SaveLoadRoundTrip(g: Graph, before: Graph)
    ensures AfterLoad(SavedFile(g), before) == Some(g)
  {
  }

  class LearningTree {
    var nodes: Value
    var edges: Value
    const saveDir: string

    /** A new tree is empty. */
    constructor (saveDir: string)
      ensures nodes == Arr([]) && edges == Arr([]) && this.saveDir == saveDir
    {
      nodes := Arr([]);
      edges := Arr([]);
      this.saveDir := saveDir;
    }

    function Contents(): Graph
      reads this
    {
      Graph(nodes, edges)
    }

    /** get_graph_data: the whole tree, whatever the topic. */
    method GraphData(topic: string) returns (r: Value)
      ensures r.Obj? && r.fields.Keys == {"nodes", "edges"}
      ensures r.fields["nodes"] == nodes && r.fields["edges"] == edges
    {
      r := Obj(map["nodes" := nodes, "edges" := edges]);
    }

    /** add_node: one record at the end of the node list, with no duplicate check; a node
        list that is not a list (after loading an odd file) has no `append`. */
    method AddNode(id: string, data: map<string, Value>) returns (ok: bool)
      modifies this
      ensures ok <==> old(nodes).Arr?
      ensures ok ==> nodes == Arr(old(nodes).items + [Obj(NodeRecord(id, data))])
      ensures !ok ==> nodes == old(nodes)
      ensures edges == old(edges)
    {
      if !nodes.Arr? {
        return false;
      }
      nodes := Arr(nodes.items + [Obj(map["id" := Str(id)] + data)]);
      ok := true;
    }

    /** add_edge: one record at the end of the edge list, with no check that either end is
        a node. */
    method AddEdge(source: string, target: string, data: map<string, Value>) returns (ok: bool)
      modifies this
      ensures ok <==> old(edges).Arr?
      ensures ok ==> edges == Arr(old(edges).items + [Obj(EdgeRecord(source, target, data))])
      ensures !ok ==> edges == old(edges)
      ensures nodes == old(nodes)
    {
      if !edges.Arr? {
        return false;
      }
      edges := Arr(edges.items + [Obj(map["source" := Str(source), "target" := Str(target)] + data)]);
      ok := true;
    }

    /** save_tree: the file written; a failed write is only reported. */
    method SaveTree() returns (file: TreeFile)
      ensures file == SavedFile(Contents())
    {
      file := Stored(Obj(map["nodes" := nodes, "edges" := edges]));
    }

    /** load_tree: `ok` is false where an exception escapes, and then nothing changed. */
    method LoadTree(file: TreeFile) returns (ok: bool)
      modifies this
      ensures ok <==> AfterLoad(file, old(Contents())).Some?
      ensures ok ==> Contents() == AfterLoad(file, old(Contents())).value
      ensures !ok ==> Contents() == old(Contents())
    {
      match file {
        case Missing =>
        case Unreadable =>
          nodes, edges := Arr([]), Arr([]);
        case Malformed =>
          nodes, edges := Arr([]), Arr([]);
        case Undecodable =>
          return false;
        case Stored(data) =>
          var n := GetOr(data, "nodes", Arr([]));
          if n.None? {
            return false;
          }
          var e := GetOr(data, "edges", Arr([]));
          nodes, edges := n.value, e.value;
      }
      ok := true;
    }
  }
}

=== FILE: tutorial.dfy ===
/** The tutorial store: tutorials saved as JSON files under `Saves`, listed newest first
    as display trees, read back as a tree, and deleted. The directory is a map from file
    names to contents (a parsed JSON value, or text that is not JSON); the clock, the
    directory listing order, `str.isalnum` and Python's `str()` of floats, lists and
    dicts are parameters. None stands for an exception that escapes the operation. */
module Tutorials {
  import opened Text
  import opened Json

  /** The directory every manager uses, whatever it is given. */
  const SaveDir := "Saves"

  datatype StoredFile = JsonFile(data: Value) | NotJson

  /** f"{v}": str() of a value; `repr` gives the text of floats, lists and dicts. */
  function Show(v: Value, repr: Value -> string): (r: string)
    ensures v.Str? ==> r == v.s
    ensures v.Num? ==> ParseInt(r) == Some(v.n)
    ensures v.Bool? ==> (r == "True" <==> v.b) && (r == "False" <==> !v.b)
    ensures v.Null? ==> r == "None"
  {
    match v
    case Str(s) => s
    case Num(n) => IntToStringRoundTrip(n); IntToString(n)
    case Bool(b) => if b then "True" else "False"
    case Null => "None"
    case _ => repr(v)
  }

  // ---------------------------------------------------------------------------------
  // File names

  predicate TitleChar(c: char, isAlnum: char -> bool)
  {
    isAlnum(c) || c == ' ' || c == '-' || c == '_'
  }

  /** The title with every character that is not alphanumeric, a space, `-` or `_`
      dropped. */
  function SafeTitle(title: string, isAlnum: char -> bool): (r: string)
    ensures |r| <= |title|
    ensures forall i :: 0 <= i < |r| ==> TitleChar(r[i], isAlnum)
  {
    if title == [] then []
    else (if TitleChar(title[0], isAlnum) then [title[0]] else []) + SafeTitle(title[1..], isAlnum)
  }

  /** The safe title keeps the allowed characters in their order: it works piece by
      piece, and a title made only of allowed characters is kept whole. */
  lemma {:induction false} SafeTitleAppend(a: string, b: string, isAlnum: char -> bool)
    ensures SafeTitle(a + b, isAlnum) == SafeTitle(a, isAlnum) + SafeTitle(b, isAlnum)
  {
    if a == [] {
      assert a + b == b;
    } else {
      assert (a + b)[0] == a[0] && (a + b)[1..] == a[1..] + b;
      SafeTitleAppend(a[1..], b, isAlnum);
    }
  }

  lemma {:induction false} SafeTitleKeeps(title: string, isAlnum: char -> bool)
    requires forall i :: 0 <= i < |title| ==> TitleChar(title[i], isAlnum)
    ensures SafeTitle(title, isAlnum) == title
  {
    if title != [] {
      SafeTitleKeeps(title[1..], isAlnum);
    }
  }

  /** `x.isalnum() or x in (' ', '-', '_')` for one element of a list title: a string
      is kept whole when it is non-empty and alphanumeric throughout, or is one of the
      three separators. */
  predicate WordKept(w: string, isAlnum: char -> bool)
  {
    (w != [] && forall i :: 0 <= i < |w| ==> isAlnum(w[i])) || w == " " || w == "-" || w == "_"
  }

  /** The join over a title that is a list: every element must be a string (any other
      element has no `isalnum` and raises); the kept elements are joined in order. */
  function SafeListTitle(items: seq<Value>, isAlnum: char -> bool): (r: Option<string>)
    ensures r.Some? <==> forall i :: 0 <= i < |items| ==> items[i].Str?
    ensures r.Some? ==> forall i :: 0 <= i < |r.value| ==> TitleChar(r.value[i], isAlnum)
  {
    if items == [] then Some([])
    else if !items[0].Str? then None
    else match SafeListTitle(items[1..], isAlnum)
      case None =>
        assert !forall i :: 0 <= i < |items[1..]| ==> items[1..][i].Str?;
        None
      case Some(rest) =>
        var w := if WordKept(items[0].s, isAlnum) then items[0].s else [];
        assert forall i :: 0 <= i < |w| ==> TitleChar(w[i], isAlnum);
        assert forall i :: 1 <= i < |items| ==> items[i] == items[1..][i - 1];
        Some(w + rest)
  }

  /** A string title and the list of its one-character strings give the same safe
      title: for one character, `isalnum` or a separator is exactly `TitleChar`. */
  lemma {:induction false} SafeListTitleOfChars(title: string, isAlnum: char -> bool)
    ensures SafeListTitle(seq(|title|, i requires 0 <= i < |title| => Str([title[i]])), isAlnum)
      == Some(SafeTitle(title, isAlnum))
  {
    var items := seq(|title|, i requires 0 <= i < |title| => Str([title[i]]));
    if title != [] {
      SafeListTitleOfChars(title[1..], isAlnum);
      assert items[1..] == seq(|title[1..]|, i requires 0 <= i < |title[1..]| => Str([title[1..][i]]));
      assert WordKept([title[0]], isAlnum) <==> TitleChar(title[0], isAlnum);
    }
  }

  /** The safe title of save_tutorial's `title` value: a string is filtered character by
      character and a list element by element; an empty dict joins nothing; a number,
      boolean or None is not iterable and raises. A non-empty dict, whose keys would be
      joined in insertion order, is not modelled and raises here. */
  function SafeTitleOf(title: Value, isAlnum: char -> bool): (r: Option<string>)
    ensures r.Some? <==> (title.Str? || title == Obj(map[])
      || (title.Arr? && forall i :: 0 <= i < |title.items| ==> title.items[i].Str?))
    ensures r.Some? ==> forall i :: 0 <= i < |r.value| ==> TitleChar(r.value[i], isAlnum)
  {
    match title
    case Str(s) => Some(SafeTitle(s, isAlnum))
    case Arr(items) => SafeListTitle(items, isAlnum)
    case Obj(fields) => if fields == map[] then Some([]) else None
    case _ => None
  }

  /** f"{timestamp}_{safe_title[:30]}.json" */
  function FileName(timestamp: string, safe: string): (r: string)
    ensures StartsWith(r, timestamp + "_") && EndsWith(r, ".json")
    ensures |r| <= |timestamp| + 36
  {
    var prefix := timestamp + "_";
    var name := if |safe| <= 30 then safe else safe[..30];
    assert (prefix + name + ".json")[..|prefix|] == prefix;
    prefix + name + ".json"
  }

  // ---------------------------------------------------------------------------------
  // The display tree

  /** The records `for x in v` visits when each is then indexed by a string key: a
      list's items, which must all be dicts; an empty string or dict visits nothing, and
      the characters or keys of a non-empty one are strings, which cannot be indexed so. */
  function Records(v: Value): (r: Option<seq<map<string, Value>>>)
    ensures v.Arr? && r.Some? ==> (|r.value| == |v.items|
      && forall i :: 0 <= i < |v.items| ==> v.items[i] == Obj(r.value[i]))
  {
    match v
    case Arr(items) =>
      if forall i :: 0 <= i < |items| ==> items[i].Obj? then
        Some(seq(|items|, i requires 0 <= i < |items| && items[i].Obj? => items[i].fields))
      else None
    case Str(s) => if s == "" then Some([]) else None
    case Obj(fields) => if fields == map[] then Some([]) else None
    case _ => None
  }

  predicate Has(m: map<string, Value>, keys: set<string>)
  {
    keys <= m.Keys
  }

  const SectionKeys: set<string> := {"number", "title", "description", "content"}
  const ChapterKeys: set<string> := {"number", "title", "description", "sections"}

  function SectionNode(s: map<string, Value>, repr: Value -> string): Option<Value>
  {
    if !Has(s, SectionKeys) then None
    else
      var heading := Str(Show(s["number"], repr) + " " + Show(s["title"], repr));
      Some(Obj(map["id" := Str("section-" + Show(s["number"], repr)), "label" := heading,
                   "type" := Str("section"), "title" := heading,
                   "description" := s["description"], "content" := s["content"]]))
  }

  /** The section nodes of a chapter, in order; None if any section lacks a field. */
  function SectionNodes(sections: seq<map<string, Value>>, repr: Value -> string): (r: Option<seq<Value>>)
    ensures r.Some? ==> |r.value| == |sections|
  {
    if sections == [] then Some([])
    else match (SectionNodes(sections[..|sections| - 1], repr), SectionNode(sections[|sections| - 1], repr))
      case (Some(init), Some(node)) => Some(init + [node])
      case _ => None
  }

  function ChapterNode(c: map<string, Value>, children: seq<Value>, repr: Value -> string): Value
    requires Has(c, ChapterKeys)
  {
    Obj(map["id" := Str("chapter-" + Show(c["number"], repr)),
            "label" := Str(Show(c["number"], repr) + ". " + Show(c["title"], repr)),
            "type" := Str("chapter"), "description" := c["description"], "children" := Arr(children)])
  }

  function ChapterTree(c: map<string, Value>, repr: Value -> string): Option<Value>
  {
    if !Has(c, ChapterKeys) then None
    else match Records(c["sections"])
      case None => None
      case Some(sections) =>
        match SectionNodes(sections, repr)
        case None => None
        case Some(children) => Some(ChapterNode(c, children, repr))
  }

  function ChapterNodes(chapters: seq<map<string, Value>>, repr: Value -> string): (r: Option<seq<Value>>)
    ensures r.Some? ==> |r.value| == |chapters|
  {
    if chapters == [] then Some([])
    else match (ChapterNodes(chapters[..|chapters| - 1], repr), ChapterTree(chapters[|chapters| - 1], repr))
      case (Some(init), Some(node)) => Some(init + [node])
      case _ => None
  }

  /** _convert_to_tree: None where a key is missing or a value has the wrong shape. The
      tree carries the tutorial's own `metadata`, so it sorts by the saved creation time. */
  function TreeOf(tutorial: Value, repr: Value -> string): (r: Option<Value>)
    ensures r.Some? ==> (tutorial.Obj? && "metadata" in tutorial.fields
      && r.value.Obj? && "metadata" in r.value.fields
      && r.value.fields["metadata"] == tutorial.fields["metadata"])
  {
    match Index(tutorial, "metadata")
    case None => None
    case Some(metadata) =>
      if Index(metadata, "filename").None? || "title" !in tutorial.fields || "chapters" !in tutorial.fields then None
      else match Records(tutorial.fields["chapters"])
        case None => None
        case Some(chapters) =>
          match ChapterNodes(chapters, repr)
          case None => None
          case Some(children) =>
            Some(Obj(map["id" := metadata.fields["filename"], "label" := tutorial.fields["title"],
                         "type" := Str("tutorial"), "metadata" := metadata, "children" := Arr(children)]))
  }

  /** The section loop of _convert_to_tree. */
  method SectionList(sections: seq<map<string, Value>>, repr: Value -> string) returns (r: Option<seq<Value>>)
    ensures r == SectionNodes(sections, repr)
  {
    var children := [];
    for i := 0 to |sections|
      invariant SectionNodes(sections[..i], repr) == Some(children)
    {
      assert sections[..i + 1][..i] == sections[..i];
      var node := SectionNode(sections[i], repr);
      if node.None? {
        SectionNodesStuck(sections, i, repr);
        return None;
      }
      children := children + [node.value];
    }
    assert sections[..|sections|] == sections;
    r := Some(children);
  }

  /** A section that cannot be converted fails the whole chapter. */
  lemma {:induction false} SectionNodesStuck(sections: seq<map<string, Value>>, i: nat, repr: Value -> string)
    requires i < |sections| && SectionNode(sections[i], repr).None?
    ensures SectionNodes(sections, repr).None?
    decreases |sections|
  {
    var init := sections[..|sections| - 1];
    if i < |sections| - 1 {
      assert init[i] == sections[i];
      SectionNodesStuck(init, i, repr);
    }
  }

  lemma {:induction false} ChapterNodesStuck(chapters: seq<map<string, Value>>, i: nat, repr: Value -> string)
    requires i < |chapters| && ChapterTree(chapters[i], repr).None?
    ensures ChapterNodes(chapters, repr).None?
    decreases |chapters|
  {
    var init := chapters[..|chapters| - 1];
    if i < |chapters| - 1 {
      assert init[i] == chapters[i];
      ChapterNodesStuck(init, i, repr);
    }
  }

  /** One chapter node: its fields, then the section loop. */
  method ChapterEntry(c: map<string, Value>, repr: Value -> string) returns (r: Option<Value>)
    ensures r == ChapterTree(c, repr)
  {
    if !Has(c, ChapterKeys) {
      return None;
    }
    var sections := Records(c["sections"]);
    if sections.None? {
      return None;
    }
    var children := SectionList(sections.value, repr);
    if children.None? {
      return None;
    }
    r := Some(ChapterNode(c, children.value, repr));
  }

  /** _convert_to_tree with its chapter loop. */
  method ConvertToTree(tutorial: Value, repr: Value -> string) returns (r: Option<Value>)
    ensures r == TreeOf(tutorial, repr)
  {
    var metadata := Index(tutorial, "metadata");
    if metadata.None? || Index(metadata.value, "filename").None?
       || "title" !in tutorial.fields || "chapters" !in tutorial.fields {
      return None;
    }
    var chapters := Records(tutorial.fields["chapters"]);
    if chapters.None? {
      return None;
    }
    var cs := chapters.value;
    var children := [];
    for i := 0 to |cs|
      invariant ChapterNodes(cs[..i], repr) == Some(children)
    {
      assert cs[..i + 1][..i] == cs[..i];
      var node := ChapterEntry(cs[i], repr);
      if node.None? {
        ChapterNodesStuck(cs, i, repr);
        return None;
      }
      children := children + [node.value];
    }
    assert cs[..|cs|] == cs;
    r := Some(Obj(map["id" := metadata.value.fields["filename"], "label" := tutorial.fields["title"],
                      "type" := Str("tutorial"), "metadata" := metadata.value, "children" := Arr(children)]));
  }

  /** Each section becomes one node, in order: id `section-{number}`, label and title
      `{number} {title}`, description and content copied. */
  lemma {:induction false} SectionNodesShape(sections: seq<map<string, Value>>, repr: Value -> string, i: nat)
    requires SectionNodes(sections, repr).Some? && i < |sections|
    ensures Has(sections[i], SectionKeys) && SectionNode(sections[i], repr).Some?
    ensures SectionNodes(sections, repr).value[i] == SectionNode(sections[i], repr).value
    ensures var n := SectionNodes(sections, repr).value[i]; var s := sections[i];
      n.Obj? && n.fields["id"] == Str("section-" + Show(s["number"], repr))
      && n.fields["label"] == n.fields["title"] == Str(Show(s["number"], repr) + " " + Show(s["title"], repr))
      && n.fields["description"] == s["description"] && n.fields["content"] == s["content"]
    decreases |sections|
  {
    var init := sections[..|sections| - 1];
    if i < |sections| - 1 {
      assert init[i] == sections[i];
      SectionNodesShape(init, repr, i);
    }
  }

  /** Each chapter becomes one node, in order, with id `chapter-{number}`, label
      `{number}. {title}`, and one child per section of the chapter. */
  lemma {:induction false} ChapterNodesShape(chapters: seq<map<string, Value>>, repr: Value -> string, i: nat)
    requires ChapterNodes(chapters, repr).Some? && i < |chapters|
    ensures Has(chapters[i], ChapterKeys) && Records(chapters[i]["sections"]).Some?
    ensures var n := ChapterNodes(chapters, repr).value[i]; var c := chapters[i];
      var sections := Records(c["sections"]).value;
      SectionNodes(sections, repr).Some?
      && n == ChapterNode(c, SectionNodes(sections, repr).value, repr)
      && n.fields["id"] == Str("chapter-" + Show(c["number"], repr))
      && n.fields["label"] == Str(Show(c["number"], repr) + ". " + Show(c["title"], repr))
      && n.fields["children"].items == SectionNodes(sections, repr).value
      && |n.fields["children"].items| == |sections|
    decreases |chapters|
  {
    var init := chapters[..|chapters| - 1];
    if i < |chapters| - 1 {
      assert init[i] == chapters[i];
      ChapterNodesShape(init, repr, i);
    }
  }

  /** The tree of a tutorial: its id is the stored file name, its label the title, and
      it has one child per chapter. */
  lemma TreeShape(tutorial: Value, repr: Value -> string)
    requires TreeOf(tutorial, repr).Some?
    ensures var t := TreeOf(tutorial, repr).value;
      tutorial.Obj? && "metadata" in tutorial.fields && tutorial.fields["metadata"].Obj?
      && "filename" in tutorial.fields["metadata"].fields
      && t.Obj? && t.fields["id"] == tutorial.fields["metadata"].fields["filename"]
      && t.fields["label"] == tutorial.fields["title"]
      && t.fields["metadata"] == tutorial.fields["metadata"]
      && Records(tutorial.fields["chapters"]).Some?
      && |t.fields["children"].items| == |Records(tutorial.fields["chapters"]).value|
  {
  }

  // ---------------------------------------------------------------------------------
  // Newest first

  /** Python's `a <= b` on strings: code point by code point. */
  predicate LexLe(a: string, b: string)
  {
    a == [] || (b != [] && (a[0] < b[0] || (a[0] == b[0] && LexLe(a[1..], b[1..]))))
  }

  lemma {:induction false} LexTotal(a: string, b: string)
    ensures LexLe(a, b) || LexLe(b, a)
  {
    if a != [] && b != [] && a[0] == b[0] {
      LexTotal(a[1..], b[1..]);
    }
  }

  /** A listed tree and the `created_at` text it is sorted by. */
  datatype Listed = Listed(createdAt: string, tree: Value)

  predicate SortedNewestFirst(s: seq<Listed>)
  {
    |s| <= 1 || (LexLe(s[1].createdAt, s[0].createdAt) && SortedNewestFirst(s[1..]))
  }

  /** Puts `x` after every entry at least as new, as a stable sort puts a later entry. */
  function InsertByAge(x: Listed, s: seq<Listed>): (r: seq<Listed>)
    ensures |r| == |s| + 1
  {
    if s == [] then [x]
    else if LexLe(x.createdAt, s[0].createdAt) then [s[0]] + InsertByAge(x, s[1..])
    else [x] + s
  }

  /** `sort(key=created_at, reverse=True)` */
  function SortByAge(s: seq<Listed>): (r: seq<Listed>)
    ensures |r| == |s|
  {
    if s == [] then [] else InsertByAge(s[|s| - 1], SortByAge(s[..|s| - 1]))
  }

  /** Inserting keeps the entries and adds `x`. */
  lemma {:induction false} InsertByAgeCounts(x: Listed, s: seq<Listed>)
    ensures multiset(InsertByAge(x, s)) == multiset(s) + multiset{x}
  {
    if s != [] && LexLe(x.createdAt, s[0].createdAt) {
      InsertByAgeCounts(x, s[1..]);
      assert s == [s[0]] + s[1..];
    }
  }

  /** Inserting into a listing that is newest first keeps it newest first; the head is
      either `x` or the old head. */
  lemma {:induction false} InsertByAgeSorted(x: Listed, s: seq<Listed>)
    requires SortedNewestFirst(s)
    ensures SortedNewestFirst(InsertByAge(x, s))
    ensures InsertByAge(x, s)[0] == x || (s != [] && InsertByAge(x, s)[0] == s[0])
  {
    if s != [] {
      if LexLe(x.createdAt, s[0].createdAt) {
        InsertByAgeSorted(x, s[1..]);
        var rest := InsertByAge(x, s[1..]);
        assert InsertByAge(x, s) == [s[0]] + rest;
        assert rest[0] == x || rest[0] == s[1];
      } else {
        LexTotal(x.createdAt, s[0].createdAt);
        assert InsertByAge(x, s) == [x] + s;
      }
    }
  }

  /** The listing comes out newest first and holds exactly the listed trees. */
  lemma SortByAgeFacts(s: seq<Listed>)
    ensures SortedNewestFirst(SortByAge(s))
    ensures multiset(SortByAge(s)) == multiset(s)
  {
    SortByAgeSorted(s);
    SortByAgeCounts(s);
  }

  lemma {:induction false} SortByAgeSorted(s: seq<Listed>)
    ensures SortedNewestFirst(SortByAge(s))
  {
    if s != [] {
      SortByAgeSorted(s[..|s| - 1]);
      InsertByAgeSorted(s[|s| - 1], SortByAge(s[..|s| - 1]));
    }
  }

  lemma {:induction false} SortByAgeCounts(s: seq<Listed>)
    ensures multiset(SortByAge(s)) == multiset(s)
  {
    if s != [] {
      var init, last := s[..|s| - 1], s[|s| - 1];
      SortByAgeCounts(init);
      InsertByAgeCounts(last, SortByAge(init));
      assert s == init + [last];
      assert multiset(s) == multiset(init) + multiset{last};
    }
  }

  /** The sort key `x['metadata']['created_at']` of a tree, whatever its type; None
      where it cannot be read (KeyError, or TypeError on indexing a non-dict). */
  function CreatedAt(tree: Value): (r: Option<Value>)
    ensures r.Some? <==> (tree.Obj? && "metadata" in tree.fields
      && tree.fields["metadata"].Obj? && "created_at" in tree.fields["metadata"].fields)
    ensures r.Some? ==> r.value == tree.fields["metadata"].fields["created_at"]
  {
    var m := Index(tree, "metadata");
    if m.None? then None else Index(m.value, "created_at")
  }

  /** A collected tree with its sort key. */
  datatype Keyed = Keyed(key: Value, tree: Value)

  /** The loop of get_tutorial_list over the listed names: `.json` files only; a file
      that is not JSON or a tree whose sort key cannot be read fails the call, a
      tutorial that cannot be converted is skipped. */
  function Collected(files: map<string, StoredFile>, names: seq<string>, repr: Value -> string): (r: Option<seq<Keyed>>)
    ensures r.Some? ==> |r.value| <= |names|
    ensures r.Some? ==> forall k :: 0 <= k < |r.value| ==> CreatedAt(r.value[k].tree) == Some(r.value[k].key)
  {
    if names == [] then Some([])
    else match Collected(files, names[..|names| - 1], repr)
      case None => None
      case Some(init) =>
        var name := names[|names| - 1];
        if !EndsWith(name, ".json") || name !in files then Some(init)
        else match files[name]
          case NotJson => None
          case JsonFile(data) =>
            match TreeOf(data, repr)
            case None => Some(init)
            case Some(tree) =>
              match CreatedAt(tree)
              case None => None
              case Some(key) => Some(init + [Keyed(key, tree)])
  }

  predicate AllText(c: seq<Keyed>)
  {
    forall i :: 0 <= i < |c| ==> c[i].key.Str?
  }

  function AsListed(c: seq<Keyed>): (r: seq<Listed>)
    requires AllText(c)
    ensures |r| == |c| && forall i :: 0 <= i < |c| ==> r[i] == Listed(c[i].key.s, c[i].tree)
  {
    seq(|c|, i requires 0 <= i < |c| => Listed(c[i].key.s, c[i].tree))
  }

  function Trees(s: seq<Listed>): (r: seq<Value>)
    ensures |r| == |s| && forall i :: 0 <= i < |s| ==> r[i] == s[i].tree
  {
    seq(|s|, i requires 0 <= i < |s| => s[i].tree)
  }

  /** The `sort` of get_tutorial_list, newest first. Python reads every key first and
      compares keys only when there are two or more trees: a single tree is listed
      whatever its key, text keys sort as `SortByAge` does, and two or more trees with
      a key that is not text raise here. */
  function Listing(c: seq<Keyed>): (r: Option<seq<Value>>)
    ensures r.None? <==> |c| >= 2 && !AllText(c)
    ensures |c| == 1 ==> r == Some([c[0].tree])
    ensures AllText(c) ==> r == Some(Trees(SortByAge(AsListed(c))))
  {
    if |c| == 1 then
      assert AllText(c) ==> (
        var l := AsListed(c);
        assert l[..0] == [];
        SortByAge(l) == [l[0]] && Trees([l[0]]) == [c[0].tree]);
      Some([c[0].tree])
    else if AllText(c) then Some(Trees(SortByAge(AsListed(c))))
    else None
  }

  /** Every listed tree is the tree of a stored `.json` tutorial, and every stored
      `.json` tutorial that converts is listed. */
  lemma {:induction false} CollectedExactly(files: map<string, StoredFile>, names: seq<string>, repr: Value -> string, x: Keyed)
    requires Collected(files, names, repr).Some?
    ensures x in Collected(files, names, repr).value <==>
      exists i :: 0 <= i < |names| && EndsWith(names[i], ".json") && names[i] in files && files[names[i]].JsonFile?
        && TreeOf(files[names[i]].data, repr) == Some(x.tree) && CreatedAt(x.tree) == Some(x.key)
  {
    if names != [] {
      var init := names[..|names| - 1];
      CollectedExactly(files, init, repr, x);
      assert forall i :: 0 <= i < |init| ==> init[i] == names[i];
    }
  }

  class TutorialManager {
    var files: map<string, StoredFile>
    const saveDir: string

    /** The directory argument is ignored. */
    constructor (requestedDir: Option<string>, existing: map<string, StoredFile>)
      ensures saveDir == SaveDir && files == existing
    {
      saveDir := SaveDir;
      files := existing;
    }

    /** save_tutorial: `tutorial` gets `metadata` holding the creation time and the file
        name, and is stored under that name, which is returned. A missing title, or one the
        safe-title join cannot iterate, raises before anything changes. */
    method SaveTutorial(tutorial: map<string, Value>, timestamp: string, createdAt: string, isAlnum: char -> bool)
      returns (r: Option<(string, map<string, Value>)>)
      modifies this
      ensures r.None? <==> !("title" in tutorial && SafeTitleOf(tutorial["title"], isAlnum).Some?)
      ensures r.None? ==> files == old(files)
      ensures r.Some? ==> (
        var (name, saved) := r.value;
        name == FileName(timestamp, SafeTitleOf(tutorial["title"], isAlnum).value)
        && saved == tutorial["metadata" := Obj(map["created_at" := Str(createdAt), "filename" := Str(name)])]
        && files == old(files)[name := JsonFile(Obj(saved))])
    {
      if "title" !in tutorial {
        return None;
      }
      var safe := SafeTitleOf(tutorial["title"], isAlnum);
      if safe.None? {
        return None;
      }
      var name := FileName(timestamp, safe.value);
      var saved := tutorial["metadata" := Obj(map["created_at" := Str(createdAt), "filename" := Str(name)])];
      files := files[name := JsonFile(Obj(saved))];
      r := Some((name, saved));
    }

    /** get_tutorial_list over a listing of the directory in the order given. */
    method GetTutorialList(listing: seq<string>, repr: Value -> string) returns (r: Option<seq<Value>>)
      ensures r.None? <==> Collected(files, listing, repr).None? || Listing(Collected(files, listing, repr).value).None?
      ensures r.Some? ==> r == Listing(Collected(files, listing, repr).value)
    {
      var collected := [];
      for i := 0 to |listing|
        invariant Collected(files, listing[..i], repr) == Some(collected)
      {
        assert listing[..i + 1][..i] == listing[..i];
        var name := listing[i];
        if EndsWith(name, ".json") && name in files {
          match files[name] {
            case NotJson =>
              CollectedStuck(files, listing, i, repr);
              return None;
            case JsonFile(data) =>
              var tree := ConvertToTree(data, repr);
              if tree.Some? {
                var key := CreatedAt(tree.value);
                if key.None? {
                  CollectedStuck(files, listing, i, repr);
                  return None;
                }
                collected := collected + [Keyed(key.value, tree.value)];
              }
          }
        }
      }
      assert listing[..|listing|] == listing;
      r := Listing(collected);
    }

    /** get_tutorial: the tree of a stored tutorial; a missing file, text that is not
        JSON or a tutorial that cannot be converted raises. */
    function GetTutorial(name: string, repr: Value -> string): (r: Option<Value>)
      reads this
      ensures r.Some? ==> name in files && files[name].JsonFile? && r == TreeOf(files[name].data, repr)
    {
      if name !in files then None
      else match files[name]
        case NotJson => None
        case JsonFile(data) => TreeOf(data, repr)
    }

    /** delete_tutorial: true exactly when the file existed, which is then gone. */
    method DeleteTutorial(name: string) returns (existed: bool)
      modifies this
      ensures existed <==> name in old(files)
      ensures files == old(files) - {name}
    {
      existed := name in files;
      files := files - {name};
    }
  }

  /** A stored file that fails the listing fails it whatever follows. */
  lemma {:induction false} CollectedStuck(files: map<string, StoredFile>, names: seq<string>, i: nat, repr: Value -> string)
    requires i < |names| && EndsWith(names[i], ".json") && names[i] in files
    requires Collected(files, names[..i], repr).Some?
    requires files[names[i]].NotJson?
      || (TreeOf(files[names[i]].data, repr).Some? && CreatedAt(TreeOf(files[names[i]].data, repr).value).None?)
    ensures Collected(files, names, repr).None?
    decreases |names| - i
  {
    assert names[..i + 1][..i] == names[..i];
    CollectedNoneFrom(files, names, i + 1, repr);
  }

  lemma {:induction false} CollectedNoneFrom(files: map<string, StoredFile>, names: seq<string>, k: nat, repr: Value -> string)
    requires 0 < k <= |names| && Collected(files, names[..k], repr).None?
    ensures Collected(files, names, repr).None?
    decreases |names| - k
  {
    if k == |names| {
      assert names[..k] == names;
    } else {
      assert names[..k + 1][..k] == names[..k];
      CollectedNoneFrom(files, names, k + 1, repr);
    }
  }
}
